=== FILE: README.md ===
# Team, project and task backend — a Dafny model

This project models the decision core of a Django REST backend for teams, projects and tasks, plus the pure helpers of its Next.js front end.

The backend state is a `Store.World`. It holds:

- the users;
- teams and memberships, keyed by (user, team), each with a role and an invitation status;
- projects, tasks, comments and uploaded files;
- notifications, the activity log, time entries and password-reset tokens;
- the e-mails and channel-layer pushes sent, recorded as events.

Every table is a sequence of optional rows (`Tables.Table`). A row's id is its index, and a deleted row leaves a tombstone, so ids are never reused.

Each REST action is a pure function from the world and the request to an `Outcome`: the new world plus either a value or an error. The error is one of:

- 404 not found;
- 403 with the reason;
- 400 with the rejected field or rule;
- 500 for an exception the view does not catch.

Writes made before a failure stay in the new world, just as they do in the database.

The model follows the code's authorization exactly. Every membership test goes through the team's `members` relation. That relation spans memberships of every status, so a pending or declined invitee passes it (`Access.PendingInviteePasses`). The admin checks look at the role alone (`Teams.PendingAdminMayDeleteTeam`).

Modules:

- `Wrappers`, `Tables`, `Ordering`, `Decimal`, `Uuid`: options and results, tombstoned tables, sorting, decimal text and UUID text.
- `Store`: the entities, the world and the error kinds.
- `Cascade`: what deleting a task, project or team takes with it.
- `Access`: the permission classes.
- `Teams`, `Accounts`, `Projects`, `Tasks`, `Comments`, `TaskFiles`, `TimeTrack`: the view sets.
- `Notify`: notification fan-out and the push-group registry.
- `Activity`: the activity log and its query.
- `Threading`, `TimeSummary`, `Timer`, `PasswordForm`: front-end logic.

Some inputs are parameters, because their behaviour is outside what is modelled:

- the clock (`now`);
- whether a channel layer is configured (`layer`);
- the verdict of `IsProjectAdmin` (`projectAdmin`);
- token expiry (`expired`);
- e-mail syntax validation (`wellFormed`);
- the random UUID of a new reset token (`token`).

## Model

| member | source | states |
|---|---|---|
| Teams.TeamsOf | apps/teams/views.py:19-20 | The team list holds exactly the live teams where the requester has a membership of any status, each once, in id order. |
| Teams.GetTeam | apps/teams/views.py:19-20 | A detail lookup succeeds exactly for teams in the requester's list; anything else is not found. |
| Teams.IsTeamAdmin | teams/permisions.py:5-16 | Anonymous and collection requests are denied. A team outside the requester's list is not found. Otherwise access is allowed exactly when an admin-role membership exists, whatever its status. |
| Teams.AdminGate | teams/permisions.py:11-16 | Admin-only actions pass exactly on an admin-role membership. Otherwise a member gets forbidden and an outsider gets not-found. |
| Teams.CreateTeam | apps/teams/views.py:27-37 | Creation fails, changing nothing, exactly when the name is blank, longer than 100 characters or already taken. On success there is one new team, and its creator has exactly one membership in it, admin and accepted. |
| Teams.CreateTeamKeepsNamesUnique | apps/teams/models.py:7 | Team creation preserves the uniqueness of team names. |
| Teams.SecondTeamWithSameNameFails | apps/teams/views.py:28-30 | Once a team exists, creating another with the same name fails and changes nothing. |
| Teams.InviteMail | apps/teams/views.py:68-72 | The invitation goes only to the invitee's address, from the fixed sender. |
| Teams.Invite | apps/teams/views.py:39-66 | Gate errors and a blank e-mail change nothing. An unknown address first gets a placeholder user, with empty names and an unusable password, which remains even if the invite then fails. Past the gate, the invite succeeds exactly when the invitee has no membership of any status in the team. Success adds exactly one pending membership with the requested role (default developer) and mails the invitee. |
| Teams.InviteOfMemberFails | apps/teams/views.py:55-56 | Inviting someone who already has any membership in the team fails, with the world unchanged. |
| Teams.InviteKeepsEmailsUnique | apps/teams/views.py:48-53 | The placeholder user keeps e-mail addresses unique. |
| Teams.Respond | apps/teams/views.py:74-98 | Answering succeeds exactly on an existing pending membership. Only that membership's status changes. A processed invitation is refused, and a requester without a membership gets not-found. |
| Teams.Accept | apps/teams/views.py:74-85 | Accepting succeeds exactly from pending, and leaves the membership accepted. |
| Teams.Decline | apps/teams/views.py:87-98 | Declining succeeds exactly from pending, and leaves the membership declined. |
| Teams.AnswerIsFinal | apps/teams/views.py:79-80 | After an invitation has been answered, both answers are refused and change nothing. |
| Teams.RemoveMemberAsWritten | apps/teams/views.py:100-113 | The as-written removal passes its guard whenever the posted text differs from the admin's id as text. It succeeds exactly when that text parses to a user with a membership of the team, and it then deletes exactly that membership. Gate errors pass through, and every failure changes nothing. |
| Teams.AdminRemovesSelfAsWritten | apps/teams/views.py:105-110 | A zero-padded copy of the admin's own id passes the self-removal guard, and the admin's membership is deleted. |
| Teams.RemoveMember | apps/teams/views.py:100-113 | The corrected removal never deletes the requester's own membership. Otherwise it deletes exactly the (team, user_id) membership, or reports not-found with no change. |
| Teams.ChangeRole | apps/teams/views.py:115-130 | A role outside admin, manager and developer is refused before any lookup. With a valid role, the change succeeds exactly when the posted user has a membership of the team. Then only that membership's role changes, to the new role; failures change nothing. |
| Teams.DestroyTeam | apps/teams/views.py:132-149 | Deletion succeeds exactly for an admin-role member. An outsider gets not-found and a non-admin gets forbidden. The resulting world is exactly the team cascade: the team, its memberships, its projects and their tasks go; nothing else changes. |
| Teams.PendingAdminMayDeleteTeam | apps/teams/views.py:135-142 | An admin-role invitee whose invitation is still pending may delete the team and passes the admin permission. |
| Access.IsTeamMember | apps/projects/permisions.py:4-10 | An object with a project is allowed exactly for members of that project's team. An object with only a team is allowed exactly for that team's members. An object with neither is denied. |
| Access.ProjectBranchDecides | apps/projects/permisions.py:6-9 | When an object has both a project and a team, its own team is ignored. |
| Access.TaskMembershipIsTeamMembership | apps/projects/permisions.py:6-7 | For a task, the check is membership in the team of the task's project. |
| Access.IsProjectTeamMember | apps/comments/permisions.py:4-10 | An object without a task is denied. Otherwise it is allowed exactly for members of the task's project's team. |
| Access.IsTaskCreatorOrAssignee | tasks/permisions.py:4-6 | Allowed exactly for the task's creator or its current assignee. For an unassigned task, only the creator is allowed. |
| Access.MembershipDecisionsIgnoreRoleAndStatus | apps/comments/permisions.py:10 | Rewriting an existing membership's role or status changes none of the membership decisions. |
| Access.PendingInviteePasses | apps/teams/models.py:9 | A pending invitee passes every membership check on the team's projects and tasks. |
| Access.TaskGate | apps/comments/views.py:17-21 | A missing task is not found. A task in another team is forbidden. Otherwise the task is returned. |
| Accounts.RequiredText | apps/users/serializers.py:47-48 | A required text field accepts exactly a present, non-empty value. |
| Accounts.NewPassword | apps/users/serializers.py:50-54 | A new password is accepted exactly when present and at least 7 characters long. A shorter non-empty one is rejected as too short. |
| Accounts.ChangePassword | apps/users/views.py:39-57 | The password changes exactly when both fields are present, the new one has at least 7 characters and the old one matches. On every failure nothing changes. A wrong old password is reported as such. |
| Accounts.ChangePasswordSwapsCredentials | apps/users/views.py:49-53 | After a change the new password is accepted, and an old password that differs from it is not. |
| Accounts.ResetMail | apps/users/views.py:76-81 | The reset mail goes only to the requested address, from the fixed sender. |
| Accounts.RequestReset | apps/users/views.py:60-85 | A missing e-mail is rejected as required and a malformed one as an invalid e-mail, both with no change. An unknown address succeeds with no change. A known address gets exactly one new token and one mail with the reset link. |
| Accounts.ConfirmReset | apps/users/views.py:88-113 | Text that is not a UUID, an unknown token or a short password is rejected with no change. An expired token is deleted and refused. A valid one sets the user's password and is deleted. No password changes unless the reset succeeds. |
| Accounts.ResetTokenSingleUse | apps/users/views.py:106-109 | After a successful reset, the same token text is an invalid token. |
| Accounts.ResetLinkCompletesReset | apps/users/views.py:72-111 | The token mailed for a known address, if not expired, resets that user's password to the new one. |
| Accounts.PasswordFrom | apps/users/views.py:136 | Setting a missing password leaves it unusable; any text becomes a usable password. |
| Accounts.RegisterAndAccept | apps/users/views.py:116-146 | An unknown address is not found, and an already registered user is refused, both with no change. Otherwise the names and password are written first and persist. Then exactly a pending membership of the given team becomes accepted; a missing or processed one is an error that keeps those writes. |
| Accounts.RegisterTwiceRefused | apps/users/views.py:131-132 | Repeating a successful registration is refused and changes nothing. |
| Accounts.UpdateProfile | apps/users/views.py:31-37 | A profile update changes at most the requester's first and last name. The id, e-mail, date joined, password and every other user stay the same. Names over 150 characters are refused. |
| Uuid.Parse | apps/users/serializers.py:62 | A token parses exactly when, after stripping braces and removing hyphens, it is 32 hex digits. The result is below 2^128. |
| Uuid.Format | apps/users/views.py:68 | A token prints as 36 characters with hyphens at positions 8, 13, 18 and 23. |
| Uuid.ParseFormat | apps/users/serializers.py:62 | The canonical hyphenated text of any 128-bit value parses back to that value. |
| Uuid.ParseBraced | apps/users/serializers.py:62 | Braces around a canonical UUID do not change what it parses to. |
| Decimal.PaddedParsesToSame | apps/teams/views.py:105-109 | A zero-padded decimal id is different text but parses to the same integer. |
| Decimal.Show | apps/teams/views.py:105 | An id prints as a non-empty run of decimal digits with no leading zero, unless it is 0. |
| Decimal.Parse | apps/teams/views.py:109 | Text coerces to an integer id exactly when it is a non-empty run of decimal digits. |
| Decimal.ParseShow | apps/teams/views.py:105-109 | The printed form of an id coerces back to that id. |
| Projects.ProjectsOf | apps/projects/views.py:19-20 | The project list holds exactly the live projects whose team has the requester as a member of any status, highest id first. |
| Projects.GetProject | apps/projects/views.py:19-20 | A detail lookup succeeds exactly for listed projects; anything else is not found. |
| Projects.ValidName | apps/projects/models.py:8 | A project name is accepted exactly when present, non-blank, at most 255 characters and not held by another project. |
| Projects.CreateProject | apps/projects/views.py:32-36 | Creation succeeds exactly for a valid name and a live team of which the requester is a member. A non-member is forbidden. Failures change nothing. The new project has the requester as creator. |
| Projects.CreatedProjectListedFirst | apps/projects/views.py:19-36 | A project just created heads its creator's project list. |
| Projects.CreateProjectKeepsNamesUnique | apps/projects/models.py:8 | Project creation preserves the uniqueness of project names. |
| Projects.UpdateProject | apps/projects/views.py:22-24 | An unlisted project is not found and a non-admin is forbidden, with no change. For a listed project and an admin, the update succeeds exactly when no name is given or the new name is valid; a refused name reports the name's own error. An update changes only the given name and description. |
| Projects.DestroyProject | apps/projects/views.py:22-24 | Deletion succeeds exactly for a listed project and a project admin. The resulting world is exactly the project cascade for that one project; nothing is logged. |
| Cascade.DeleteTasks | apps/timetrack/models.py:11 | Deleting tasks removes exactly those tasks and the comments, files and time entries on them. Every other row is unchanged. |
| Cascade.ClearLogProjects | apps/logs/models.py:24 | Log entries of a deleted project stay, with the project set to null; all other entries are unchanged. |
| Cascade.DeleteProjects | apps/tasks/models.py:26 | Deleting projects removes exactly those projects and their tasks, and exactly the comments, files and time entries on those tasks. Every surviving row is unchanged. The log keeps every entry, with only references to the doomed projects cleared. |
| Cascade.DeleteTeam | apps/teams/models.py:35 | Deleting a team removes it, exactly its memberships and exactly its projects. A task or comment survives exactly when it is outside the team. Apart from teams and memberships, the world is the project cascade of the team's projects. |
| Tasks.ParseStatus | apps/tasks/models.py:8-15 | Exactly the three status names parse, each to the status it names. |
| Tasks.ParsePriority | apps/tasks/models.py:16-23 | Exactly the three priority names parse, each to the priority it names. |
| Tasks.ChoicesRoundTrip | apps/tasks/models.py:8-23 | Every stored status and priority reads back as itself. |
| Tasks.TitleField | apps/tasks/models.py:24 | A title is accepted exactly when present, non-blank and at most 255 characters. |
| Tasks.StatusField | apps/tasks/models.py:28 | The status is required and must be one of the choices. |
| Tasks.PriorityField | apps/tasks/models.py:29 | The priority is required and must be one of the choices. |
| Tasks.ValidateCreate | apps/tasks/serializers.py:41-60 | The create serializer accepts a request exactly when its title, project, assignee, status, priority and due date are all acceptable. The draft carries the request's values. A request that would pass with due date now is refused as in the past when its due date precedes now. |
| Tasks.TasksOf | apps/tasks/views.py:26-28 | The task list holds exactly the live tasks of the URL's project whose team includes the requester. |
| Tasks.RetrieveTask | apps/tasks/views.py:21-28 | A detail lookup succeeds exactly for listed tasks; outsiders get not-found. |
| Tasks.CreateTask | apps/tasks/views.py:35-63 | An invalid request, a missing project, a non-member requester and an assignee outside the team are each refused with no change. On success the new task is the next id, with the request's fields, the requester as creator and the URL's project. One 'created' entry is logged. The assignee, when set and not the requester, gets exactly the default notification: one push, one mail and one unread row. Otherwise no notification, push or mail. Nothing else changes. A failing push keeps the task but logs nothing. |
| Tasks.Persist | apps/tasks/views.py:46-63 | After the checks, the saved task is exactly the validated draft with the URL's project, the requester as creator and the current time. Only a notification to an assignee other than the requester can fail, and only without a channel layer. It then keeps the task and changes nothing else. On success exactly one 'created' entry is appended and the assignee's notification is the default one; only tasks, log, notifications, pushes and mails change. |
| Tasks.SelfAssignedNeedsNoLayer | apps/tasks/views.py:48-54 | A self-assigned task sends no notification, so creating it does not depend on the channel layer. |
| Tasks.UpdateTask | apps/tasks/views.py:65-75 | An unlisted task is not found and a requester who is neither creator nor assignee is forbidden, with no change. Otherwise the update succeeds exactly when the input is acceptable. The stored task is then the validated update: a given status or priority is the one it names, an absent one is kept. One 'updated' entry is logged. |
| Tasks.ValidateUpdate | apps/tasks/serializers.py:9-27 | The update serializer accepts exactly when every given field is acceptable and, for a full update, title, status, priority and due date are all given. Refusals are bad requests. An absent status or priority keeps the old one. Assignee, project and creator never change. |
| Tasks.UpdateAcceptsPastDueDate | apps/tasks/views.py:30-33 | An update accepts a due date in the past, because the past-date check belongs to the create serializer only. |
| Tasks.DestroyTask | apps/tasks/views.py:77-86 | Deletion succeeds exactly for the creator or assignee of a listed task. The resulting world is exactly: the 'deleted' entry logged, then the task cascade for that one task. The entry survives the task and everything on it. |
| Tasks.AdminRoleGrantsNoTaskRights | tasks/permisions.py:6 | A team admin who neither created the task nor is assigned it is forbidden to delete it. |
| Tasks.AssignedName | apps/tasks/serializers.py:29-32 | An unassigned task renders no assignee; an assigned one renders "first last". |
| Tasks.ProjectRef | apps/tasks/serializers.py:34-38 | A task renders its project as exactly the project's id and name. |
| Comments.TopLevel | apps/comments/views.py:25 | Holds exactly the task's live comments that have no parent. |
| Comments.ListComments | apps/comments/views.py:23-26 | Behind the task gate, the list holds exactly the task's top-level comments, newest first. |
| Comments.RepliesOf | apps/comments/serializers.py:13 | A comment's replies are exactly the live comments naming it as parent, in id order. |
| Comments.Render | apps/comments/serializers.py:6-21 | A rendered comment carries its id, text, time and author's "first last", with its replies rendered one level less deep. |
| Comments.RenderAll | apps/comments/serializers.py:13 | Renders each listed comment in order, keeping its id. |
| Comments.RepliesNestWithSameShape | apps/comments/serializers.py:6-9 | Each rendered reply is the same rendering applied to that reply, with its own replies. |
| Comments.CheckParent | apps/comments/serializers.py:37-43 | No parent always passes; a parent passes exactly when it is on the same task. |
| Comments.CreateComment | apps/comments/views.py:33-54 | Creation succeeds exactly when the text is non-blank, the task gate passes, the parent is on the same task, and a channel layer exists or no notification is due. Without a channel layer, the comment is still saved and nothing else changes. On success: the comment is saved on the URL's task with the requester as author; one 'commented' entry is logged; and the assignee, when set and not the commenter, gets exactly the default notification. Nothing else changes. |
| Comments.Post | apps/comments/views.py:35-54 | The comment is inserted as the next id with the task, author, text and parent given. It fails exactly when a notification is due and there is no channel layer; the comment then stays and nothing else changes. On success exactly one 'commented' entry naming the task and its project is appended, and the assignee's notification, when due, is the default one. |
| Comments.CrossTaskReplyRefused | apps/comments/serializers.py:41-42 | A reply naming a comment of another task fails and changes nothing. |
| Comments.Prefix30 | apps/comments/views.py:73 | Keeps at most the first 30 characters, and all of a text that is no longer than that. |
| Comments.GetComment | apps/comments/views.py:23-26 | The detail routes reach exactly the top-level comments of the task, behind the task gate; a reply is not found. |
| Comments.UpdateComment | apps/comments/views.py:28-31 | Any team member may edit a top-level comment. A full update without text is refused as required. The edit succeeds exactly when the comment is reachable, the text is present or the update is partial, the given text is not blank, and a given parent is a live comment on the same task. Failures change nothing. |
| Comments.NonAuthorMayEdit | apps/comments/views.py:15 | A team member who did not write a comment can still edit it. |
| Comments.DestroyComment | apps/comments/views.py:67-76 | Deletion succeeds exactly for reachable comments. One 'deleted' entry, holding the first 30 characters of the text, is logged before the comment is removed. |
| TaskFiles.ValidateFile | apps/taskfiles/serializers.py:6-24 | A file is accepted exactly when it is present with a non-empty name and has between 1 byte and 5 MiB. A missing or unnamed file is required, an empty one is refused as empty, and a larger one as too large. |
| TaskFiles.ContentTypeIgnored | apps/taskfiles/serializers.py:21-24 | The content type never changes the verdict. |
| TaskFiles.ListFiles | apps/taskfiles/views.py:15-21 | Behind the task gate, the list holds exactly that task's files, newest upload first. |
| TaskFiles.UploadFile | apps/taskfiles/views.py:23-29 | The file check comes first, so a missing, unnamed, empty or oversized file is refused; then the task gate. Success stores one file with the URL's task and the requester as uploader. Failures change nothing. |
| TaskFiles.SameNameUploadsCoexist | apps/taskfiles/views.py:29 | Two uploads with the same name are two distinct records, both listed. |
| TaskFiles.RenderFile | apps/taskfiles/serializers.py:14-15 | A listed file shows its uploader as "first last". |
| Notify.NotifyUser | apps/notify/services.py:7-35 | Without a channel layer the call fails before any effect. Otherwise there is exactly one push to "user_<id>" with the message, type and time. Exactly one mail goes to the user's address when subject, body and address are all non-empty, and none otherwise. Exactly one unread row is stored when save holds, and none otherwise. Nothing else changes. |
| Notify.NotifyDefault | apps/notify/services.py:7 | By default the stored row has type general. |
| Notify.SavedWithoutMail | apps/notify/services.py:25-35 | With no subject or body, no mail is sent but the row is still stored. |
| Notify.ListNotifications | apps/notify/views.py:13-14 | The list holds at most 20 of the requester's own notifications, newest first. Any of theirs left out is no newer than every listed one. |
| Notify.MarkAsRead | apps/notify/views.py:16-21 | Another user's or a missing notification is not found. Otherwise only that row's read flag becomes true. |
| Notify.MarkAsReadIdempotent | apps/notify/views.py:19-20 | Marking as read twice gives the same world as marking once. |
| Notify.Connect | apps/notify/consumers.py:5-9 | The socket's group is "user_" followed by the URL's user id. The channel joins that group and no other group changes. |
| Notify.Disconnect | apps/notify/consumers.py:11-12 | The channel leaves its group; other channels and groups are unchanged. |
| Notify.Deliveries | apps/notify/services.py:12-22 | A push reaches exactly the channels in its group, each with the push's data. |
| Notify.Received | apps/notify/consumers.py:14-15 | A channel receives at most one frame per push, and each frame is the data of a push sent to a group it belongs to. |
| Notify.SocketReceivesNotification | apps/notify/services.py:12-22 | A socket connected with a user's decimal id receives, as its next frame, exactly the message, type and time that notifying that user pushes. |
| Notify.ConnectedSocketGetsOwnPushes | apps/notify/consumers.py:6-8 | A socket opened with a user's decimal id receives the pushes for that user, and not those for another user whose group it had not joined. |
| Notify.DisconnectUndoesConnect | apps/notify/consumers.py:8-12 | Disconnecting a freshly connected channel restores every group. |
| Activity.LogActivity | apps/logs/services.py:4-12 | Logging appends exactly one entry with the given values, leaving every earlier entry and every other table unchanged. |
| Activity.Filter | logs/views.py:13-22 | Keeps every entry that satisfies all active filters, as often as it occurs, and nothing else. |
| Activity.Query | logs/views.py:10-24 | The log list is the filtered log, as a multiset, sorted by timestamp, newest first. |
| Activity.UnfilteredQueryIsWholeLog | logs/views.py:11 | With no filter, the list holds every entry of the log. |
| Activity.LoggedEntryIsListed | logs/views.py:17-22 | A newly logged entry that matches a filter appears in that filtered list. |
| TimeTrack.EntriesOf | apps/timetrack/views.py:12-13 | The list holds exactly the requester's live entries, newest date first and then newest creation. |
| TimeTrack.GetEntry | apps/timetrack/views.py:12-13 | A detail lookup succeeds exactly for listed entries; anything else is not found. |
| TimeTrack.MinutesField | apps/timetrack/models.py:13 | Absent minutes default to 0. A given value must lie in the column's range 0 to 2147483647. |
| TimeTrack.ValidateNew | apps/timetrack/models.py:12-14 | A new entry needs a date; the minutes are checked as above. |
| TimeTrack.CreateEntryAsWritten | apps/timetrack/views.py:15-16 | The as-written create never succeeds and never changes the world. A request that passes validation fails on the task column's NOT NULL constraint. |
| TimeTrack.CreateEntry | apps/timetrack/views.py:15-16 | The corrected create succeeds exactly for a valid request that names a live task with no entry by the same user on that date. The new entry always belongs to the requester. Failures change nothing. |
| TimeTrack.CreateEntryKeepsEntriesUnique | apps/timetrack/models.py:19 | The corrected create keeps (user, task, date) unique, and its creator sees the new entry listed. |
| TimeTrack.UpdateEntry | apps/timetrack/serializers.py:7-13 | The update succeeds exactly when the entry is the requester's, a full update gives a date, the minutes are valid, and the date does not clash with another entry of the same user and task. A clash, and only a clash, fails in the database. On success the minutes, note and date are the given ones or unchanged, and user, task and creation time never change. |
| TimeTrack.DeleteEntry | apps/timetrack/views.py:12-13 | Only the requester's own entry is deleted, and nothing else. |
| TimeTrack.OthersEntriesUnreachable | apps/timetrack/views.py:12-13 | Another user's entry is not listed, and reading, updating or deleting it is not found with no change. |
| Threading.Nest | frontend/src/components/TaskComments.tsx:60-72 | Every listed id gets a node: the last comment with that id, with a fresh reply list replacing any incoming one. |
| Threading.UnderAppend | frontend/src/components/TaskComments.tsx:64-69 | Roots and reply lists keep the input order: threading a concatenation concatenates the lists. |
| Threading.RootsAreFalsyParents | frontend/src/components/TaskComments.tsx:67-68 | With unique ids, a comment is a root exactly once if its parent is null or 0, and never otherwise. |
| Threading.ThreadedExactlyOnce | frontend/src/components/TaskComments.tsx:60-72 | With unique ids, a comment whose parent is falsy or listed appears exactly once: among the roots, or in its parent's replies. It appears in no other list. |
| Threading.OrphanDropped | frontend/src/components/TaskComments.tsx:64-69 | A comment whose parent is not in the list appears neither among the roots nor in any reply list. |
| Threading.FromServer | apps/comments/serializers.py:18 | A served comment carries its id, text and reply ids, but no author e-mail and no parent. |
| Threading.UnderParentless | frontend/src/components/TaskComments.tsx:64-69 | When no comment has a parent, the roots are every comment in order and every reply list is empty. |
| Threading.ServedCommentsFlatWithoutControls | frontend/src/components/TaskComments.tsx:60-72 | Threading the comments the list view serves makes every one a root with no replies, and none of them shows edit or delete controls. |
| Threading.ShowsControls | frontend/src/components/TaskComments.tsx:185 | Edit and delete are offered exactly when the comment carries an author e-mail equal to the stored one (or to "" when none is stored) and the comment is not being edited. A comment without an author e-mail never offers them. |
| Threading.BlankEmailShowsControls | frontend/src/components/TaskComments.tsx:34 | With no stored e-mail, a comment that carries an empty author e-mail still shows the controls. |
| TimeSummary.FormatMinutes | frontend/src/app/dashboard/time-tracking/page.tsx:9-15 | The label shows h hours and m minutes with h*60 + m equal to the total: reading it back gives the total. |
| TimeSummary.FormatInjective | frontend/src/app/dashboard/time-tracking/page.tsx:9-15 | Different totals get different labels. |
| TimeSummary.PieData | frontend/src/app/dashboard/time-tracking/page.tsx:36-49 | The slices never repeat a bucket name, and there are no more slices than entries. |
| TimeSummary.PieDataTotals | frontend/src/app/dashboard/time-tracking/page.tsx:36-49 | The slices sum to the total minutes, and each bucket holds exactly the minutes of its entries. |
| TimeSummary.PieDataBuckets | frontend/src/app/dashboard/time-tracking/page.tsx:39-43 | There is one slice per bucket name that occurs, and no name twice. |
| TimeSummary.BucketNamesListed | frontend/src/app/dashboard/time-tracking/page.tsx:39-43 | A bucket name occurs exactly when some entry falls in it. |
| TimeSummary.DropFive | frontend/src/app/dashboard/time-tracking/page.tsx:55 | Slicing loses exactly the first five characters, or yields nothing for shorter text. |
| TimeSummary.BarData | frontend/src/app/dashboard/time-tracking/page.tsx:52-58 | There are no bars without a summary or per-day list. Otherwise there is one bar per day, in order, with the same minutes and the date minus its first five characters. |
| Timer.Start | frontend/src/lib/timerStore.ts:29-40 | Starting runs the given task from now with nothing elapsed, whatever was stored before. |
| Timer.Stop | frontend/src/lib/timerStore.ts:41-54 | Stopping a stopped timer changes nothing. Stopping a running one keeps the task and clears the start. Elapsed time read just before the stop is what is read ever after. |
| Timer.Reset | frontend/src/lib/timerStore.ts:55-62 | Reset gives the initial state: not running, no task, no start, reading zero at any time. |
| Timer.GetElapsed | frontend/src/lib/timerStore.ts:63-70 | Without a task the reading is 0. Stopped, it is the stored seconds. Running from a start time, it adds the whole seconds since the start, rounded down. |
| Timer.ConsistentPreserved | frontend/src/lib/timerStore.ts:23-62 | "Running exactly when a start time is stored" holds initially and is kept by start, stop and reset. |
| Timer.ElapsedMonotone | frontend/src/lib/timerStore.ts:63-70 | The elapsed reading never decreases as the clock moves forward. |
| PasswordForm.Submit | frontend/src/app/dashboard/profile/change-password/page.tsx:16-34 | Any empty field blocks the submit. Otherwise the form sends exactly when the confirmation matches and the new password has 8 to 16 characters. A mismatch is reported before a bad length. A request carries only the old and new passwords. |
| PasswordForm.SentPasswordAccepted | frontend/src/app/dashboard/profile/change-password/page.tsx:28-34 | Whatever the form sends meets the server's length rule, so with a correct current password the change succeeds. |
| PasswordForm.FormAndServerDiffer | frontend/src/app/dashboard/profile/change-password/page.tsx:24-27 | The form refuses a 7-character and a 17-character password, both of which the server accepts. An empty current password is blocked before any request. |

## Left out

- Request parsing: DRF trims whitespace from text fields and reports several field errors at once. The model takes text as given and reports the first error, in field order.
- Python integer and UUID coercions beyond decimal digits and hex with hyphens or braces. Not modelled: signs, underscores, surrounding whitespace, "urn:uuid:" and other forms `int()` and `uuid.UUID` accept.
- Query-string filtering, search, ordering parameters and pagination of the list views, except the log filters and the notification page of 20.
- The plain `register` action, `me`, JWT issuance and password hashing. A password is an opaque secret or unusable.
- `IsProjectAdmin`: its definition is not part of this model and enters as the `projectAdmin` parameter.
- `PasswordResetToken.is_expired`: not part of this model, so it enters as the `expired` parameter.
- E-mail address syntax: enters as the `wellFormed` parameter.
- The Comment and TaskFile models are not part of this model. Whether deleting a comment deletes its replies is not modelled: `Comments.DestroyComment` removes only the comment itself.
- A full update of a project (PUT with the nested team serializer), budget and due date writes, and file update and delete.
- The role column's 9-character limit: `Teams.Invite` stores the role it is given.
- URL ids that are not numbers; ids are natural numbers.
- Comments.Render: `depth` bounds the recursive rendering; replies deeper than it are cut off.
- Threading.ThreadedExactlyOnce: states exactly-once over the roots and reply lists. It does not prove that, with acyclic parents, following the reply lists from the roots reaches every comment.
- TimeSummary.PieDataBuckets: keeps buckets in first-seen order. JavaScript lists integer-like keys first, and that reordering is not modelled.
- TimeSummary.PieDataTotals: treats every task title as an ordinary key. In JavaScript the buckets live in a plain object literal, so a title naming an inherited member ("constructor", "toString") starts from that member and sums to a string; the stated totals do not hold for such titles.
- TimeSummary.PieDataBuckets: likewise assumes ordinary keys. A task titled "__proto__" sets the object's prototype instead of adding a bucket, so that bucket is missing in JavaScript.
- PasswordForm.Submit: counts a password's characters, where JavaScript counts UTF-16 code units.
- Timer state persistence in local storage and the `Date.now()` clock, which enters as `now`.
- Authentication: every handler takes an authenticated requester `u`. Anonymous requests are refused by `IsAuthenticated` before any handler runs, except on the project `update`, `partial_update` and `destroy` actions, whose only permission is `IsProjectAdmin` (apps/projects/views.py:22-24); there the anonymous caller's verdict is folded into the `projectAdmin` parameter. Only `Teams.IsTeamAdmin` models an absent principal.
- TaskFiles.ValidateFile: does not check the stored file name's length. The model field's `max_length`, which the serializer copies onto the uploaded name, belongs to the TaskFile model, which is not part of this model.
- Unordered querysets are modelled in id order: `Comments.RepliesOf` (`replies.all()`) and `Tasks.TasksOf` (apps/tasks/views.py:28) list rows by ascending id, where the database promises no order.
- Notify.NotifyUser: does not enforce the 255-character limit of the notification message column (apps/notify/models.py:14). A task or comment title near 255 characters makes the composed message longer. A backend that enforces the limit would fail the insert with a 500 after the task or comment is saved; the database backend is not part of this model, and SQLite does not enforce the limit.
- Activity.LogActivity: likewise does not enforce the 255-character limit of `target_repr` (apps/logs/models.py:23), which "Task: " plus a 255-character title exceeds.
- TaskFiles.SameNameUploadsCoexist: the stored name is the client's file name. File storage, which renames a clashing second file, is left out.
- Channel-layer transport and timing, the mail transport and file storage are recorded as events or left out.
- Observation: `Team.members` (apps/teams/models.py:9) goes through the membership table with no status filter, so a pending or declined invitee passes every membership check. The team tests create memberships as pending (tests/test_teams.py:53), and the model counts every status.
- Observation: the comment list serializer sends no author e-mail and no parent (apps/comments/serializers.py:18). The page therefore never shows edit or delete controls for served comments and treats every one as a root with no replies (`Threading.ServedCommentsFlatWithoutControls`).
- Observation: a time-entry update may set the note to null, and the model keeps that case apart from an absent note. Null minutes and a null date are not modelled.
- Observation: a test expects a missing channel layer to be tolerated. The code dereferences it, and the model returns a 500.
- Observation: task-assignment notifications have type general, not task.
- Observation: comments can be edited and deleted by any team member, not only the author.
- Observation: a duplicate team name is caught by the serializer's uniqueness check as a 400, before the view's own check.
- Observation: an update may make a comment its own parent.
- Observation: a role change may leave a team without an admin.

## Findings

| source | as written | input that shows it | evidently intended | confidence | as-written member | corrected member |
|---|---|---|---|---|---|---|
| apps/teams/views.py:105-109 | The self-removal guard compares `str(request.user.id)` with the posted `user_id` as text, while the lookup coerces `user_id` to an integer. | An admin with id 7 posts `user_id` "07": the guard sees different text, and the lookup finds the admin's own membership and deletes it. | An admin can never remove their own membership. | not executed | Teams.RemoveMemberAsWritten, Teams.AdminRemovesSelfAsWritten | Teams.RemoveMember |
| apps/timetrack/views.py:15-16 | The serializer declares `task` read-only (apps/timetrack/serializers.py:9), and `perform_create` supplies only the user. No task reaches the insert. | Any valid create request, e.g. date 2024-01-01 and 30 minutes: the insert violates the task column's NOT NULL constraint, so the response is a 500. | The entry is created for the task named in the request, owned by the requester. (user, task, date) stays unique. | not executed | TimeTrack.CreateEntryAsWritten | TimeTrack.CreateEntry |

=== FILE: access.dfy ===
/**
 * The object-level permission classes. Every membership test goes through
 * `team.members`, which spans memberships of every status, and none of them
 * looks at the role.
 */
module Access {
  import opened Wrappers
  import opened Tables
  import opened Store

  /**
   * What `IsTeamMember` can see of an object: whether it has a `project`
   * attribute (a task) and whether it has a `team` attribute (a project).
   */
  datatype Shape = Shape(project: Option<Id>, team: Option<Id>)

  function TaskShape(task: Task): Shape {
    Shape(Some(task.project), None)
  }

  function ProjectShape(project: Project): Shape {
    Shape(None, Some(project.team))
  }

  /** `IsTeamMember.has_object_permission`: the project branch wins; an object with neither attribute is denied. */
  function IsTeamMember(w: World, u: Id, obj: Shape): (ok: bool)
    ensures obj.project.Some? ==>
              (ok <==> TeamOfProject(w, obj.project.value).Some? && IsMember(w, u, TeamOfProject(w, obj.project.value).value))
    ensures obj.project.None? && obj.team.Some? ==> (ok <==> IsMember(w, u, obj.team.value))
    ensures obj.project.None? && obj.team.None? ==> !ok
  {
    match obj.project
    case Some(p) =>
      (match TeamOfProject(w, p)
       case Some(t) => IsMember(w, u, t)
       case None => false)
    case None =>
      match obj.team
      case Some(t) => IsMember(w, u, t)
      case None => false
  }

  /** When an object has both attributes, its own `team` is ignored. */
  lemma ProjectBranchDecides(w: World, u: Id, p: Id, team: Option<Id>)
    ensures IsTeamMember(w, u, Shape(Some(p), team)) == IsTeamMember(w, u, Shape(Some(p), None))
  {
  }

  /** For a task, `IsTeamMember` is membership in the team of the task's project. */
  lemma TaskMembershipIsTeamMembership(w: World, u: Id, i: Id)
    requires Live(w.tasks, i)
    ensures IsTeamMember(w, u, TaskShape(w.tasks[i].value)) == InTaskTeam(w, u, i)
  {
  }

  /** `IsProjectTeamMember.has_object_permission`: objects without a task are denied. */
  function IsProjectTeamMember(w: World, u: Id, task: Option<Id>): (ok: bool)
    ensures task.None? ==> !ok
    ensures task.Some? ==> (ok <==> InTaskTeam(w, u, task.value))
  {
    task.Some? && InTaskTeam(w, u, task.value)
  }

  /**
   * `IsTaskCreatorOrAssignee.has_object_permission`: creator or current
   * assignee; neither role nor team membership is consulted.
   */
  function IsTaskCreatorOrAssignee(u: Id, task: Task): (ok: bool)
    ensures task.assignedTo.None? ==> (ok <==> u == task.createdBy)
    ensures ok ==> u == task.createdBy || task.assignedTo == Some(u)
    ensures u == task.createdBy || task.assignedTo == Some(u) ==> ok
  {
    task.createdBy == u || task.assignedTo == Some(u)
  }

  /**
   * Status and role do not matter: rewriting a user's membership to any
   * role and any status (a pending or declined invitee, a developer) leaves
   * every membership-based decision as it was.
   */
  lemma MembershipDecisionsIgnoreRoleAndStatus(w: World, v: Id, team: Id, m: Membership, u: Id, obj: Shape, task: Option<Id>)
    requires (v, team) in w.memberships
    ensures var w' := w.(memberships := w.memberships[(v, team) := m]);
            && IsTeamMember(w', u, obj) == IsTeamMember(w, u, obj)
            && IsProjectTeamMember(w', u, task) == IsProjectTeamMember(w, u, task)
  {
    var w' := w.(memberships := w.memberships[(v, team) := m]);
    assert forall a: Id, b: Id :: IsMember(w', a, b) == IsMember(w, a, b);
  }

  /** A pending invitee already passes every membership check of the team's tasks and projects. */
  lemma PendingInviteePasses(w: World, u: Id, i: Id)
    requires Live(w.tasks, i) && TeamOfTask(w, i).Some?
    requires var k := (u, TeamOfTask(w, i).value); k in w.memberships && w.memberships[k].status == Pending
    ensures IsProjectTeamMember(w, u, Some(i))
    ensures IsTeamMember(w, u, TaskShape(w.tasks[i].value))
    ensures IsTeamMember(w, u, ProjectShape(w.projects[w.tasks[i].value.project].value))
  {
  }

  /**
   * The task lookup of the comment and file views (`get_task`, and the file
   * views' inline copy): a missing task is not found, a requester outside
   * its team is forbidden.
   */
  function TaskGate(w: World, u: Id, task: Id): (r: Result<Task, Error>)
    ensures r.Ok? <==> Live(w.tasks, task) && InTaskTeam(w, u, task)
    ensures r.Ok? ==> r.value == w.tasks[task].value
    ensures r.Err? ==> r.error == (if Live(w.tasks, task) then Forbidden(NotTeamMember) else NotFound)
  {
    match Get(w.tasks, task)
    case None => Err(NotFound)
    case Some(t) => if InTaskTeam(w, u, task) then Ok(t) else Err(Forbidden(NotTeamMember))
  }
}

=== FILE: accounts.dfy ===
/**
 * The account views: changing a password, the two-step password reset by
 * e-mailed single-use token, registering through a team invitation, and
 * profile updates.
 */
module Accounts {
  import opened Wrappers
  import opened Tables
  import opened Store
  import Decimal
  import Uuid

  /** The minimum length both password serializers demand. */
  const MinPasswordLength: nat := 7
  const NameMax: nat := 150
  const ResetSender: string := "no-reply@example.com"

  /** `check_password` on the opaque model: an unusable password matches nothing. */
  predicate CheckPassword(p: Password, candidate: string) {
    p.Usable? && p.secret == candidate
  }

  /** A required text field: absent and blank are both rejected. */
  function RequiredText(field: string, v: Option<string>): (r: Result<string, Error>)
    ensures r.Ok? <==> v.Some? && v.value != ""
    ensures r.Ok? ==> r.value == v.value
  {
    match v
    case None => Err(BadRequest(Required(field)))
    case Some(s) => if s == "" then Err(BadRequest(Blank(field))) else Ok(s)
  }

  /** A new password: required, non-blank and at least seven characters. */
  function NewPassword(v: Option<string>): (r: Result<string, Error>)
    ensures r.Ok? <==> v.Some? && |v.value| >= MinPasswordLength
    ensures r.Ok? ==> r.value == v.value
    ensures v.Some? && 0 < |v.value| < MinPasswordLength ==> r == Err(BadRequest(TooShort("new_password")))
  {
    var s :- RequiredText("new_password", v);
    if |s| < MinPasswordLength then Err(BadRequest(TooShort("new_password"))) else Ok(s)
  }

  /**
   * `change_password`: both fields required, the new one at least seven
   * characters, and the old one must match the stored password; otherwise
   * nothing changes.
   */
  function ChangePassword(w: World, u: Id, current: Option<string>, replacement: Option<string>): (r: Outcome<()>)
    requires IsUser(w, u)
    ensures r.result.Ok? <==>
              (current.Some? && current.value != "" && replacement.Some? && |replacement.value| >= MinPasswordLength
               && CheckPassword(w.users[u].password, current.value))
    ensures r.result.Err? ==> r.world == w
    ensures r.result.Err? && current.Some? && current.value != "" && NewPassword(replacement).Ok? ==>
              r.result.error == BadRequest(WrongPassword)
    ensures r.result.Ok? ==>
              r.world == w.(users := w.users[u := w.users[u].(password := Usable(replacement.value))])
  {
    match RequiredText("old_password", current)
    case Err(e) => Outcome(w, Err(e))
    case Ok(o) =>
      match NewPassword(replacement)
      case Err(e) => Outcome(w, Err(e))
      case Ok(n) =>
        if !CheckPassword(w.users[u].password, o) then Outcome(w, Err(BadRequest(WrongPassword)))
        else Outcome(w.(users := w.users[u := w.users[u].(password := Usable(n))]), Ok(()))
  }

  /** After a password change the new password is accepted and the old one (if different) is not. */
  lemma ChangePasswordSwapsCredentials(w: World, u: Id, current: string, replacement: string)
    requires IsUser(w, u)
    requires ChangePassword(w, u, Some(current), Some(replacement)).result.Ok?
    ensures var w' := ChangePassword(w, u, Some(current), Some(replacement)).world;
            CheckPassword(w'.users[u].password, replacement)
            && (current != replacement ==> !CheckPassword(w'.users[u].password, current))
            && (forall v :: 0 <= v < |w.users| && v != u ==> w'.users[v] == w.users[v])
  {
  }

  /** Every stored reset token points at an existing user (its foreign key). */
  predicate TokensOwned(w: World) {
    forall k :: k in w.resetTokens ==> IsUser(w, w.resetTokens[k].user)
  }

  function ResetLink(frontendUrl: string, token: nat): string
    requires token < Uuid.Bound
  {
    frontendUrl + "/reset-password?token=" + Uuid.Format(token)
  }

  function ResetMail(email: string, link: string): (m: Mail)
    ensures m.to == [email] && m.sender == ResetSender
  {
    Mail("Password Reset Request", "Click the link to reset your password: " + link, ResetSender, [email])
  }

  /**
   * `RequestPasswordResetView`: the address must pass the e-mail field's
   * validator (its verdict `wellFormed` is a parameter). An unknown address
   * gets the same success answer and nothing happens; a known one gets one
   * new token, drawn fresh as `token`, and one e-mail with the reset link.
   */
  function RequestReset(w: World, email: Option<string>, wellFormed: bool, token: nat, frontendUrl: string, now: int): (r: Outcome<()>)
    requires token !in w.resetTokens && token < Uuid.Bound
    ensures r.result.Err? <==> !(email.Some? && email.value != "" && wellFormed)
    ensures email.Some? && email.value != "" && !wellFormed ==> r.result == Err(BadRequest(InvalidEmail("email")))
    ensures r.result.Err? ==> r.world == w
    ensures r.result.Ok? && FindUserByEmail(w.users, email.value).None? ==> r.world == w
    ensures r.result.Ok? && FindUserByEmail(w.users, email.value).Some? ==>
              var v := FindUserByEmail(w.users, email.value).value;
              && r.world.resetTokens == w.resetTokens[token := ResetToken(v, now)]
              && r.world.mails == w.mails + [ResetMail(email.value, ResetLink(frontendUrl, token))]
              && r.world == w.(resetTokens := r.world.resetTokens, mails := r.world.mails)
  {
    match RequiredText("email", email)
    case Err(e) => Outcome(w, Err(e))
    case Ok(address) =>
      if !wellFormed then Outcome(w, Err(BadRequest(InvalidEmail("email"))))
      else
        match FindUserByEmail(w.users, address)
        case None => Outcome(w, Ok(()))
        case Some(v) =>
          Outcome(w.(resetTokens := w.resetTokens[token := ResetToken(v, now)],
                     mails := w.mails + [ResetMail(address, ResetLink(frontendUrl, token))]),
                  Ok(()))
  }

  /**
   * `ConfirmPasswordResetView`: the token must be UUID text and the new
   * password at least seven characters; an unknown token is rejected; an
   * expired one (`expired` stands for the token model's check) is deleted
   * and rejected; otherwise the owner's password is set and the token is
   * deleted.
   */
  function ConfirmReset(w: World, tokenText: string, replacement: Option<string>, expired: ResetToken -> bool): (r: Outcome<()>)
    requires TokensOwned(w)
    ensures r.result.Ok? <==>
              (Uuid.Parse(tokenText).Some? && NewPassword(replacement).Ok? && Uuid.Parse(tokenText).value in w.resetTokens
               && !expired(w.resetTokens[Uuid.Parse(tokenText).value]))
    ensures Uuid.Parse(tokenText).None? ==> r == Outcome(w, Err(BadRequest(InvalidUuid)))
    ensures r.result.Ok? ==>
              var k := Uuid.Parse(tokenText).value;
              var v := w.resetTokens[k].user;
              r.world == w.(users := w.users[v := w.users[v].(password := Usable(replacement.value))],
                            resetTokens := w.resetTokens - {k})
    ensures r.result == Err(BadRequest(TokenExpired)) ==>
              r.world == w.(resetTokens := w.resetTokens - {Uuid.Parse(tokenText).value})
    ensures r.result.Err? && r.result != Err(BadRequest(TokenExpired)) ==> r.world == w
    ensures r.world.users != w.users ==> r.result.Ok?
  {
    match Uuid.Parse(tokenText)
    case None => Outcome(w, Err(BadRequest(InvalidUuid)))
    case Some(k) =>
      match NewPassword(replacement)
      case Err(e) => Outcome(w, Err(e))
      case Ok(n) =>
        if k !in w.resetTokens then Outcome(w, Err(BadRequest(InvalidToken)))
        else
          var entry := w.resetTokens[k];
          if expired(entry) then Outcome(w.(resetTokens := w.resetTokens - {k}), Err(BadRequest(TokenExpired)))
          else
            var v := entry.user;
            Outcome(w.(users := w.users[v := w.users[v].(password := Usable(n))],
                       resetTokens := w.resetTokens - {k}),
                    Ok(()))
  }

  /** A reset token works once: the same text is then an unknown token. */
  lemma ResetTokenSingleUse(w: World, tokenText: string, replacement: Option<string>, again: Option<string>, expired: ResetToken -> bool)
    requires TokensOwned(w)
    requires ConfirmReset(w, tokenText, replacement, expired).result.Ok?
    ensures var w' := ConfirmReset(w, tokenText, replacement, expired).world;
            TokensOwned(w') && NewPassword(again).Ok? ==>
              ConfirmReset(w', tokenText, again, expired) == Outcome(w', Err(BadRequest(InvalidToken)))
  {
  }

  /**
   * The e-mailed link completes the reset: confirming with the token text the
   * link carries, before it expires, sets the requester's password.
   */
  lemma ResetLinkCompletesReset(w: World, email: string, token: nat, frontendUrl: string, now: int, replacement: string, expired: ResetToken -> bool)
    requires token !in w.resetTokens && token < Uuid.Bound && email != ""
    requires TokensOwned(w) && FindUserByEmail(w.users, email).Some?
    requires |replacement| >= MinPasswordLength && !expired(ResetToken(FindUserByEmail(w.users, email).value, now))
    ensures var w1 := RequestReset(w, Some(email), true, token, frontendUrl, now).world;
            var v := FindUserByEmail(w.users, email).value;
            var r := ConfirmReset(w1, Uuid.Format(token), Some(replacement), expired);
            r.result.Ok? && CheckPassword(r.world.users[v].password, replacement) && token !in r.world.resetTokens
  {
    Uuid.ParseFormat(token);
  }

  /** `set_password(None)` leaves the password unusable; any text becomes a usable password. */
  function PasswordFrom(p: Option<string>): (r: Password)
    ensures r.Usable? <==> p.Some?
  {
    match p
    case None => Unusable
    case Some(s) => Usable(s)
  }

  /**
   * `RegisterAndAcceptInviteView`. An unknown address is not found; a user
   * with a usable password is already registered. Otherwise the names and
   * password are saved first (a missing name violates its NOT NULL column),
   * and those writes stay whatever the membership lookup then finds: no
   * membership for the posted team is not found, a processed one is
   * refused, and a pending one becomes accepted.
   */
  function RegisterAndAccept(w: World, email: Option<string>, password: Option<string>,
                             first: Option<string>, last: Option<string>, teamId: Option<string>): (r: Outcome<Id>)
    ensures email.None? || FindUserByEmail(w.users, email.value).None? ==> r == Outcome(w, Err(NotFound))
    ensures r.result.Ok? ==> email.Some? && FindUserByEmail(w.users, email.value) == Some(r.result.value)
    ensures r.result == Err(BadRequest(AlreadyRegistered)) || r.result == Err(ServerError(NullColumn)) ==> r.world == w
    ensures email.Some? && FindUserByEmail(w.users, email.value).Some? ==>
              var v := FindUserByEmail(w.users, email.value).value;
              && (w.users[v].password.Usable? ==> r == Outcome(w, Err(BadRequest(AlreadyRegistered))))
              && (!w.users[v].password.Usable? && first.Some? && last.Some? ==>
                    r.world.users == w.users[v := w.users[v].(firstName := first.value, lastName := last.value,
                                                              password := PasswordFrom(password))])
    ensures r.result.Ok? <==>
              (email.Some? && FindUserByEmail(w.users, email.value).Some?
               && !w.users[FindUserByEmail(w.users, email.value).value].password.Usable?
               && first.Some? && last.Some? && teamId.Some? && Decimal.Parse(teamId.value).Some?
               && var k := (FindUserByEmail(w.users, email.value).value, Decimal.Parse(teamId.value).value);
                  k in w.memberships && w.memberships[k].IsPending())
    ensures r.result.Ok? ==>
              var k := (r.result.value, Decimal.Parse(teamId.value).value);
              r.world.memberships == w.memberships[k := w.memberships[k].(status := Accepted)]
    ensures r.result.Err? ==> r.world.memberships == w.memberships
    ensures r.world == w.(users := r.world.users, memberships := r.world.memberships)
  {
    if email.None? then Outcome(w, Err(NotFound))
    else
      match FindUserByEmail(w.users, email.value)
      case None => Outcome(w, Err(NotFound))
      case Some(v) =>
        var user := w.users[v];
        if user.password.Usable? then Outcome(w, Err(BadRequest(AlreadyRegistered)))
        else if first.None? || last.None? then Outcome(w, Err(ServerError(NullColumn)))
        else
          var w1 := w.(users := w.users[v := user.(firstName := first.value, lastName := last.value,
                                                   password := PasswordFrom(password))]);
          if teamId.None? then Outcome(w1, Err(NotFound))
          else
            match Decimal.Parse(teamId.value)
            case None => Outcome(w1, Err(ServerError(BadIdText)))
            case Some(t) =>
              if (v, t) !in w1.memberships then Outcome(w1, Err(NotFound))
              else if !w1.memberships[(v, t)].IsPending() then Outcome(w1, Err(BadRequest(AlreadyProcessed)))
              else Outcome(w1.(memberships := w1.memberships[(v, t) := w1.memberships[(v, t)].(status := Accepted)]), Ok(v))
  }

  /** Once registered with a password, the same registration is refused and changes nothing. */
  lemma RegisterTwiceRefused(w: World, email: string, password: string, first: Option<string>, last: Option<string>, teamId: Option<string>)
    requires RegisterAndAccept(w, Some(email), Some(password), first, last, teamId).result.Ok?
    ensures var w' := RegisterAndAccept(w, Some(email), Some(password), first, last, teamId).world;
            RegisterAndAccept(w', Some(email), Some(password), first, last, teamId) == Outcome(w', Err(BadRequest(AlreadyRegistered)))
  {
    var v := FindUserByEmail(w.users, email).value;
    var w' := RegisterAndAccept(w, Some(email), Some(password), first, last, teamId).world;
    assert w'.users[v].email == w.users[v].email;
    FindUserByEmailStable(w.users, w'.users, email);
  }

  /** Editing names and passwords does not change which user an address finds. */
  lemma FindUserByEmailStable(a: seq<User>, b: seq<User>, email: string)
    requires |a| == |b| && forall i :: 0 <= i < |a| ==> a[i].email == b[i].email
    ensures FindUserByEmail(a, email) == FindUserByEmail(b, email)
  {
    if FindUserByEmail(a, email).Some? {
      var i := FindUserByEmail(a, email).value;
      assert b[i].email == email;
    }
    if FindUserByEmail(b, email).Some? {
      var j := FindUserByEmail(b, email).value;
      assert a[j].email == email;
    }
  }

  /**
   * The partial profile update: only the names are writable (each at most 150
   * characters); id, e-mail and date joined never change.
   */
  function UpdateProfile(w: World, u: Id, first: Option<string>, last: Option<string>): (r: Outcome<User>)
    requires IsUser(w, u)
    ensures r.result.Ok? <==> (first.None? || |first.value| <= NameMax) && (last.None? || |last.value| <= NameMax)
    ensures r.result.Err? ==> r.world == w
    ensures |r.world.users| == |w.users|
    ensures r.world == w.(users := r.world.users)
    ensures forall v :: 0 <= v < |w.users| && v != u ==> r.world.users[v] == w.users[v]
    ensures var after := r.world.users[u];
            && after.email == w.users[u].email && after.dateJoined == w.users[u].dateJoined
            && after.password == w.users[u].password
            && after.firstName == (if r.result.Ok? && first.Some? then first.value else w.users[u].firstName)
            && after.lastName == (if r.result.Ok? && last.Some? then last.value else w.users[u].lastName)
    ensures r.result.Ok? ==> r.result.value == r.world.users[u]
  {
    if first.Some? && |first.value| > NameMax then Outcome(w, Err(BadRequest(TooLong("first_name"))))
    else if last.Some? && |last.value| > NameMax then Outcome(w, Err(BadRequest(TooLong("last_name"))))
    else
      var user := w.users[u];
      var user' := user.(firstName := first.GetOr(user.firstName), lastName := last.GetOr(user.lastName));
      Outcome(w.(users := w.users[u := user']), Ok(user'))
  }
}

=== FILE: activity.dfy ===
/** The activity log: `log_activity` appends, the log view filters and sorts. */
module Activity {
  import opened Wrappers
  import opened Tables
  import opened Store
  import opened Ordering

  const Created: string := "created"
  const Updated: string := "updated"
  const Deleted: string := "deleted"
  const Commented: string := "commented"

  const TargetTask: string := "task"
  const TargetComment: string := "comment"
  const TargetProject: string := "project"

  /** The action choices declared on the model (the service does not enforce them). */
  predicate DeclaredAction(a: string) {
    a == Created || a == Updated || a == Deleted || a == Commented
  }

  /** The target_type choices declared on the model. */
  predicate DeclaredTarget(t: string) {
    t == TargetTask || t == TargetComment || t == TargetProject
  }

  /**
   * `log_activity`: one new entry at the end holding exactly the given values
   * (the action string is not checked); no earlier entry and no other table changes.
   */
  function LogActivity(w: World, user: Id, action: string, targetType: string, targetId: nat,
                       targetRepr: string, project: Option<Id>, now: int): (r: World)
    ensures r == w.(log := r.log)
    ensures |r.log| == |w.log| + 1 && r.log[..|w.log|] == w.log
    ensures r.log[|w.log|] == LogEntry(user, action, targetType, targetId, targetRepr, project, now)
  {
    w.(log := w.log + [LogEntry(user, action, targetType, targetId, targetRepr, project, now)])
  }

  /**
   * The query parameters of the log list. A parameter that is absent or the
   * empty string does not filter.
   */
  datatype LogFilter = LogFilter(user: Option<Id>, project: Option<Id>, targetType: Option<string>)

  const NoFilter: LogFilter := LogFilter(None, None, None)

  predicate Matches(e: LogEntry, f: LogFilter) {
    && (f.user.None? || e.user == f.user.value)
    && (f.project.None? || e.project == Some(f.project.value))
    && (f.targetType.None? || f.targetType.value == "" || e.targetType == f.targetType.value)
  }

  /** The entries that satisfy every active filter, each as often as it occurs in the log. */
  function Filter(log: seq<LogEntry>, f: LogFilter): (r: seq<LogEntry>)
    ensures forall e :: multiset(r)[e] == if Matches(e, f) then multiset(log)[e] else 0
    ensures forall e :: e in r ==> e in log && Matches(e, f)
  {
    if |log| == 0 then []
    else
      assert log == [log[0]] + log[1..];
      var rest := Filter(log[1..], f);
      if Matches(log[0], f) then [log[0]] + rest else rest
  }

  /** `ActivityLogViewSet.get_queryset`: filtered, newest timestamp first, no team scoping. */
  function Query(log: seq<LogEntry>, f: LogFilter): (r: seq<LogEntry>)
    ensures SortedDesc(r, (e: LogEntry) => e.timestamp)
    ensures forall e :: multiset(r)[e] == if Matches(e, f) then multiset(log)[e] else 0
    ensures forall e :: e in r ==> e in log && Matches(e, f)
  {
    var filtered := Filter(log, f);
    var key := (e: LogEntry) => e.timestamp;
    SortDescSameElements(filtered, key);
    SortDesc(filtered, key)
  }

  /** With no filter the list holds every entry of the log. */
  lemma UnfilteredQueryIsWholeLog(log: seq<LogEntry>)
    ensures multiset(Query(log, NoFilter)) == multiset(log)
  {
    var r := Query(log, NoFilter);
    forall e ensures multiset(r)[e] == multiset(log)[e] {
      assert Matches(e, NoFilter);
    }
  }

  /** Logging an entry that matches a filter makes it show up in that filtered list. */
  lemma LoggedEntryIsListed(w: World, user: Id, action: string, targetType: string, targetId: nat,
                            targetRepr: string, project: Option<Id>, now: int, f: LogFilter)
    requires Matches(LogEntry(user, action, targetType, targetId, targetRepr, project, now), f)
    ensures LogEntry(user, action, targetType, targetId, targetRepr, project, now)
              in Query(LogActivity(w, user, action, targetType, targetId, targetRepr, project, now).log, f)
  {
    var e := LogEntry(user, action, targetType, targetId, targetRepr, project, now);
    var log' := LogActivity(w, user, action, targetType, targetId, targetRepr, project, now).log;
    assert log'[|w.log|] == e;
    assert multiset(log')[e] > 0;
  }
}

=== FILE: cascade.dfy ===
/**
 * Row deletion with the foreign-key rules of the models: a task takes its
 * comments, files and time entries with it, a project takes its tasks and
 * leaves its log entries with no project (SET_NULL), and a team takes its
 * memberships and projects.
 */
module Cascade {
  import opened Wrappers
  import opened Tables
  import opened Store

  /** Selects exactly the row `id`. */
  function Single(id: Id): (sel: Id -> bool)
    ensures forall i: Id :: sel(i) <==> i == id
  {
    (i: Id) => i == id
  }

  /** Deletes the tasks `doomed` selects together with everything that hangs off them. */
  function DeleteTasks(w: World, doomed: Id -> bool): (r: World)
    ensures r == w.(tasks := r.tasks, comments := r.comments, files := r.files, timeEntries := r.timeEntries)
    ensures forall i: Id :: Live(r.tasks, i) <==> Live(w.tasks, i) && !doomed(i)
    ensures forall i: Id :: Live(r.tasks, i) ==> Get(r.tasks, i) == Get(w.tasks, i)
    ensures forall i: Id :: Live(r.comments, i) <==> Live(w.comments, i) && !doomed(w.comments[i].value.task)
    ensures forall i: Id :: Live(r.comments, i) ==> Get(r.comments, i) == Get(w.comments, i)
    ensures forall i: Id :: Live(r.files, i) <==> Live(w.files, i) && !doomed(w.files[i].value.task)
    ensures forall i: Id :: Live(r.files, i) ==> Get(r.files, i) == Get(w.files, i)
    ensures forall i: Id :: Live(r.timeEntries, i) <==> Live(w.timeEntries, i) && !doomed(w.timeEntries[i].value.task)
    ensures forall i: Id :: Live(r.timeEntries, i) ==> Get(r.timeEntries, i) == Get(w.timeEntries, i)
  {
    w.(tasks := DeleteWhere(w.tasks, (i: Id, t: Task) => doomed(i)),
       comments := DeleteWhere(w.comments, (i: Id, c: Comment) => doomed(c.task)),
       files := DeleteWhere(w.files, (i: Id, f: TaskFile) => doomed(f.task)),
       timeEntries := DeleteWhere(w.timeEntries, (i: Id, e: TimeEntry) => doomed(e.task)))
  }

  /** `on_delete=SET_NULL` on ActivityLog.project: entries stay, their project is cleared. */
  function ClearLogProjects(log: seq<LogEntry>, doomed: Id -> bool): (r: seq<LogEntry>)
    ensures |r| == |log|
    ensures forall i :: 0 <= i < |log| ==> r[i] == log[i].(project := r[i].project)
    ensures forall i :: 0 <= i < |log| ==> r[i].project.Some? ==> !doomed(r[i].project.value)
    ensures forall i :: 0 <= i < |log| && log[i].project.Some? && !doomed(log[i].project.value) ==> r[i] == log[i]
  {
    seq(|log|, i requires 0 <= i < |log| =>
      if log[i].project.Some? && doomed(log[i].project.value) then log[i].(project := None) else log[i])
  }

  /** Task `i` is live and belongs to a project that `doomed` selects. */
  predicate UnderDoomed(w: World, doomed: Id -> bool, i: Id) {
    Live(w.tasks, i) && doomed(w.tasks[i].value.project)
  }

  /** Deletes the projects `doomed` selects, their tasks, and clears their log references. */
  function DeleteProjects(w: World, doomed: Id -> bool): (r: World)
    ensures r == w.(projects := r.projects, tasks := r.tasks, comments := r.comments, files := r.files,
                    timeEntries := r.timeEntries, log := r.log)
    ensures forall p: Id :: Live(r.projects, p) <==> Live(w.projects, p) && !doomed(p)
    ensures forall p: Id :: Live(r.projects, p) ==> Get(r.projects, p) == Get(w.projects, p)
    ensures forall i: Id :: Live(r.tasks, i) <==> Live(w.tasks, i) && !doomed(w.tasks[i].value.project)
    ensures forall i: Id :: Live(r.tasks, i) ==> Get(r.tasks, i) == Get(w.tasks, i)
    ensures forall i: Id :: Live(r.comments, i) <==> Live(w.comments, i) && !UnderDoomed(w, doomed, w.comments[i].value.task)
    ensures forall i: Id :: Live(r.comments, i) ==> Get(r.comments, i) == Get(w.comments, i)
    ensures forall i: Id :: Live(r.files, i) <==> Live(w.files, i) && !UnderDoomed(w, doomed, w.files[i].value.task)
    ensures forall i: Id :: Live(r.files, i) ==> Get(r.files, i) == Get(w.files, i)
    ensures forall i: Id :: Live(r.timeEntries, i) <==> Live(w.timeEntries, i) && !UnderDoomed(w, doomed, w.timeEntries[i].value.task)
    ensures forall i: Id :: Live(r.timeEntries, i) ==> Get(r.timeEntries, i) == Get(w.timeEntries, i)
    ensures r.log == ClearLogProjects(w.log, doomed)
  {
    var w1 := DeleteTasks(w, (i: Id) => UnderDoomed(w, doomed, i));
    w1.(projects := DeleteWhere(w.projects, (p: Id, row: Project) => doomed(p)),
        log := ClearLogProjects(w.log, doomed))
  }

  /** The projects of `team`, as a deletion selector. */
  function TeamProjects(w: World, team: Id): Id -> bool {
    (p: Id) => TeamOfProject(w, p) == Some(team)
  }

  /** Deletes a team, its memberships and its projects (with everything below them). */
  function DeleteTeam(w: World, team: Id): (r: World)
    ensures r == w.(teams := r.teams, memberships := r.memberships, projects := r.projects, tasks := r.tasks,
                    comments := r.comments, files := r.files, timeEntries := r.timeEntries, log := r.log)
    ensures !Live(r.teams, team)
    ensures forall i: Id :: i != team ==> Get(r.teams, i) == Get(w.teams, i)
    ensures forall k :: k in r.memberships <==> k in w.memberships && k.1 != team
    ensures forall k :: k in r.memberships ==> r.memberships[k] == w.memberships[k]
    ensures forall p: Id :: Live(r.projects, p) <==> Live(w.projects, p) && w.projects[p].value.team != team
    ensures forall p: Id :: Live(r.projects, p) ==> Get(r.projects, p) == Get(w.projects, p)
    ensures forall i: Id :: Live(r.tasks, i) <==> Live(w.tasks, i) && TeamOfTask(w, i) != Some(team)
    ensures forall i: Id :: Live(r.tasks, i) ==> Get(r.tasks, i) == Get(w.tasks, i) && TeamOfProject(r, r.tasks[i].value.project) != Some(team)
    ensures forall i: Id :: Live(r.comments, i) <==> Live(w.comments, i) && TeamOfTask(w, w.comments[i].value.task) != Some(team)
    ensures r.(teams := w.teams, memberships := w.memberships) == DeleteProjects(w, TeamProjects(w, team))
  {
    var w1 := DeleteProjects(w, TeamProjects(w, team));
    w1.(teams := Delete(w.teams, team),
        memberships := map k | k in w.memberships && k.1 != team :: w.memberships[k])
  }
}

=== FILE: comments.dfy ===
/**
 * The comment views nested under a task: the task gate, the top-level
 * listing with recursively rendered replies, create with its same-task
 * parent check, notification and log entry, and delete with its log entry.
 */
module Comments {
  import opened Wrappers
  import opened Tables
  import opened Store
  import opened Ordering
  import opened Access
  import opened Activity
  import opened Notify

  function CommentCreatedAt(w: World, c: Id): int {
    if Live(w.comments, c) then w.comments[c].value.createdAt else 0
  }

  /** The task's comments without a parent. */
  function TopLevel(w: World, task: Id): (ids: seq<Id>)
    ensures forall c: Id :: c in ids <==> Live(w.comments, c) && w.comments[c].value.task == task && w.comments[c].value.parent.None?
  {
    Where(w.comments, (c: Id, row: Comment) => row.task == task && row.parent.None?)
  }

  /**
   * `get_queryset` (and so `list`): after the task gate, the task's
   * top-level comments, newest first; replies are reachable only nested.
   */
  function ListComments(w: World, u: Id, task: Id): (r: Result<seq<Id>, Error>)
    ensures r.Err? <==> TaskGate(w, u, task).Err?
    ensures r.Err? ==> r.error == TaskGate(w, u, task).error
    ensures r.Ok? ==> SortedDesc(r.value, (c: Id) => CommentCreatedAt(w, c))
    ensures r.Ok? ==> forall c: Id :: c in r.value <==>
              Live(w.comments, c) && w.comments[c].value.task == task && w.comments[c].value.parent.None?
  {
    match TaskGate(w, u, task)
    case Err(e) => Err(e)
    case Ok(_) =>
      var key := (c: Id) => CommentCreatedAt(w, c);
      SortDescSameElements(TopLevel(w, task), key);
      Ok(SortDesc(TopLevel(w, task), key))
  }

  /** The replies of a comment, in table order. */
  function RepliesOf(w: World, c: Id): (ids: seq<Id>)
    ensures Increasing(ids)
    ensures forall d: Id :: d in ids <==> Live(w.comments, d) && w.comments[d].value.parent == Some(c)
  {
    Where(w.comments, (d: Id, row: Comment) => row.parent == Some(c))
  }

  /** The rendered comment: id, author's name, text, time and replies; no parent id and no e-mail. */
  datatype CommentView = CommentView(id: Id, userName: string, text: string, createdAt: int, replies: seq<CommentView>)

  /** Every comment's author is a user. */
  ghost predicate AuthorsExist(w: World) {
    forall c: Id :: Live(w.comments, c) ==> IsUser(w, w.comments[c].value.user)
  }

  /**
   * `CommentSerializer` with its recursive `replies` field: every level has
   * the same shape. `depth` bounds the recursion (a reply chain deeper than
   * it is cut off there).
   */
  function Render(w: World, c: Id, depth: nat): (v: CommentView)
    requires AuthorsExist(w) && Live(w.comments, c)
    ensures v.id == c && v.text == w.comments[c].value.text && v.createdAt == w.comments[c].value.createdAt
    ensures v.userName == FullName(w.users[w.comments[c].value.user])
    ensures depth > 0 ==>
              |v.replies| == |RepliesOf(w, c)| && forall k :: 0 <= k < |v.replies| ==> v.replies[k].id == RepliesOf(w, c)[k]
    ensures depth == 0 ==> v.replies == []
    decreases depth, 0
  {
    var row := w.comments[c].value;
    CommentView(c, FullName(w.users[row.user]), row.text, row.createdAt,
                if depth == 0 then [] else RenderAll(w, RepliesOf(w, c), depth - 1))
  }

  function RenderAll(w: World, ids: seq<Id>, depth: nat): (vs: seq<CommentView>)
    requires AuthorsExist(w) && forall d :: d in ids ==> Live(w.comments, d)
    ensures |vs| == |ids| && forall k :: 0 <= k < |ids| ==> vs[k].id == ids[k]
    decreases depth, 1, |ids|
  {
    if |ids| == 0 then [] else [Render(w, ids[0], depth)] + RenderAll(w, ids[1..], depth)
  }

  /** A comment rendered two levels deep shows each reply with that reply's own replies. */
  lemma RepliesNestWithSameShape(w: World, c: Id, depth: nat, k: nat)
    requires AuthorsExist(w) && Live(w.comments, c) && depth >= 2
    requires k < |RepliesOf(w, c)|
    ensures Render(w, c, depth).replies[k] == Render(w, RepliesOf(w, c)[k], depth - 1)
    ensures |Render(w, c, depth).replies[k].replies| == |RepliesOf(w, RepliesOf(w, c)[k])|
  {
    var ids := RepliesOf(w, c);
    var d := ids[k];
    assert d in ids;
    var v := Render(w, c, depth);
    assert v.replies == RenderAll(w, ids, depth - 1);
    RenderAllElement(w, ids, depth - 1, k);
    var child := Render(w, d, depth - 1);
    assert |child.replies| == |RepliesOf(w, d)|;
  }

  lemma {:induction false} RenderAllElement(w: World, ids: seq<Id>, depth: nat, k: nat)
    requires AuthorsExist(w) && (forall d :: d in ids ==> Live(w.comments, d)) && k < |ids|
    ensures RenderAll(w, ids, depth)[k] == Render(w, ids[k], depth)
    decreases k
  {
    if k > 0 {
      assert ids[1..][k - 1] == ids[k];
      RenderAllElement(w, ids[1..], depth, k - 1);
    }
  }

  /** `CommentCreateSerializer.validate`: a parent, if given, must be on the same task. */
  function CheckParent(w: World, task: Id, parent: Option<Id>): (r: Result<(), Error>)
    requires parent.Some? ==> Live(w.comments, parent.value)
    ensures parent.None? ==> r.Ok?
    ensures r.Ok? <==> parent.None? || w.comments[parent.value].value.task == task
    ensures r.Err? ==> r.error == BadRequest(ParentOnOtherTask)
  {
    if parent.Some? && w.comments[parent.value].value.task != task then Err(BadRequest(ParentOnOtherTask)) else Ok(())
  }

  function CommentMessage(title: string): string {
    "New comment on task: " + title
  }

  function CommentBody(firstName: string, title: string, projectName: string): string {
    firstName + " commented on your task '" + title + "' in project '" + projectName + "'."
  }

  /**
   * `create`. Field checks first (text required and non-blank, an existing
   * parent id), then the task gate, then the same-task parent check. The
   * comment is saved on the URL's task with the requester as author; the
   * task's assignee is notified unless unassigned or the commenter; one
   * 'commented' entry is logged.
   */
  function CreateComment(w: World, u: Id, task: Id, text: Option<string>, parent: Option<Id>, layer: bool, now: int): (r: Outcome<Id>)
    requires IsUser(w, u)
    requires forall i: Id :: Live(w.tasks, i) && w.tasks[i].value.assignedTo.Some? ==> IsUser(w, w.tasks[i].value.assignedTo.value)
    ensures r.result.Err? && r.result.error != ServerError(NoChannelLayer) ==> r.world == w
    ensures r.result.Ok? <==>
              && text.Some? && text.value != ""
              && TaskGate(w, u, task).Ok?
              && (parent.None? || (Live(w.comments, parent.value) && w.comments[parent.value].value.task == task))
              && (layer || !NotifiesAssignee(w.tasks[task].value.assignedTo, u))
    ensures r.result == Err(ServerError(NoChannelLayer)) ==>
              text.Some? && r.world == w.(comments := Insert(w.comments, Comment(task, u, text.value, parent, now)))
    ensures (text.Some? && text.value != "" && (parent.None? || Live(w.comments, parent.value)) && TaskGate(w, u, task).Err?) ==>
              r == Outcome(w, Err(TaskGate(w, u, task).error))
    ensures text.Some? && text.value != "" && parent.Some? && Live(w.comments, parent.value) && TaskGate(w, u, task).Ok?
            && w.comments[parent.value].value.task != task ==>
              r == Outcome(w, Err(BadRequest(ParentOnOtherTask)))
    ensures r.result.Ok? ==>
              var c := r.result.value;
              var t := w.tasks[task].value;
              && c == |w.comments|
              && r.world.comments == Insert(w.comments, Comment(task, u, text.value, parent, now))
              && r.world.log == w.log + [LogEntry(u, Commented, TargetComment, c, "Comment on task: " + t.title, Some(t.project), now)]
              && r.world == w.(comments := r.world.comments, log := r.world.log, notifications := r.world.notifications,
                               pushes := r.world.pushes, mails := r.world.mails)
              && (NotifiesAssignee(t.assignedTo, u) ==>
                    NotifiedDefault(w, r.world, t.assignedTo.value, CommentMessage(t.title), Some("New Comment on Your Task"),
                                    Some(CommentBody(w.users[u].firstName, t.title, w.projects[t.project].value.name)), now))
              && (!NotifiesAssignee(t.assignedTo, u) ==>
                    r.world.notifications == w.notifications && r.world.pushes == w.pushes && r.world.mails == w.mails)
  {
    if text.None? then Outcome(w, Err(BadRequest(Required("text"))))
    else if text.value == "" then Outcome(w, Err(BadRequest(Blank("text"))))
    else if parent.Some? && !Live(w.comments, parent.value) then Outcome(w, Err(BadRequest(InvalidPk("parent"))))
    else
      match TaskGate(w, u, task)
      case Err(e) => Outcome(w, Err(e))
      case Ok(t) =>
        match CheckParent(w, task, parent)
        case Err(e) => Outcome(w, Err(e))
        case Ok(_) =>
          assert Live(w.tasks, task) && w.tasks[task].value == t;
          var projectName := w.projects[t.project].value.name;
          Post(w, u, task, t, text.value, parent, CommentBody(w.users[u].firstName, t.title, projectName), layer, now)
  }

  /**
   * The tail of `create`: save the comment, notify the task's assignee
   * unless unassigned or the commenter, then log. A failing notification
   * leaves the saved comment and logs nothing.
   */
  function Post(w: World, u: Id, task: Id, t: Task, text: string, parent: Option<Id>, body: string, layer: bool, now: int): (r: Outcome<Id>)
    requires t.assignedTo.Some? ==> IsUser(w, t.assignedTo.value)
    ensures r.result.Ok? <==> layer || !NotifiesAssignee(t.assignedTo, u)
    ensures r.result.Err? ==>
              && r.result.error == ServerError(NoChannelLayer)
              && r.world == w.(comments := Insert(w.comments, Comment(task, u, text, parent, now)))
    ensures r.result.Ok? ==>
              var c := r.result.value;
              && c == |w.comments|
              && r.world.comments == Insert(w.comments, Comment(task, u, text, parent, now))
              && r.world.log == w.log + [LogEntry(u, Commented, TargetComment, c, "Comment on task: " + t.title, Some(t.project), now)]
              && r.world == w.(comments := r.world.comments, log := r.world.log, notifications := r.world.notifications,
                               pushes := r.world.pushes, mails := r.world.mails)
              && (NotifiesAssignee(t.assignedTo, u) ==>
                    NotifiedDefault(w, r.world, t.assignedTo.value, CommentMessage(t.title), Some("New Comment on Your Task"), Some(body), now))
              && (!NotifiesAssignee(t.assignedTo, u) ==>
                    r.world.notifications == w.notifications && r.world.pushes == w.pushes && r.world.mails == w.mails)
  {
    var c := |w.comments|;
    var w1 := w.(comments := Insert(w.comments, Comment(task, u, text, parent, now)));
    var notified :=
      if NotifiesAssignee(t.assignedTo, u) then
        NotifyDefault(w1, t.assignedTo.value, CommentMessage(t.title), Some("New Comment on Your Task"), Some(body), layer, now)
      else Ok(w1);
    match notified
    case Err(e) => Outcome(w1, Err(e))
    case Ok(w2) => Outcome(LogActivity(w2, u, Commented, TargetComment, c, "Comment on task: " + t.title, Some(t.project), now), Ok(c))
  }

  /** A reply that names a comment of another task is refused, whoever asks. */
  lemma CrossTaskReplyRefused(w: World, u: Id, task: Id, text: string, parent: Id, layer: bool, now: int)
    requires IsUser(w, u)
    requires forall i: Id :: Live(w.tasks, i) && w.tasks[i].value.assignedTo.Some? ==> IsUser(w, w.tasks[i].value.assignedTo.value)
    requires text != "" && Live(w.comments, parent) && w.comments[parent].value.task != task
    ensures CreateComment(w, u, task, Some(text), Some(parent), layer, now).result.Err?
    ensures CreateComment(w, u, task, Some(text), Some(parent), layer, now).world == w
  {
  }

  /** `text[:30]`: at most the first thirty characters. */
  function Prefix30(s: string): (r: string)
    ensures |r| <= 30 && |r| <= |s| && r == s[..|r|]
    ensures |s| <= 30 ==> r == s
  {
    if |s| <= 30 then s else s[..30]
  }

  /** The comments the detail routes reach: top-level comments of the task, behind the task gate. */
  function GetComment(w: World, u: Id, task: Id, c: Id): (r: Result<Comment, Error>)
    ensures r.Ok? <==> TaskGate(w, u, task).Ok? && c in TopLevel(w, task)
    ensures r.Ok? ==> r.value == w.comments[c].value
    ensures TaskGate(w, u, task).Ok? && Live(w.comments, c) && w.comments[c].value.parent.Some? ==> r == Err(NotFound)
  {
    match TaskGate(w, u, task)
    case Err(e) => Err(e)
    case Ok(_) =>
      if c in TopLevel(w, task) then
        if IsProjectTeamMember(w, u, Some(w.comments[c].value.task)) then Ok(w.comments[c].value)
        else Err(Forbidden(NotTeamMember))
      else Err(NotFound)
  }

  /**
   * `update` / `partial_update` through the create serializer: any team
   * member may edit, not just the author; text and parent are writable, a
   * full update needs the text, a given text must not be blank, and the
   * parent is checked as on create. Nothing is logged.
   */
  function UpdateComment(w: World, u: Id, task: Id, c: Id, text: Option<string>, parent: Option<Option<Id>>, partial: bool): (r: Outcome<Comment>)
    ensures r.result.Err? ==> r.world == w
    ensures GetComment(w, u, task, c).Err? ==> r.result == Err(GetComment(w, u, task, c).error)
    ensures GetComment(w, u, task, c).Ok? && !partial && text.None? ==> r.result == Err(BadRequest(Required("text")))
    ensures r.result.Ok? <==>
              && GetComment(w, u, task, c).Ok?
              && (partial || text.Some?)
              && text != Some("")
              && (parent.None? || parent.value.None?
                  || (Live(w.comments, parent.value.value) && w.comments[parent.value.value].value.task == task))
    ensures r.result.Ok? ==>
              && r.result.value == w.comments[c].value.(text := text.GetOr(w.comments[c].value.text),
                                                        parent := parent.GetOr(w.comments[c].value.parent))
              && r.world == w.(comments := w.comments[c := Some(r.result.value)])
  {
    match GetComment(w, u, task, c)
    case Err(e) => Outcome(w, Err(e))
    case Ok(row) =>
      if !partial && text.None? then Outcome(w, Err(BadRequest(Required("text"))))
      else if text == Some("") then Outcome(w, Err(BadRequest(Blank("text"))))
      else if parent.Some? && parent.value.Some? && !Live(w.comments, parent.value.value) then
        Outcome(w, Err(BadRequest(InvalidPk("parent"))))
      else
        match CheckParent(w, task, parent.GetOr(None))
        case Err(e) => Outcome(w, Err(e))
        case Ok(_) =>
          var row' := row.(text := text.GetOr(row.text), parent := parent.GetOr(row.parent));
          Outcome(w.(comments := w.comments[c := Some(row')]), Ok(row'))
  }

  /** Any member of the task's team, not only the author, may edit a top-level comment. */
  lemma NonAuthorMayEdit(w: World, u: Id, task: Id, c: Id, text: string)
    requires GetComment(w, u, task, c).Ok? && w.comments[c].value.user != u && text != ""
    ensures UpdateComment(w, u, task, c, Some(text), None, false).result.Ok?
  {
  }

  /**
   * `destroy`: any team member may delete a top-level comment; one 'deleted'
   * entry holding the text's first thirty characters is logged first.
   */
  function DestroyComment(w: World, u: Id, task: Id, c: Id, now: int): (r: Outcome<()>)
    ensures r.result.Ok? <==> GetComment(w, u, task, c).Ok?
    ensures r.result.Err? ==> r.world == w
    ensures r.result.Ok? ==>
              var row := w.comments[c].value;
              && r.world.comments == Delete(w.comments, c)
              && r.world.log == w.log + [LogEntry(u, Deleted, TargetComment, c, "Comment: " + Prefix30(row.text),
                                                  Some(w.tasks[task].value.project), now)]
              && r.world == w.(comments := r.world.comments, log := r.world.log)
  {
    match GetComment(w, u, task, c)
    case Err(e) => Outcome(w, Err(e))
    case Ok(row) =>
      var t := w.tasks[task].value;
      var w1 := LogActivity(w, u, Deleted, TargetComment, c, "Comment: " + Prefix30(row.text), Some(t.project), now);
      Outcome(w1.(comments := Delete(w1.comments, c)), Ok(()))
  }
}

=== FILE: decimal.dfy ===
/**
 * Decimal text for ids: `str(n)` / template-string interpolation on one side,
 * Django's integer coercion of a text id on the other.
 */
module Decimal {
  import opened Wrappers

  predicate IsDigit(c: char) {
    '0' <= c <= '9'
  }

  predicate AllDigits(s: string) {
    forall i :: 0 <= i < |s| ==> IsDigit(s[i])
  }

  function DigitChar(d: nat): (c: char)
    requires d < 10
    ensures IsDigit(c)
  {
    ('0' as int + d) as char
  }

  function DigitValue(c: char): (d: nat)
    requires IsDigit(c)
    ensures d < 10 && DigitChar(d) == c
  {
    c as int - '0' as int
  }

  /** `str(n)`: canonical decimal text, no sign and no leading zero. */
  function Show(n: nat): (s: string)
    ensures |s| >= 1 && AllDigits(s)
    ensures s[0] == '0' ==> n == 0
  {
    if n < 10 then [DigitChar(n)] else Show(n / 10) + [DigitChar(n % 10)]
  }

  /** The number a string of digits denotes; leading zeros are allowed. */
  function Value(s: string): nat
    requires AllDigits(s)
  {
    if |s| == 0 then 0 else Value(s[..|s| - 1]) * 10 + DigitValue(s[|s| - 1])
  }

  /** Integer coercion of a digit string; anything else does not parse. */
  function Parse(s: string): (r: Option<nat>)
    ensures r.Some? <==> |s| > 0 && AllDigits(s)
  {
    if |s| > 0 && AllDigits(s) then Some(Value(s)) else None
  }

  lemma {:induction false} ValueShow(n: nat)
    ensures Value(Show(n)) == n
  {
    if n >= 10 {
      var s := Show(n);
      assert s[..|s| - 1] == Show(n / 10);
      ValueShow(n / 10);
    }
  }

  /** Decimal text round-trips: parsing what `Show` prints gives the number back. */
  lemma ParseShow(n: nat)
    ensures Parse(Show(n)) == Some(n)
  {
    ValueShow(n);
  }

  /** Distinct numbers print differently. */
  lemma ShowInjective(a: nat, b: nat)
    requires Show(a) == Show(b)
    ensures a == b
  {
    ParseShow(a);
    ParseShow(b);
  }

  /** A leading zero does not change the value: "05" denotes 5. */
  lemma {:induction false} ValueLeadingZero(s: string)
    requires AllDigits(s)
    ensures AllDigits("0" + s) && Value("0" + s) == Value(s)
  {
    if |s| > 0 {
      var t := "0" + s;
      assert t[..|t| - 1] == "0" + s[..|s| - 1];
      ValueLeadingZero(s[..|s| - 1]);
    }
  }

  /** "0" followed by `Show(n)` parses to `n` but is not `Show(n)`. */
  lemma PaddedParsesToSame(n: nat)
    ensures Parse("0" + Show(n)) == Some(n)
    ensures "0" + Show(n) != Show(n)
  {
    ValueLeadingZero(Show(n));
    ValueShow(n);
    assert |"0" + Show(n)| == |Show(n)| + 1;
  }
}

=== FILE: notify.dfy ===
/**
 * Notifications: the three-channel fan-out of `notify_user`, the owner-scoped
 * notification list, `mark_as_read`, and the per-user push-group registry
 * the WebSocket consumer maintains.
 */
module Notify {
  import opened Wrappers
  import opened Tables
  import opened Store
  import opened Ordering
  import Decimal

  const DefaultKind: string := "general"
  const NotifySender: string := "no-reply@projectmanager.com"
  const PageSize: nat := 20

  /** The notification type choices declared on the model. */
  predicate DeclaredKind(k: string) {
    k == "general" || k == "task" || k == "comment" || k == "invite"
  }

  /** The channel-layer group of a user: "user_" followed by the id in decimal. */
  function GroupOf(user: Id): string {
    "user_" + Decimal.Show(user)
  }

  /** Python truthiness of an optional string: present and not empty. */
  predicate Truthy(s: Option<string>) {
    s.Some? && s.value != ""
  }

  /** The task and comment views notify the assignee when one is set and it is not the requester. */
  predicate NotifiesAssignee(assignee: Option<Id>, u: Id) {
    assignee.Some? && assignee.value != u
  }

  predicate SendsMail(user: User, subject: Option<string>, body: Option<string>) {
    Truthy(subject) && Truthy(body) && user.email != ""
  }

  /**
   * `notify_user`. `layer` says whether a channel layer is configured: the
   * code dereferences it unguarded, so without one the call fails before any
   * channel is tried. Otherwise it pushes once, mails only when subject, body
   * and address are all non-empty, and stores a row only when `save` holds.
   * The recipient must be a user; the code does not check for None.
   */
  function NotifyUser(w: World, user: Id, message: string, subject: Option<string>, body: Option<string>,
                      kind: string, save: bool, layer: bool, now: int): (r: Result<World, Error>)
    requires IsUser(w, user)
    ensures r.Err? <==> !layer
    ensures r.Err? ==> r.error == ServerError(NoChannelLayer)
    ensures r.Ok? ==> r.value == w.(pushes := r.value.pushes, mails := r.value.mails, notifications := r.value.notifications)
    ensures r.Ok? ==> r.value.pushes == w.pushes + [Push(GroupOf(user), "notify", PushData(message, kind, now))]
    ensures r.Ok? && SendsMail(w.users[user], subject, body) ==>
              r.value.mails == w.mails + [Mail(subject.value, body.value, NotifySender, [w.users[user].email])]
    ensures r.Ok? && !SendsMail(w.users[user], subject, body) ==> r.value.mails == w.mails
    ensures r.Ok? && save ==> r.value.notifications == Insert(w.notifications, Notification(user, message, kind, false, now))
    ensures r.Ok? && !save ==> r.value.notifications == w.notifications
  {
    if !layer then Err(ServerError(NoChannelLayer))
    else
      var pushed := w.(pushes := w.pushes + [Push(GroupOf(user), "notify", PushData(message, kind, now))]);
      var mailed :=
        if SendsMail(w.users[user], subject, body)
        then pushed.(mails := pushed.mails + [Mail(subject.value, body.value, NotifySender, [w.users[user].email])])
        else pushed;
      if save then Ok(mailed.(notifications := Insert(mailed.notifications, Notification(user, message, kind, false, now))))
      else Ok(mailed)
  }

  /** `notify_user` with its defaults: type 'general', saved. */
  function NotifyDefault(w: World, user: Id, message: string, subject: Option<string>, body: Option<string>,
                         layer: bool, now: int): (r: Result<World, Error>)
    requires IsUser(w, user)
    ensures r.Err? <==> !layer
    ensures r.Ok? ==> r.value == w.(pushes := r.value.pushes, mails := r.value.mails, notifications := r.value.notifications)
    ensures r.Ok? ==> r.value.notifications == Insert(w.notifications, Notification(user, message, DefaultKind, false, now))
    ensures r.Ok? ==> |r.value.pushes| == |w.pushes| + 1
    ensures r.Ok? ==> NotifiedDefault(w, r.value, user, message, subject, body, now)
  {
    NotifyUser(w, user, message, subject, body, DefaultKind, true, layer, now)
  }

  /**
   * `after` carries exactly the effects of a successful default
   * `notify_user` on `before`: one push to the user's group, the mail when
   * one is due, and one unread row of type general.
   */
  predicate NotifiedDefault(before: World, after: World, user: Id, message: string, subject: Option<string>,
                            body: Option<string>, now: int)
    requires IsUser(before, user)
  {
    && after.pushes == before.pushes + [Push(GroupOf(user), "notify", PushData(message, DefaultKind, now))]
    && after.mails == before.mails + (if SendsMail(before.users[user], subject, body)
                                      then [Mail(subject.value, body.value, NotifySender, [before.users[user].email])]
                                      else [])
    && after.notifications == Insert(before.notifications, Notification(user, message, DefaultKind, false, now))
  }

  /** With a channel layer, a saved notification is stored even when no mail is sent. */
  lemma SavedWithoutMail(w: World, user: Id, message: string, now: int)
    requires IsUser(w, user)
    ensures var r := NotifyUser(w, user, message, None, None, DefaultKind, true, true, now);
            r.Ok? && r.value.mails == w.mails
            && |r.value.notifications| == |w.notifications| + 1
            && r.value.notifications[|w.notifications|] == Some(Notification(user, message, DefaultKind, false, now))
  {
  }

  /** The requester's notifications, newest first, at most one page of 20. */
  function ListNotifications(w: World, u: Id): (r: seq<Id>)
    ensures |r| <= PageSize
    ensures forall i :: i in r ==> Live(w.notifications, i) && w.notifications[i].value.user == u
    ensures SortedDesc(r, (i: Id) => CreatedAt(w, i))
    ensures forall i: Id :: Live(w.notifications, i) && w.notifications[i].value.user == u && i !in r ==>
              |r| == PageSize && forall j :: j in r ==> CreatedAt(w, j) >= CreatedAt(w, i)
  {
    var own := Where(w.notifications, (i: Id, n: Notification) => n.user == u);
    var key := (i: Id) => CreatedAt(w, i);
    var sorted := SortDesc(own, key);
    var r := Take(sorted, PageSize);
    SortDescSameElements(own, key);
    forall i: Id | Live(w.notifications, i) && w.notifications[i].value.user == u && i !in r
      ensures |r| == PageSize && forall j :: j in r ==> CreatedAt(w, j) >= CreatedAt(w, i)
    {
      TakeKeepsNewest(sorted, key, PageSize, i);
    }
    SortedPrefix(sorted, key, |r|);
    r
  }

  function CreatedAt(w: World, i: Id): int {
    if Live(w.notifications, i) then w.notifications[i].value.createdAt else 0
  }

  /**
   * `mark_as_read`: another user's or a missing notification is not found;
   * otherwise only that row's read flag is set.
   */
  function MarkAsRead(w: World, u: Id, id: Id): (r: Result<World, Error>)
    ensures r.Err? <==> !(Live(w.notifications, id) && w.notifications[id].value.user == u)
    ensures r.Err? ==> r.error == NotFound
    ensures r.Ok? ==> r.value == w.(notifications := r.value.notifications)
    ensures r.Ok? ==> Get(r.value.notifications, id) == Some(w.notifications[id].value.(isRead := true))
    ensures r.Ok? ==> forall i: Id :: i != id ==> Get(r.value.notifications, i) == Get(w.notifications, i)
  {
    match Get(w.notifications, id)
    case Some(n) =>
      if n.user == u then Ok(w.(notifications := Save(w.notifications, id, n.(isRead := true))))
      else Err(NotFound)
    case None => Err(NotFound)
  }

  /** Marking as read twice is the same as marking once. */
  lemma MarkAsReadIdempotent(w: World, u: Id, id: Id)
    requires MarkAsRead(w, u, id).Ok?
    ensures MarkAsRead(MarkAsRead(w, u, id).value, u, id) == MarkAsRead(w, u, id)
  {
    var w1 := MarkAsRead(w, u, id).value;
    assert w1.notifications == w.notifications[id := Some(w.notifications[id].value.(isRead := true))];
    assert w1.notifications[id := Some(w1.notifications[id].value.(isRead := true))] == w1.notifications;
  }

  // ---- The push-group registry of the WebSocket consumer ----

  /** The channel layer's groups: group name to the channels that joined it. */
  datatype Registry = Registry(groups: map<string, set<string>>)

  function Members(reg: Registry, group: string): set<string> {
    if group in reg.groups then reg.groups[group] else {}
  }

  /**
   * `connect`: the group is "user_" + the user id text of the URL; the
   * channel joins it (then the socket is accepted).
   */
  function Connect(reg: Registry, urlUserId: string, channel: string): (r: (Registry, string))
    ensures r.1 == "user_" + urlUserId
    ensures Members(r.0, r.1) == Members(reg, r.1) + {channel}
    ensures forall g :: g != r.1 ==> Members(r.0, g) == Members(reg, g)
  {
    var group := "user_" + urlUserId;
    (Registry(reg.groups[group := Members(reg, group) + {channel}]), group)
  }

  /** `disconnect`: the channel leaves its group; other channels and groups stay. */
  function Disconnect(reg: Registry, group: string, channel: string): (r: Registry)
    ensures Members(r, group) == Members(reg, group) - {channel}
    ensures forall g :: g != group ==> Members(r, g) == Members(reg, g)
  {
    Registry(reg.groups[group := Members(reg, group) - {channel}])
  }

  /** `group_send`: every channel of the group gets the event's data. */
  function Deliveries(reg: Registry, push: Push): (r: set<(string, PushData)>)
    ensures forall c, d :: (c, d) in r <==> c in Members(reg, push.group) && d == push.data
  {
    set c | c in Members(reg, push.group) :: (c, push.data)
  }

  /** The consumer's `notify` handler: the frame sent down the socket is `event["data"]`. */
  function Forward(push: Push): PushData {
    push.data
  }

  /** The frames a channel receives from a sequence of `group_send` calls, in send order. */
  function Received(reg: Registry, channel: string, pushes: seq<Push>): (frames: seq<PushData>)
    ensures |frames| <= |pushes|
    ensures forall f :: f in frames ==> exists p :: p in pushes && channel in Members(reg, p.group) && f == p.data
  {
    if |pushes| == 0 then []
    else
      var last := pushes[|pushes| - 1];
      var earlier := Received(reg, channel, pushes[..|pushes| - 1]);
      earlier + (if channel in Members(reg, last.group) then [Forward(last)] else [])
  }

  /**
   * A socket opened with a user's decimal id receives, from a successful
   * `notify_user` to that user, exactly one more frame: the message, type
   * and timestamp that were pushed.
   */
  lemma {:induction false} SocketReceivesNotification(w: World, reg: Registry, channel: string, user: Id, message: string,
                                                       subject: Option<string>, body: Option<string>, kind: string,
                                                       save: bool, now: int)
    requires IsUser(w, user)
    ensures var reg' := Connect(reg, Decimal.Show(user), channel).0;
            var r := NotifyUser(w, user, message, subject, body, kind, save, true, now);
            r.Ok? && Received(reg', channel, r.value.pushes) == Received(reg', channel, w.pushes) + [PushData(message, kind, now)]
  {
    var (reg', group) := Connect(reg, Decimal.Show(user), channel);
    var pushes := NotifyUser(w, user, message, subject, body, kind, save, true, now).value.pushes;
    assert pushes[..|pushes| - 1] == w.pushes;
    assert group == GroupOf(user) && channel in Members(reg', GroupOf(user));
  }

  /**
   * A socket opened with the canonical decimal id of a user receives the
   * push `notify_user` sends to that user, and no push sent to another user
   * unless it had already joined that user's group.
   */
  lemma ConnectedSocketGetsOwnPushes(reg: Registry, u: Id, v: Id, channel: string, p: PushData)
    ensures var (reg', group) := Connect(reg, Decimal.Show(u), channel);
            group == GroupOf(u)
            && (channel, p) in Deliveries(reg', Push(GroupOf(u), "notify", p))
            && (u != v && channel !in Members(reg, GroupOf(v)) ==>
                  (channel, p) !in Deliveries(reg', Push(GroupOf(v), "notify", p)))
  {
    if u != v && GroupOf(u) == GroupOf(v) {
      assert Decimal.Show(u) == GroupOf(u)[5..] == GroupOf(v)[5..] == Decimal.Show(v);
      Decimal.ShowInjective(u, v);
    }
  }

  /** Disconnecting a channel that connect added restores every group's members. */
  lemma DisconnectUndoesConnect(reg: Registry, urlUserId: string, channel: string)
    requires channel !in Members(reg, "user_" + urlUserId)
    ensures var (reg', group) := Connect(reg, urlUserId, channel);
            forall g :: Members(Disconnect(reg', group, channel), g) == Members(reg, g)
  {
  }
}

=== FILE: ordering.dfy ===
/** `order_by('-field')` and `[:n]` slicing over query results. */
module Ordering {

  /** Keys never increase from left to right: newest first. */
  predicate SortedDesc<T>(xs: seq<T>, key: T -> int) {
    forall i, j :: 0 <= i < j < |xs| ==> key(xs[i]) >= key(xs[j])
  }

  /** No key in `xs` exceeds `b`. */
  predicate Bounded<T>(xs: seq<T>, key: T -> int, b: int) {
    forall i :: 0 <= i < |xs| ==> key(xs[i]) <= b
  }

  lemma ConsSorted<T>(x: T, xs: seq<T>, key: T -> int)
    requires SortedDesc(xs, key) && Bounded(xs, key, key(x))
    ensures SortedDesc([x] + xs, key)
  {
    var r := [x] + xs;
    forall i, j | 0 <= i < j < |r|
      ensures key(r[i]) >= key(r[j])
    {
      if i > 0 {
        assert r[i] == xs[i - 1] && r[j] == xs[j - 1];
      } else {
        assert r[j] == xs[j - 1];
      }
    }
  }

  function InsertDesc<T>(x: T, xs: seq<T>, key: T -> int): (r: seq<T>)
    requires SortedDesc(xs, key)
    ensures SortedDesc(r, key)
    ensures multiset(r) == multiset(xs) + multiset{x}
    ensures forall b :: Bounded(xs, key, b) && key(x) <= b ==> Bounded(r, key, b)
  {
    if |xs| == 0 || key(x) >= key(xs[0]) then
      InsertFront(x, xs, key);
      [x] + xs
    else
      SortedTail(xs, key);
      var tail := InsertDesc(x, xs[1..], key);
      InsertStep(x, xs, tail, key);
      [xs[0]] + tail
  }

  lemma SortedTail<T>(xs: seq<T>, key: T -> int)
    requires |xs| > 0 && SortedDesc(xs, key)
    ensures SortedDesc(xs[1..], key)
  {
    forall i, j | 0 <= i < j < |xs| - 1
      ensures key(xs[1..][i]) >= key(xs[1..][j])
    {
      assert xs[1..][i] == xs[i + 1] && xs[1..][j] == xs[j + 1];
    }
  }

  /** An element whose key is at least the head's goes in front. */
  lemma InsertFront<T>(x: T, xs: seq<T>, key: T -> int)
    requires SortedDesc(xs, key) && (|xs| == 0 || key(x) >= key(xs[0]))
    ensures SortedDesc([x] + xs, key)
    ensures forall b :: Bounded(xs, key, b) && key(x) <= b ==> Bounded([x] + xs, key, b)
  {
    forall i | 0 <= i < |xs|
      ensures key(xs[i]) <= key(x)
    {
      if i > 0 {
        assert key(xs[0]) >= key(xs[i]);
      }
    }
    ConsSorted(x, xs, key);
    var r := [x] + xs;
    forall b | Bounded(xs, key, b) && key(x) <= b
      ensures Bounded(r, key, b)
    {
      forall i | 0 <= i < |r|
        ensures key(r[i]) <= b
      {
        if i > 0 {
          assert r[i] == xs[i - 1];
        }
      }
    }
  }

  /** An element with a smaller key than the head is inserted into the tail, behind the head. */
  lemma InsertStep<T>(x: T, xs: seq<T>, tail: seq<T>, key: T -> int)
    requires |xs| > 0 && SortedDesc(xs, key) && key(x) < key(xs[0])
    requires SortedDesc(tail, key) && multiset(tail) == multiset(xs[1..]) + multiset{x}
    requires forall b :: Bounded(xs[1..], key, b) && key(x) <= b ==> Bounded(tail, key, b)
    ensures SortedDesc([xs[0]] + tail, key)
    ensures multiset([xs[0]] + tail) == multiset(xs) + multiset{x}
    ensures forall b :: Bounded(xs, key, b) && key(x) <= b ==> Bounded([xs[0]] + tail, key, b)
  {
    assert xs == [xs[0]] + xs[1..];
    forall i | 0 <= i < |xs| - 1
      ensures key(xs[1..][i]) <= key(xs[0])
    {
      assert xs[1..][i] == xs[i + 1];
    }
    ConsSorted(xs[0], tail, key);
    var r := [xs[0]] + tail;
    forall b | Bounded(xs, key, b) && key(x) <= b
      ensures Bounded(r, key, b)
    {
      forall i | 0 <= i < |xs| - 1
        ensures key(xs[1..][i]) <= b
      {
        assert xs[1..][i] == xs[i + 1];
      }
      assert Bounded(tail, key, b);
      forall i | 0 <= i < |r|
        ensures key(r[i]) <= b
      {
        if i > 0 {
          assert r[i] == tail[i - 1];
        }
      }
    }
  }

  /** Sorts by descending key; the result is a permutation of the input. */
  function SortDesc<T>(xs: seq<T>, key: T -> int): (r: seq<T>)
    ensures SortedDesc(r, key)
    ensures multiset(r) == multiset(xs)
    ensures |r| == |xs|
  {
    if |xs| == 0 then []
    else
      assert xs == [xs[0]] + xs[1..];
      InsertDesc(xs[0], SortDesc(xs[1..], key), key)
  }

  /** `queryset[:n]`: the first `n` elements, or all of them when there are fewer. */
  function Take<T>(xs: seq<T>, n: nat): (r: seq<T>)
    ensures |r| == if |xs| < n then |xs| else n
    ensures r == xs[..|r|]
  {
    if |xs| <= n then xs else xs[..n]
  }

  /** Sorting neither adds nor drops an element. */
  lemma SortDescSameElements<T>(xs: seq<T>, key: T -> int)
    ensures forall x :: x in SortDesc(xs, key) <==> x in xs
  {
    var r := SortDesc(xs, key);
    forall x ensures x in r <==> x in xs {
      assert x in r <==> x in multiset(r);
      assert x in xs <==> x in multiset(xs);
    }
  }

  /**
   * Cutting a descending list keeps its top: anything cut off is no newer
   * than what was kept, and the cut list is full.
   */
  lemma TakeKeepsNewest<T>(s: seq<T>, key: T -> int, n: nat, x: T)
    requires SortedDesc(s, key) && x in s && x !in Take(s, n)
    ensures |Take(s, n)| == n
    ensures forall y :: y in Take(s, n) ==> key(y) >= key(x)
  {
    var r := Take(s, n);
    var k :| 0 <= k < |s| && s[k] == x;
    assert k >= |r|;
    forall y | y in r ensures key(y) >= key(x) {
      var m :| 0 <= m < |r| && r[m] == y;
      assert s[m] == y;
    }
  }

  lemma SortedPrefix<T>(xs: seq<T>, key: T -> int, n: nat)
    requires SortedDesc(xs, key) && n <= |xs|
    ensures SortedDesc(xs[..n], key)
  {
  }

  /** `a` comes no later than `b` under `order_by('-first', '-second')`. */
  predicate NoLater<T>(a: T, b: T, first: T -> int, second: T -> int) {
    first(a) > first(b) || (first(a) == first(b) && second(a) >= second(b))
  }

  predicate SortedDesc2<T>(xs: seq<T>, first: T -> int, second: T -> int) {
    forall i, j :: 0 <= i < j < |xs| ==> NoLater(xs[i], xs[j], first, second)
  }

  /** No element of `xs` comes before the key pair (`b1`, `b2`). */
  predicate Above2<T>(b1: int, b2: int, xs: seq<T>, first: T -> int, second: T -> int) {
    forall i :: 0 <= i < |xs| ==> first(xs[i]) < b1 || (first(xs[i]) == b1 && second(xs[i]) <= b2)
  }

  lemma ConsSorted2<T>(x: T, xs: seq<T>, first: T -> int, second: T -> int)
    requires SortedDesc2(xs, first, second) && Above2(first(x), second(x), xs, first, second)
    ensures SortedDesc2([x] + xs, first, second)
  {
    var r := [x] + xs;
    forall i, j | 0 <= i < j < |r|
      ensures NoLater(r[i], r[j], first, second)
    {
      if i > 0 {
        assert r[i] == xs[i - 1] && r[j] == xs[j - 1];
      } else {
        assert r[j] == xs[j - 1];
      }
    }
  }

  function Insert2<T>(x: T, xs: seq<T>, first: T -> int, second: T -> int): (r: seq<T>)
    requires SortedDesc2(xs, first, second)
    ensures SortedDesc2(r, first, second)
    ensures multiset(r) == multiset(xs) + multiset{x}
    ensures forall b1, b2 :: Above2(b1, b2, xs, first, second) && Above2(b1, b2, [x], first, second) ==>
              Above2(b1, b2, r, first, second)
  {
    if |xs| == 0 || NoLater(x, xs[0], first, second) then
      Insert2Front(x, xs, first, second);
      [x] + xs
    else
      SortedTail2(xs, first, second);
      var tail := Insert2(x, xs[1..], first, second);
      Insert2Step(x, xs, tail, first, second);
      [xs[0]] + tail
  }

  lemma SortedTail2<T>(xs: seq<T>, first: T -> int, second: T -> int)
    requires |xs| > 0 && SortedDesc2(xs, first, second)
    ensures SortedDesc2(xs[1..], first, second)
  {
    forall i, j | 0 <= i < j < |xs| - 1
      ensures NoLater(xs[1..][i], xs[1..][j], first, second)
    {
      assert xs[1..][i] == xs[i + 1] && xs[1..][j] == xs[j + 1];
    }
  }

  /** An element that comes no later than the head goes in front. */
  lemma Insert2Front<T>(x: T, xs: seq<T>, first: T -> int, second: T -> int)
    requires SortedDesc2(xs, first, second) && (|xs| == 0 || NoLater(x, xs[0], first, second))
    ensures SortedDesc2([x] + xs, first, second)
    ensures forall b1, b2 :: Above2(b1, b2, xs, first, second) && Above2(b1, b2, [x], first, second) ==>
              Above2(b1, b2, [x] + xs, first, second)
  {
    forall i | 0 <= i < |xs|
      ensures first(xs[i]) < first(x) || (first(xs[i]) == first(x) && second(xs[i]) <= second(x))
    {
      if i > 0 {
        assert NoLater(xs[0], xs[i], first, second);
      }
    }
    ConsSorted2(x, xs, first, second);
    var r := [x] + xs;
    forall b1, b2 | Above2(b1, b2, xs, first, second) && Above2(b1, b2, [x], first, second)
      ensures Above2(b1, b2, r, first, second)
    {
      forall i | 0 <= i < |r|
        ensures first(r[i]) < b1 || (first(r[i]) == b1 && second(r[i]) <= b2)
      {
        if i == 0 {
          assert r[0] == [x][0];
        } else {
          assert r[i] == xs[i - 1];
        }
      }
    }
  }

  /** An element that comes after the head is inserted into the tail, behind the head. */
  lemma Insert2Step<T>(x: T, xs: seq<T>, tail: seq<T>, first: T -> int, second: T -> int)
    requires |xs| > 0 && SortedDesc2(xs, first, second) && !NoLater(x, xs[0], first, second)
    requires SortedDesc2(tail, first, second) && multiset(tail) == multiset(xs[1..]) + multiset{x}
    requires forall b1, b2 :: Above2(b1, b2, xs[1..], first, second) && Above2(b1, b2, [x], first, second) ==>
               Above2(b1, b2, tail, first, second)
    ensures SortedDesc2([xs[0]] + tail, first, second)
    ensures multiset([xs[0]] + tail) == multiset(xs) + multiset{x}
    ensures forall b1, b2 :: Above2(b1, b2, xs, first, second) && Above2(b1, b2, [x], first, second) ==>
              Above2(b1, b2, [xs[0]] + tail, first, second)
  {
    assert xs == [xs[0]] + xs[1..];
    var h := xs[0];
    forall i | 0 <= i < |xs| - 1
      ensures first(xs[1..][i]) < first(h) || (first(xs[1..][i]) == first(h) && second(xs[1..][i]) <= second(h))
    {
      assert xs[1..][i] == xs[i + 1];
      assert NoLater(xs[0], xs[i + 1], first, second);
    }
    assert Above2(first(h), second(h), [x], first, second) by {
      assert [x][0] == x;
    }
    ConsSorted2(h, tail, first, second);
    var r := [h] + tail;
    forall b1, b2 | Above2(b1, b2, xs, first, second) && Above2(b1, b2, [x], first, second)
      ensures Above2(b1, b2, r, first, second)
    {
      forall i | 0 <= i < |xs| - 1
        ensures first(xs[1..][i]) < b1 || (first(xs[1..][i]) == b1 && second(xs[1..][i]) <= b2)
      {
        assert xs[1..][i] == xs[i + 1];
      }
      assert Above2(b1, b2, tail, first, second);
      forall i | 0 <= i < |r|
        ensures first(r[i]) < b1 || (first(r[i]) == b1 && second(r[i]) <= b2)
      {
        if i > 0 {
          assert r[i] == tail[i - 1];
        }
      }
    }
  }

  /** Sorts by descending `first`, ties by descending `second`; the result is a permutation of the input. */
  function SortDesc2<T>(xs: seq<T>, first: T -> int, second: T -> int): (r: seq<T>)
    ensures SortedDesc2(r, first, second)
    ensures multiset(r) == multiset(xs)
  {
    if |xs| == 0 then []
    else
      assert xs == [xs[0]] + xs[1..];
      Insert2(xs[0], SortDesc2(xs[1..], first, second), first, second)
  }

  /** Sorting by two keys neither adds nor drops an element. */
  lemma SortDesc2SameElements<T>(xs: seq<T>, first: T -> int, second: T -> int)
    ensures forall x :: x in SortDesc2(xs, first, second) <==> x in xs
  {
    var r := SortDesc2(xs, first, second);
    forall x ensures x in r <==> x in xs {
      assert x in r <==> x in multiset(r);
      assert x in xs <==> x in multiset(xs);
    }
  }
}

=== FILE: passwordform.dfy ===
/**
 * The change-password page's submit handler: client-side checks before the
 * request to the change-password endpoint.
 */
module PasswordForm {
  import opened Store
  import opened Tables
  import opened Wrappers
  import Accounts

  const MismatchMessage: string := "Passwords do not match."
  const LengthMessage: string := "Password must be 8-16 characters."
  const FormMin: nat := 8
  const FormMax: nat := 16

  /**
   * What submitting the form does: the browser blocks it (an empty
   * `required` input), the handler shows one error, or it sends a request
   * with these fields.
   */
  datatype Submission = Blocked | Refused(message: string) | Send(oldPassword: string, newPassword: string)

  /**
   * Submitting the form. The three inputs are `required`, so while any is
   * empty the browser does not call `handleSubmit`. The handler then checks
   * that the confirmation matches, then that the new password has 8 to 16
   * characters; the mismatch is reported first. The request carries the old
   * and new passwords only.
   */
  function Submit(current: string, replacement: string, confirmation: string): (r: Submission)
    ensures r.Blocked? <==> current == "" || replacement == "" || confirmation == ""
    ensures r.Send? <==> current != "" && replacement == confirmation && FormMin <= |replacement| <= FormMax
    ensures !r.Blocked? && replacement != confirmation ==> r == Refused(MismatchMessage)
    ensures (!r.Blocked? && replacement == confirmation && !(FormMin <= |replacement| <= FormMax)) ==> r == Refused(LengthMessage)
    ensures r.Send? ==> r.oldPassword == current && r.newPassword == replacement
  {
    if current == "" || replacement == "" || confirmation == "" then Blocked
    else if replacement != confirmation then Refused(MismatchMessage)
    else if |replacement| < FormMin || |replacement| > FormMax then Refused(LengthMessage)
    else Send(current, replacement)
  }

  /**
   * Whatever the form sends passes the server's length rule and carries a
   * non-blank current password, so with a correct one the change goes through.
   */
  lemma SentPasswordAccepted(w: World, u: Id, current: string, replacement: string, confirmation: string)
    requires IsUser(w, u)
    requires Submit(current, replacement, confirmation).Send?
    ensures Accounts.NewPassword(Some(replacement)).Ok?
    ensures Accounts.CheckPassword(w.users[u].password, current) ==>
              Accounts.ChangePassword(w, u, Some(current), Some(replacement)).result.Ok?
  {
  }

  /**
   * The server accepts passwords of seven and of seventeen characters that
   * the form refuses; an empty current password, which the server would
   * refuse, never leaves the browser.
   */
  lemma FormAndServerDiffer()
    ensures Submit("old-pass", "1234567", "1234567") == Refused(LengthMessage)
    ensures Accounts.NewPassword(Some("1234567")).Ok?
    ensures Submit("old-pass", "12345678901234567", "12345678901234567") == Refused(LengthMessage)
    ensures Accounts.NewPassword(Some("12345678901234567")).Ok?
    ensures Submit("", "12345678", "12345678") == Blocked
  {
  }
}

=== FILE: projects.dfy ===
/**
 * The project views: a membership-scoped queryset, creation inside one of
 * the requester's teams, and update and deletion behind the project-admin
 * permission.
 */
module Projects {
  import opened Wrappers
  import opened Tables
  import opened Store
  import opened Cascade

  const ProjectNameMax: nat := 255

  /** `get_queryset`: projects whose team has the requester as a member of any status, highest id first. */
  function ProjectsOf(w: World, u: Id): (ids: seq<Id>)
    ensures Decreasing(ids)
    ensures forall p: Id :: p in ids <==> Live(w.projects, p) && IsMember(w, u, w.projects[p].value.team)
  {
    Newest(Where(w.projects, (p: Id, row: Project) => IsMember(w, u, row.team)))
  }

  /** Detail lookups go through the queryset: outsiders get not-found. */
  function GetProject(w: World, u: Id, p: Id): (r: Result<Project, Error>)
    ensures r.Ok? <==> p in ProjectsOf(w, u)
    ensures r.Ok? ==> r.value == w.projects[p].value
    ensures r.Err? ==> r.error == NotFound
  {
    match Get(w.projects, p)
    case Some(row) => if IsMember(w, u, row.team) then Ok(row) else Err(NotFound)
    case None => Err(NotFound)
  }

  /** Another live project than `self` already has this name. */
  predicate NameHeldByOther(w: World, name: string, self: Option<Id>) {
    exists p :: 0 <= p < |w.projects| && w.projects[p].Some? && Some(p) != self && w.projects[p].value.name == name
  }

  /** The name field: required, non-blank, at most 255 characters, and unique among projects other than `self`. */
  function ValidName(w: World, name: Option<string>, self: Option<Id>): (r: Result<string, Error>)
    ensures r.Ok? <==> name.Some? && name.value != "" && |name.value| <= ProjectNameMax
                       && !NameHeldByOther(w, name.value, self)
    ensures r.Ok? ==> r.value == name.value
    ensures r.Err? ==> r.error.BadRequest?
  {
    match name
    case None => Err(BadRequest(Required("name")))
    case Some(s) =>
      if s == "" then Err(BadRequest(Blank("name")))
      else if |s| > ProjectNameMax then Err(BadRequest(TooLong("name")))
      else if NameHeldByOther(w, s, self) then
        Err(BadRequest(NotUnique("name")))
      else Ok(s)
  }

  /**
   * `create`: the serializer checks name, description and team; then a
   * requester who is not a member of that team is refused; the project is
   * saved with the requester as creator and no budget or due date.
   */
  function CreateProject(w: World, u: Id, name: Option<string>, description: Option<string>, team: Option<Id>, now: int): (r: Outcome<Id>)
    ensures r.result.Err? ==> r.world == w
    ensures r.result.Ok? <==>
              (ValidName(w, name, None).Ok? && team.Some? && Live(w.teams, team.value) && IsMember(w, u, team.value))
    ensures ValidName(w, name, None).Ok? && team.Some? && Live(w.teams, team.value) && !IsMember(w, u, team.value) ==>
              r.result == Err(Forbidden(NotTeamMember))
    ensures r.result.Ok? ==>
              && r.result.value == |w.projects|
              && r.world == w.(projects := Insert(w.projects, Project(name.value, description.GetOr(""), team.value, u, now, None, None)))
  {
    match ValidName(w, name, None)
    case Err(e) => Outcome(w, Err(e))
    case Ok(n) =>
      if team.None? then Outcome(w, Err(BadRequest(Required("team"))))
      else if !Live(w.teams, team.value) then Outcome(w, Err(BadRequest(InvalidPk("team"))))
      else if !IsMember(w, u, team.value) then Outcome(w, Err(Forbidden(NotTeamMember)))
      else Outcome(w.(projects := Insert(w.projects, Project(n, description.GetOr(""), team.value, u, now, None, None))),
                   Ok(|w.projects|))
  }

  /** The creator sees the new project at the head of their list. */
  lemma CreatedProjectListedFirst(w: World, u: Id, name: Option<string>, description: Option<string>, team: Option<Id>, now: int)
    requires CreateProject(w, u, name, description, team, now).result.Ok?
    ensures var r := CreateProject(w, u, name, description, team, now);
            |ProjectsOf(r.world, u)| > 0 && ProjectsOf(r.world, u)[0] == r.result.value
  {
    var r := CreateProject(w, u, name, description, team, now);
    var ids := ProjectsOf(r.world, u);
    var p := r.result.value;
    assert p in ids;
    forall k | 0 <= k < |ids| ensures ids[k] <= p {
      assert Live(r.world.projects, ids[k]);
    }
  }

  /** Creating projects keeps project names unique. */
  lemma CreateProjectKeepsNamesUnique(w: World, u: Id, name: Option<string>, description: Option<string>, team: Option<Id>, now: int)
    requires UniqueProjectNames(w)
    ensures UniqueProjectNames(CreateProject(w, u, name, description, team, now).world)
  {
    var r := CreateProject(w, u, name, description, team, now);
    if r.result.Ok? {
      var w' := r.world;
      forall i: Id, j: Id | Live(w'.projects, i) && Live(w'.projects, j) && w'.projects[i].value.name == w'.projects[j].value.name
        ensures i == j
      {
        if i != |w.projects| && j != |w.projects| {
          assert Get(w'.projects, i) == Get(w.projects, i) && Get(w'.projects, j) == Get(w.projects, j);
        }
      }
    }
  }

  /**
   * `partial_update`: the project must be in the requester's queryset and
   * the requester a project admin (`projectAdmin`, whose definition is not
   * part of this model); a given name is checked like on create; only the
   * name and description change.
   */
  function UpdateProject(w: World, u: Id, p: Id, name: Option<string>, description: Option<string>, projectAdmin: bool): (r: Outcome<Project>)
    ensures r.result.Err? ==> r.world == w
    ensures p !in ProjectsOf(w, u) ==> r == Outcome(w, Err(NotFound))
    ensures p in ProjectsOf(w, u) && !projectAdmin ==> r == Outcome(w, Err(Forbidden(NotProjectAdmin)))
    ensures r.result.Ok? ==>
              var before := w.projects[p].value;
              && p in ProjectsOf(w, u) && projectAdmin
              && r.result.value == before.(name := name.GetOr(before.name), description := description.GetOr(before.description))
              && r.world == w.(projects := w.projects[p := Some(r.result.value)])
    ensures p in ProjectsOf(w, u) && projectAdmin ==>
              (r.result.Ok? <==> name.None? || ValidName(w, name, Some(p)).Ok?)
    ensures p in ProjectsOf(w, u) && projectAdmin && r.result.Err? ==> r.result.error == ValidName(w, name, Some(p)).error
  {
    match GetProject(w, u, p)
    case Err(e) => Outcome(w, Err(e))
    case Ok(row) =>
      if !projectAdmin then Outcome(w, Err(Forbidden(NotProjectAdmin)))
      else if name.Some? && ValidName(w, name, Some(p)).Err? then Outcome(w, Err(ValidName(w, name, Some(p)).error))
      else
        var row' := row.(name := name.GetOr(row.name), description := description.GetOr(row.description));
        Outcome(w.(projects := w.projects[p := Some(row')]), Ok(row'))
  }

  /**
   * `destroy`: not-found outside the queryset, forbidden without project
   * admin rights; the project's tasks (with their comments, files and time
   * entries) go with it and log entries keep only a null project.
   */
  function DestroyProject(w: World, u: Id, p: Id, projectAdmin: bool): (r: Outcome<()>)
    ensures r.result.Ok? <==> p in ProjectsOf(w, u) && projectAdmin
    ensures r.result.Err? ==> r.world == w
    ensures p !in ProjectsOf(w, u) ==> r.result == Err(NotFound)
    ensures r.result.Ok? ==>
              && !Live(r.world.projects, p)
              && (forall q: Id :: q != p ==> Get(r.world.projects, q) == Get(w.projects, q))
              && (forall i: Id :: Live(r.world.tasks, i) <==> Live(w.tasks, i) && w.tasks[i].value.project != p)
              && |r.world.log| == |w.log|
              && (forall k :: 0 <= k < |r.world.log| ==> r.world.log[k].project != Some(p))
    ensures r.result.Ok? ==> r.world == DeleteProjects(w, Single(p))
  {
    match GetProject(w, u, p)
    case Err(e) => Outcome(w, Err(e))
    case Ok(_) =>
      if !projectAdmin then Outcome(w, Err(Forbidden(NotProjectAdmin)))
      else Outcome(DeleteProjects(w, Single(p)), Ok(()))
  }
}

=== FILE: store.dfy ===
/**
 * The persisted state of the backend: every table the team, project and task
 * apps read or write, plus the outgoing e-mails and channel-layer pushes,
 * which are recorded as events because their transports are external.
 */
module Store {
  import opened Wrappers
  import opened Tables

  /** A password is an opaque secret (hashing is not modelled) or unusable. */
  datatype Password = Unusable | Usable(secret: string)

  datatype User = User(email: string, firstName: string, lastName: string, password: Password, dateJoined: int)

  datatype Team = Team(name: string, createdBy: Id)

  datatype InviteStatus = Pending | Accepted | Declined

  /**
   * A row of TeamMembership. The role is the stored string: only
   * `change_role` checks it against the three choices.
   */
  datatype Membership = Membership(role: string, status: InviteStatus, joinedAt: int) {
    predicate IsPending() {
      status == Pending
    }
  }

  const RoleAdmin: string := "admin"
  const RoleManager: string := "manager"
  const RoleDeveloper: string := "developer"

  /** The membership role choices. */
  predicate ValidRole(role: string) {
    role == RoleAdmin || role == RoleManager || role == RoleDeveloper
  }

  /** A decimal(12, 2) amount held as integer cents. */
  type Cents = int

  predicate ValidBudget(b: Cents) {
    -1_000_000_000_000 < b < 1_000_000_000_000
  }

  datatype Project = Project(
    name: string,
    description: string,
    team: Id,
    createdBy: Id,
    createdAt: int,
    budget: Option<Cents>,
    dueDate: Option<int>)

  datatype TaskStatus = Todo | InProgress | Done

  datatype Priority = Low | Medium | High

  datatype Task = Task(
    title: string,
    description: string,
    project: Id,
    assignedTo: Option<Id>,
    status: TaskStatus,
    priority: Priority,
    dueDate: int,
    createdBy: Id,
    createdAt: int)

  datatype Comment = Comment(task: Id, user: Id, text: string, parent: Option<Id>, createdAt: int)

  datatype TaskFile = TaskFile(task: Id, uploadedBy: Id, name: string, size: nat, contentType: string, uploadedAt: int)

  datatype Notification = Notification(user: Id, message: string, kind: string, isRead: bool, createdAt: int)

  datatype LogEntry = LogEntry(
    user: Id,
    action: string,
    targetType: string,
    targetId: nat,
    targetRepr: string,
    project: Option<Id>,
    timestamp: int)

  datatype TimeEntry = TimeEntry(user: Id, task: Id, date: int, minutes: nat, note: Option<string>, createdAt: int)

  datatype ResetToken = ResetToken(user: Id, createdAt: int)

  /** An e-mail handed to the mail transport. */
  datatype Mail = Mail(subject: string, body: string, sender: string, to: seq<string>)

  /** The payload of a live notification. */
  datatype PushData = PushData(message: string, kind: string, timestamp: int)

  /** A `group_send` to the channel layer: the group and the event's data. */
  datatype Push = Push(group: string, handler: string, data: PushData)

  datatype World = World(
    users: seq<User>,
    teams: Table<Team>,
    memberships: map<(Id, Id), Membership>,
    projects: Table<Project>,
    tasks: Table<Task>,
    comments: Table<Comment>,
    files: Table<TaskFile>,
    notifications: Table<Notification>,
    log: seq<LogEntry>,
    timeEntries: Table<TimeEntry>,
    resetTokens: map<nat, ResetToken>,
    mails: seq<Mail>,
    pushes: seq<Push>)

  /** Why an authenticated request was refused with 403. */
  datatype Denial =
    | NotTeamAdmin
    | NotTeamMember
    | AssigneeNotInTeam
    | NotCreatorOrAssignee
    | NotProjectAdmin

  /** Why a request was rejected with 400. */
  datatype Rejection =
    | Required(field: string)
    | Blank(field: string)
    | TooLong(field: string)
    | TooShort(field: string)
    | InvalidChoice(field: string)
    | InvalidEmail(field: string)
    | InvalidPk(field: string)
    | NotUnique(field: string)
    | EmailRequired
    | AlreadyInvited
    | AlreadyProcessed
    | CannotRemoveSelf
    | InvalidRole
    | WrongPassword
    | InvalidUuid
    | InvalidToken
    | TokenExpired
    | AlreadyRegistered
    | DueDateInPast
    | ParentOnOtherTask
    | EmptyFile
    | FileTooLarge
    | OutOfRange(field: string)

  /** An exception the view does not catch, which surfaces as a 500. */
  datatype Crash =
    | MissingRow
    | BadIdText
    | NullColumn
    | UniqueViolation
    | NoChannelLayer

  datatype Error =
    | NotFound
    | Forbidden(denial: Denial)
    | BadRequest(rejection: Rejection)
    | ServerError(crash: Crash)

  function HttpStatus(e: Error): (code: nat)
    ensures 400 <= code < 600
  {
    match e
    case NotFound => 404
    case Forbidden(_) => 403
    case BadRequest(_) => 400
    case ServerError(_) => 500
  }

  /** The world after a request, and the request's answer. */
  datatype Outcome<T> = Outcome(world: World, result: Result<T, Error>)

  predicate IsUser(w: World, u: Id) {
    u < |w.users|
  }

  /** `team.members`: a membership row of ANY status puts a user in it. */
  predicate IsMember(w: World, u: Id, team: Id) {
    (u, team) in w.memberships
  }

  /** A membership with role 'admin'; its status is not looked at. */
  predicate HasAdminRole(w: World, u: Id, team: Id) {
    (u, team) in w.memberships && w.memberships[(u, team)].role == RoleAdmin
  }

  /** "first last", the way every serializer renders a user. */
  function FullName(user: User): string {
    user.firstName + " " + user.lastName
  }

  /** `CustomUser.objects.get(email=...)`: the first user with that address. */
  function FindUserByEmail(users: seq<User>, email: string): (r: Option<Id>)
    ensures r.Some? ==> r.value < |users| && users[r.value].email == email
    ensures r.Some? ==> forall i :: 0 <= i < r.value ==> users[i].email != email
    ensures r.None? <==> forall i :: 0 <= i < |users| ==> users[i].email != email
  {
    if |users| == 0 then None
    else if users[0].email == email then Some(0)
    else
      match FindUserByEmail(users[1..], email)
      case None => None
      case Some(i) => Some(i + 1)
  }

  /** project.team, or nothing when the project row is gone. */
  function TeamOfProject(w: World, p: Id): (r: Option<Id>)
    ensures r.Some? <==> Live(w.projects, p)
    ensures r.Some? ==> r.value == w.projects[p].value.team
  {
    match Get(w.projects, p)
    case None => None
    case Some(project) => Some(project.team)
  }

  /** task.project.team, or nothing when a link of the chain is gone. */
  function TeamOfTask(w: World, task: Id): (r: Option<Id>)
    ensures r.Some? <==> Live(w.tasks, task) && Live(w.projects, w.tasks[task].value.project)
    ensures r.Some? ==> r.value == w.projects[w.tasks[task].value.project].value.team
  {
    match Get(w.tasks, task)
    case None => None
    case Some(t) => TeamOfProject(w, t.project)
  }

  /** `task.project.team.members` contains `u`. */
  predicate InTaskTeam(w: World, u: Id, task: Id) {
    var team := TeamOfTask(w, task);
    team.Some? && IsMember(w, u, team.value)
  }

  /** Team names are unique (the `unique=True` constraint on Team.name). */
  ghost predicate UniqueTeamNames(w: World) {
    forall i: Id, j: Id :: Live(w.teams, i) && Live(w.teams, j) && w.teams[i].value.name == w.teams[j].value.name ==> i == j
  }

  /** Project names are unique (the `unique=True` constraint on Project.name). */
  ghost predicate UniqueProjectNames(w: World) {
    forall i: Id, j: Id :: Live(w.projects, i) && Live(w.projects, j) && w.projects[i].value.name == w.projects[j].value.name ==> i == j
  }

  /** User e-mail addresses are unique. */
  ghost predicate UniqueEmails(w: World) {
    forall i, j :: 0 <= i < |w.users| && 0 <= j < |w.users| && w.users[i].email == w.users[j].email ==> i == j
  }

  predicate NameTaken(w: World, name: string) {
    exists i :: 0 <= i < |w.teams| && w.teams[i].Some? && w.teams[i].value.name == name
  }

  predicate ProjectNameTaken(w: World, name: string) {
    exists i :: 0 <= i < |w.projects| && w.projects[i].Some? && w.projects[i].value.name == name
  }
}

=== FILE: tables.dfy ===
/**
 * Database tables as tombstoned sequences: the row with id `i` lives at
 * index `i`, a deleted row leaves `None` behind, and a new row always gets
 * the next unused id, the way an auto-increment primary key behaves.
 */
module Tables {
  import opened Wrappers

  type Id = nat
  type Table<T> = seq<Option<T>>

  predicate Live<T>(t: Table<T>, id: Id) {
    id < |t| && t[id].Some?
  }

  /** `objects.get(pk=id)`: the row, or nothing when it was never created or was deleted. */
  function Get<T>(t: Table<T>, id: Id): (r: Option<T>)
    ensures r.Some? <==> Live(t, id)
    ensures r.Some? ==> r.value == t[id].value
  {
    if id < |t| then t[id] else None
  }

  /** Inserts a row; its id is `|t|`, which no earlier row ever had. */
  function Insert<T>(t: Table<T>, row: T): (r: Table<T>)
    ensures |r| == |t| + 1 && r[..|t|] == t
    ensures !Live(t, |t|) && Live(r, |t|) && r[|t|].value == row
    ensures forall i: Id :: i != |t| ==> Get(r, i) == Get(t, i)
  {
    t + [Some(row)]
  }

  /** Deletes one row; every other row is untouched. */
  function Delete<T>(t: Table<T>, id: Id): (r: Table<T>)
    ensures |r| == |t|
    ensures !Live(r, id)
    ensures forall i: Id :: i != id ==> Get(r, i) == Get(t, i)
  {
    if id < |t| then t[id := None] else t
  }

  /** Saves a new version of a live row; every other row is untouched. */
  function Save<T>(t: Table<T>, id: Id, row: T): (r: Table<T>)
    requires Live(t, id)
    ensures |r| == |t|
    ensures Get(r, id) == Some(row)
    ensures forall i: Id :: i != id ==> Get(r, i) == Get(t, i)
  {
    t[id := Some(row)]
  }

  /** Bulk delete (`filter(...).delete()`): drops exactly the live rows `doomed` selects. */
  function DeleteWhere<T>(t: Table<T>, doomed: (Id, T) -> bool): (r: Table<T>)
    ensures |r| == |t|
    ensures forall i: Id :: Live(t, i) && doomed(i, t[i].value) ==> !Live(r, i)
    ensures forall i: Id :: Live(t, i) && !doomed(i, t[i].value) ==> Get(r, i) == Get(t, i)
    ensures forall i: Id :: !Live(t, i) ==> !Live(r, i)
  {
    seq(|t|, i requires 0 <= i < |t| =>
      if t[i].Some? && doomed(i, t[i].value) then None else t[i])
  }

  predicate Increasing(ids: seq<Id>) {
    forall i, j :: 0 <= i < j < |ids| ==> ids[i] < ids[j]
  }

  predicate Decreasing(ids: seq<Id>) {
    forall i, j :: 0 <= i < j < |ids| ==> ids[i] > ids[j]
  }

  /**
   * `filter(...)`: the ids of the live rows that `keep` selects, in
   * ascending id order (insertion order of the table).
   */
  function Where<T>(t: Table<T>, keep: (Id, T) -> bool): (ids: seq<Id>)
    ensures Increasing(ids)
    ensures forall i: Id :: i in ids <==> Live(t, i) && keep(i, t[i].value)
    ensures forall k :: 0 <= k < |ids| ==> ids[k] < |t|
    decreases |t|
  {
    if |t| == 0 then []
    else
      var n := |t| - 1;
      var front := Where(t[..n], keep);
      assert forall i: Id :: Live(t[..n], i) <==> i < n && Live(t, i);
      if t[n].Some? && keep(n, t[n].value) then front + [n] else front
  }

  /** The same ids, newest (highest) first: `order_by('-id')`. */
  function Newest(ids: seq<Id>): (r: seq<Id>)
    requires Increasing(ids)
    ensures |r| == |ids| && Decreasing(r)
    ensures forall i: Id :: i in r <==> i in ids
  {
    if |ids| == 0 then [] else
      var n := |ids| - 1;
      var rest := Newest(ids[..n]);
      NewestStep(ids, rest);
      [ids[n]] + rest
  }

  /** Putting the highest id in front of the others, newest first, keeps them newest first. */
  lemma NewestStep(ids: seq<Id>, rest: seq<Id>)
    requires |ids| > 0 && Increasing(ids)
    requires |rest| == |ids| - 1 && Decreasing(rest)
    requires forall i: Id :: i in rest <==> i in ids[..|ids| - 1]
    ensures Decreasing([ids[|ids| - 1]] + rest)
    ensures forall i: Id :: i in [ids[|ids| - 1]] + rest <==> i in ids
  {
    var n := |ids| - 1;
    var r := [ids[n]] + rest;
    forall k | 0 <= k < |rest|
      ensures rest[k] < ids[n]
    {
      assert rest[k] in rest;
      assert rest[k] in ids[..n];
      var j :| 0 <= j < n && ids[..n][j] == rest[k];
      assert ids[j] == rest[k];
    }
    forall a, b | 0 <= a < b < |r|
      ensures r[a] > r[b]
    {
      assert r[b] == rest[b - 1];
      if a > 0 {
        assert r[a] == rest[a - 1];
      }
    }
    assert ids == ids[..n] + [ids[n]];
  }
}

=== FILE: taskfiles.dfy ===
/**
 * File attachments of a task: the size-capped upload and the per-task
 * listing, both behind the task gate.
 */
module TaskFiles {
  import opened Wrappers
  import opened Tables
  import opened Store
  import opened Ordering
  import opened Access

  /** 5 MiB. */
  const MaxFileSize: nat := 5 * 1024 * 1024

  /** An uploaded file as the serializer sees it; its bytes are stored elsewhere. */
  datatype Upload = Upload(name: string, size: nat, contentType: string)

  /**
   * The `file` field, then `validate_file`. A part with an empty file name
   * is dropped by the multipart parser, so it counts as no file at all; the
   * field refuses an empty file (`allow_empty_file` is off); then
   * `validate_file` caps the size at 5 MiB. The content type is not looked at.
   */
  function ValidateFile(f: Option<Upload>): (r: Result<Upload, Error>)
    ensures r.Ok? <==> f.Some? && f.value.name != "" && 0 < f.value.size <= MaxFileSize
    ensures r.Ok? ==> r.value == f.value
    ensures f.None? || f.value.name == "" ==> r == Err(BadRequest(Required("file")))
    ensures f.Some? && f.value.name != "" && f.value.size == 0 ==> r == Err(BadRequest(EmptyFile))
    ensures f.Some? && f.value.name != "" && f.value.size > MaxFileSize ==> r == Err(BadRequest(FileTooLarge))
  {
    match f
    case None => Err(BadRequest(Required("file")))
    case Some(up) =>
      if up.name == "" then Err(BadRequest(Required("file")))
      else if up.size == 0 then Err(BadRequest(EmptyFile))
      else if up.size > MaxFileSize then Err(BadRequest(FileTooLarge))
      else Ok(up)
  }

  /** The content type never decides: the same file under any content type gets the same verdict. */
  lemma ContentTypeIgnored(name: string, size: nat, a: string, b: string)
    ensures ValidateFile(Some(Upload(name, size, a))).Ok? == ValidateFile(Some(Upload(name, size, b))).Ok?
  {
  }

  function UploadedAt(w: World, f: Id): int {
    if Live(w.files, f) then w.files[f].value.uploadedAt else 0
  }

  /** `get_queryset`: after the task gate, that task's files, newest upload first. */
  function ListFiles(w: World, u: Id, task: Id): (r: Result<seq<Id>, Error>)
    ensures r.Err? <==> TaskGate(w, u, task).Err?
    ensures r.Err? ==> r.error == TaskGate(w, u, task).error
    ensures r.Ok? ==> SortedDesc(r.value, (f: Id) => UploadedAt(w, f))
    ensures r.Ok? ==> forall f: Id :: f in r.value <==> Live(w.files, f) && w.files[f].value.task == task
  {
    match TaskGate(w, u, task)
    case Err(e) => Err(e)
    case Ok(_) =>
      var mine := Where(w.files, (f: Id, row: TaskFile) => row.task == task);
      var key := (f: Id) => UploadedAt(w, f);
      SortDescSameElements(mine, key);
      Ok(SortDesc(mine, key))
  }

  /**
   * `create`: the serializer's file check first, then the task gate; the
   * row records the URL's task and the requester as uploader. Names are not
   * deduplicated.
   */
  function UploadFile(w: World, u: Id, task: Id, f: Option<Upload>, now: int): (r: Outcome<Id>)
    ensures r.result.Err? ==> r.world == w
    ensures ValidateFile(f).Err? ==> r.result == Err(ValidateFile(f).error)
    ensures ValidateFile(f).Ok? && TaskGate(w, u, task).Err? ==> r.result == Err(TaskGate(w, u, task).error)
    ensures r.result.Ok? <==> ValidateFile(f).Ok? && TaskGate(w, u, task).Ok?
    ensures r.result.Ok? ==>
              && r.result.value == |w.files|
              && r.world == w.(files := Insert(w.files, TaskFile(task, u, f.value.name, f.value.size, f.value.contentType, now)))
  {
    match ValidateFile(f)
    case Err(e) => Outcome(w, Err(e))
    case Ok(up) =>
      match TaskGate(w, u, task)
      case Err(e) => Outcome(w, Err(e))
      case Ok(_) => Outcome(w.(files := Insert(w.files, TaskFile(task, u, up.name, up.size, up.contentType, now))), Ok(|w.files|))
  }

  /**
   * Two uploads under the same name are two separate records, both listed.
   * The name recorded is the client's file name: the storage backend's
   * renaming of a second file with a clashing name is not modelled, so both
   * records carry the same name.
   */
  lemma SameNameUploadsCoexist(w: World, u: Id, task: Id, up: Upload, now: int, later: int)
    requires UploadFile(w, u, task, Some(up), now).result.Ok?
    ensures var r1 := UploadFile(w, u, task, Some(up), now);
            var r2 := UploadFile(r1.world, u, task, Some(up), later);
            && r2.result.Ok? && r1.result.value != r2.result.value
            && Live(r2.world.files, r1.result.value) && Live(r2.world.files, r2.result.value)
            && r2.world.files[r1.result.value].value.name == r2.world.files[r2.result.value].value.name
  {
    var r1 := UploadFile(w, u, task, Some(up), now);
    assert TaskGate(r1.world, u, task) == TaskGate(w, u, task);
  }

  /** The file as listed: `uploaded_by` is the uploader's "first last". */
  datatype FileView = FileView(id: Id, name: string, uploadedBy: string, uploadedAt: int)

  function RenderFile(w: World, f: Id): (v: FileView)
    requires Live(w.files, f) && IsUser(w, w.files[f].value.uploadedBy)
    ensures v.id == f && v.name == w.files[f].value.name && v.uploadedAt == w.files[f].value.uploadedAt
    ensures v.uploadedBy == FullName(w.users[w.files[f].value.uploadedBy])
  {
    var row := w.files[f].value;
    FileView(f, row.name, FullName(w.users[row.uploadedBy]), row.uploadedAt)
  }
}

=== FILE: tasks.dfy ===
/**
 * The task views nested under a project: the membership-scoped queryset,
 * create with its validators, assignment notification and log entry, and
 * update and delete reserved to the task's creator or assignee.
 */
module Tasks {
  import opened Wrappers
  import opened Tables
  import opened Store
  import opened Cascade
  import opened Access
  import opened Activity
  import opened Notify

  const TitleMax: nat := 255

  function StatusName(s: TaskStatus): string {
    match s
    case Todo => "todo"
    case InProgress => "in_progress"
    case Done => "done"
  }

  /** The status choice field: exactly the three stored names are accepted. */
  function ParseStatus(s: string): (r: Option<TaskStatus>)
    ensures r.Some? ==> StatusName(r.value) == s
    ensures r.None? ==> forall v :: StatusName(v) != s
  {
    if s == "todo" then Some(Todo)
    else if s == "in_progress" then Some(InProgress)
    else if s == "done" then Some(Done)
    else None
  }

  function PriorityName(p: Priority): string {
    match p
    case Low => "low"
    case Medium => "medium"
    case High => "high"
  }

  /** The priority choice field: exactly the three stored names are accepted. */
  function ParsePriority(s: string): (r: Option<Priority>)
    ensures r.Some? ==> PriorityName(r.value) == s
    ensures r.None? ==> forall v :: PriorityName(v) != s
  {
    if s == "low" then Some(Low)
    else if s == "medium" then Some(Medium)
    else if s == "high" then Some(High)
    else None
  }

  /** Stored choices read back as themselves. */
  lemma ChoicesRoundTrip(s: TaskStatus, p: Priority)
    ensures ParseStatus(StatusName(s)) == Some(s)
    ensures ParsePriority(PriorityName(p)) == Some(p)
  {
  }

  /** The fields a task request may carry; `None` is an absent field. */
  datatype TaskInput = TaskInput(
    title: Option<string>,
    description: Option<string>,
    project: Option<Id>,
    assignedTo: Option<Id>,
    status: Option<string>,
    priority: Option<string>,
    dueDate: Option<int>)

  /** A validated create request. */
  datatype Draft = Draft(title: string, description: string, assignedTo: Option<Id>,
                         status: TaskStatus, priority: Priority, dueDate: int)

  predicate GoodTitle(t: string) {
    t != "" && |t| <= TitleMax
  }

  /** Everything the create serializer demands of a request. */
  predicate CreateAcceptable(w: World, input: TaskInput, now: int) {
    && input.title.Some? && GoodTitle(input.title.value)
    && input.project.Some? && Live(w.projects, input.project.value)
    && (input.assignedTo.None? || IsUser(w, input.assignedTo.value))
    && input.status.Some? && ParseStatus(input.status.value).Some?
    && input.priority.Some? && ParsePriority(input.priority.value).Some?
    && input.dueDate.Some? && input.dueDate.value >= now
  }

  function TitleField(t: Option<string>): (r: Result<string, Error>)
    ensures r.Ok? <==> t.Some? && GoodTitle(t.value)
    ensures r.Ok? ==> r.value == t.value
    ensures r.Err? ==> r.error.BadRequest?
  {
    match t
    case None => Err(BadRequest(Required("title")))
    case Some(s) =>
      if s == "" then Err(BadRequest(Blank("title")))
      else if |s| > TitleMax then Err(BadRequest(TooLong("title")))
      else Ok(s)
  }

  function StatusField(s: Option<string>): (r: Result<TaskStatus, Error>)
    ensures r.Ok? <==> s.Some? && ParseStatus(s.value).Some?
    ensures r.Ok? ==> StatusName(r.value) == s.value
    ensures r.Err? ==> r.error.BadRequest?
  {
    match s
    case None => Err(BadRequest(Required("status")))
    case Some(text) =>
      match ParseStatus(text)
      case None => Err(BadRequest(InvalidChoice("status")))
      case Some(v) => Ok(v)
  }

  function PriorityField(s: Option<string>): (r: Result<Priority, Error>)
    ensures r.Ok? <==> s.Some? && ParsePriority(s.value).Some?
    ensures r.Ok? ==> PriorityName(r.value) == s.value
    ensures r.Err? ==> r.error.BadRequest?
  {
    match s
    case None => Err(BadRequest(Required("priority")))
    case Some(text) =>
      match ParsePriority(text)
      case None => Err(BadRequest(InvalidChoice("priority")))
      case Some(v) => Ok(v)
  }

  /**
   * The create serializer, field by field in declaration order; the due date
   * may equal `now` but not precede it.
   */
  function ValidateCreate(w: World, input: TaskInput, now: int): (r: Result<Draft, Error>)
    ensures r.Ok? <==> CreateAcceptable(w, input, now)
    ensures r.Err? ==> r.error.BadRequest?
    ensures r.Ok? ==>
              && r.value.title == input.title.value && r.value.description == input.description.GetOr("")
              && r.value.assignedTo == input.assignedTo && r.value.dueDate == input.dueDate.value
              && StatusName(r.value.status) == input.status.value
              && PriorityName(r.value.priority) == input.priority.value
    ensures CreateAcceptable(w, input.(dueDate := Some(now)), now) && input.dueDate.Some? && input.dueDate.value < now ==>
              r == Err(BadRequest(DueDateInPast))
  {
    var title :- TitleField(input.title);
    if input.project.None? then Err(BadRequest(Required("project")))
    else if !Live(w.projects, input.project.value) then Err(BadRequest(InvalidPk("project")))
    else if input.assignedTo.Some? && !IsUser(w, input.assignedTo.value) then Err(BadRequest(InvalidPk("assigned_to")))
    else
      var status :- StatusField(input.status);
      var priority :- PriorityField(input.priority);
      if input.dueDate.None? then Err(BadRequest(Required("due_date")))
      else if input.dueDate.value < now then Err(BadRequest(DueDateInPast))
      else Ok(Draft(title, input.description.GetOr(""), input.assignedTo, status, priority, input.dueDate.value))
  }

  /** `get_queryset`: tasks of the URL's project, provided the requester is in that project's team. */
  function TasksOf(w: World, u: Id, project: Id): (ids: seq<Id>)
    ensures Increasing(ids)
    ensures forall i: Id :: i in ids <==> Live(w.tasks, i) && w.tasks[i].value.project == project && InTaskTeam(w, u, i)
  {
    Where(w.tasks, (i: Id, row: Task) => row.project == project && TeamOfProject(w, project).Some?
                                         && IsMember(w, u, TeamOfProject(w, project).value))
  }

  /**
   * `retrieve`: the queryset lookup, then `IsTeamMember` on the task. The
   * object check never refuses what the queryset let through.
   */
  function RetrieveTask(w: World, u: Id, project: Id, i: Id): (r: Result<Task, Error>)
    ensures r.Ok? <==> i in TasksOf(w, u, project)
    ensures r.Ok? ==> r.value == w.tasks[i].value
    ensures r.Err? ==> r.error == NotFound
  {
    if i !in TasksOf(w, u, project) then Err(NotFound)
    else if !IsTeamMember(w, u, TaskShape(w.tasks[i].value)) then Err(Forbidden(NotTeamMember))
    else Ok(w.tasks[i].value)
  }

  function AssignedMessage(title: string): string {
    "New task assigned: " + title
  }

  function AssignedBody(projectName: string): string {
    "You have been assigned a new task in project '" + projectName + "'."
  }

  function TaskRepr(title: string): string {
    "Task: " + title
  }

  /**
   * `create` (`perform_create` after validation). The URL's project must
   * exist (otherwise the lookup raises); the requester and any assignee
   * must be members of its team. The task is saved under the URL's project
   * with the requester as creator, the assignee is notified (type general)
   * unless unassigned or self-assigned, and one 'created' entry is logged.
   * A failing notification leaves the saved task and no log entry.
   */
  function CreateTask(w: World, u: Id, project: Id, input: TaskInput, layer: bool, now: int): (r: Outcome<Id>)
    ensures !CreateAcceptable(w, input, now) ==> r.world == w && r.result.Err? && r.result.error.BadRequest?
    ensures CreateAcceptable(w, input, now) && !Live(w.projects, project) ==> r == Outcome(w, Err(ServerError(MissingRow)))
    ensures CreateAcceptable(w, input, now) && Live(w.projects, project) && !IsMember(w, u, w.projects[project].value.team) ==>
              r == Outcome(w, Err(Forbidden(NotTeamMember)))
    ensures r.result == Err(Forbidden(AssigneeNotInTeam)) <==>
              (CreateAcceptable(w, input, now) && Live(w.projects, project) && IsMember(w, u, w.projects[project].value.team)
               && input.assignedTo.Some? && !IsMember(w, input.assignedTo.value, w.projects[project].value.team))
    ensures r.result.Ok? <==>
              (CreateAcceptable(w, input, now) && Live(w.projects, project)
               && IsMember(w, u, w.projects[project].value.team)
               && (input.assignedTo.None? || IsMember(w, input.assignedTo.value, w.projects[project].value.team))
               && (layer || !NotifiesAssignee(input.assignedTo, u)))
    ensures r.result.Ok? || r.result == Err(ServerError(NoChannelLayer)) ==>
              var i := |w.tasks|;
              && Live(r.world.tasks, i)
              && (forall j: Id :: j != i ==> Get(r.world.tasks, j) == Get(w.tasks, j))
              && var t := r.world.tasks[i].value;
              && t.project == project && t.createdBy == u && t.createdAt == now
              && t.title == input.title.value && t.description == input.description.GetOr("")
              && t.assignedTo == input.assignedTo && t.dueDate == input.dueDate.value
              && StatusName(t.status) == input.status.value && PriorityName(t.priority) == input.priority.value
    ensures r.result == Err(ServerError(NoChannelLayer)) ==> r.world == w.(tasks := r.world.tasks)
    ensures r.result.Ok? ==>
              var i := r.result.value;
              && i == |w.tasks|
              && r.world.log == w.log + [LogEntry(u, Created, TargetTask, i, TaskRepr(input.title.value), Some(project), now)]
              && r.world == w.(tasks := r.world.tasks, log := r.world.log, notifications := r.world.notifications,
                               pushes := r.world.pushes, mails := r.world.mails)
              && (NotifiesAssignee(input.assignedTo, u) ==>
                    NotifiedDefault(w, r.world, input.assignedTo.value, AssignedMessage(input.title.value), Some("New Task Assigned"),
                                    Some(AssignedBody(w.projects[project].value.name)), now))
              && (!NotifiesAssignee(input.assignedTo, u) ==>
                    r.world.notifications == w.notifications && r.world.pushes == w.pushes && r.world.mails == w.mails)
  {
    match ValidateCreate(w, input, now)
    case Err(e) => Outcome(w, Err(e))
    case Ok(d) =>
      match Get(w.projects, project)
      case None => Outcome(w, Err(ServerError(MissingRow)))
      case Some(p) =>
        if !IsMember(w, u, p.team) then Outcome(w, Err(Forbidden(NotTeamMember)))
        else if d.assignedTo.Some? && !IsMember(w, d.assignedTo.value, p.team) then Outcome(w, Err(Forbidden(AssigneeNotInTeam)))
        else Persist(w, u, project, d, p.name, layer, now)
  }

  /**
   * The tail of `create`: save the task, notify the assignee unless
   * unassigned or self-assigned, then log. A failing notification leaves the
   * saved task and logs nothing.
   */
  function Persist(w: World, u: Id, project: Id, d: Draft, projectName: string, layer: bool, now: int): (r: Outcome<Id>)
    requires d.assignedTo.Some? ==> IsUser(w, d.assignedTo.value)
    ensures r.result.Ok? <==> layer || !NotifiesAssignee(d.assignedTo, u)
    ensures r.result.Err? ==>
              && r.result.error == ServerError(NoChannelLayer)
              && r.world == w.(tasks := Insert(w.tasks, Task(d.title, d.description, project, d.assignedTo, d.status, d.priority, d.dueDate, u, now)))
    ensures r.result.Ok? ==>
              var i := r.result.value;
              && i == |w.tasks| && Live(r.world.tasks, i)
              && (forall j: Id :: j != i ==> Get(r.world.tasks, j) == Get(w.tasks, j))
              && r.world.tasks[i].value == Task(d.title, d.description, project, d.assignedTo, d.status, d.priority, d.dueDate, u, now)
              && r.world.log == w.log + [LogEntry(u, Created, TargetTask, i, TaskRepr(d.title), Some(project), now)]
              && r.world == w.(tasks := r.world.tasks, log := r.world.log, notifications := r.world.notifications,
                               pushes := r.world.pushes, mails := r.world.mails)
              && (NotifiesAssignee(d.assignedTo, u) ==>
                    NotifiedDefault(w, r.world, d.assignedTo.value, AssignedMessage(d.title), Some("New Task Assigned"),
                                    Some(AssignedBody(projectName)), now))
              && (!NotifiesAssignee(d.assignedTo, u) ==>
                    r.world.notifications == w.notifications && r.world.pushes == w.pushes && r.world.mails == w.mails)
  {
    var i := |w.tasks|;
    var w1 := w.(tasks := Insert(w.tasks, Task(d.title, d.description, project, d.assignedTo, d.status, d.priority, d.dueDate, u, now)));
    var notified :=
      if NotifiesAssignee(d.assignedTo, u) then
        NotifyDefault(w1, d.assignedTo.value, AssignedMessage(d.title), Some("New Task Assigned"), Some(AssignedBody(projectName)), layer, now)
      else Ok(w1);
    match notified
    case Err(e) => Outcome(w1, Err(e))
    case Ok(w2) => Outcome(LogActivity(w2, u, Created, TargetTask, i, TaskRepr(d.title), Some(project), now), Ok(i))
  }

  /** Self-assignment notifies nobody, so creation needs no channel layer. */
  lemma SelfAssignedNeedsNoLayer(w: World, u: Id, project: Id, input: TaskInput, now: int)
    requires input.assignedTo == Some(u)
    requires CreateTask(w, u, project, input, true, now).result.Ok?
    ensures CreateTask(w, u, project, input, false, now) == CreateTask(w, u, project, input, true, now)
  {
  }

  /**
   * `update` and `partial_update`: the queryset, then creator-or-assignee;
   * only title, description, status, priority and due date are writable
   * (assignee, project and creator are read-only), a full update needs all
   * required fields, and the due date is not checked against the clock.
   * One 'updated' entry is logged.
   */
  function UpdateTask(w: World, u: Id, project: Id, i: Id, input: TaskInput, partial: bool, now: int): (r: Outcome<Task>)
    ensures r.result.Err? ==> r.world == w
    ensures i !in TasksOf(w, u, project) ==> r.result == Err(NotFound)
    ensures i in TasksOf(w, u, project) && !IsTaskCreatorOrAssignee(u, w.tasks[i].value) ==>
              r.result == Err(Forbidden(NotCreatorOrAssignee))
    ensures r.result.Ok? <==>
              i in TasksOf(w, u, project) && IsTaskCreatorOrAssignee(u, w.tasks[i].value)
              && UpdateAcceptable(input, partial)
    ensures r.result.Ok? ==>
              var before := w.tasks[i].value;
              var after := r.result.value;
              && after == ValidateUpdate(before, input, partial).value
              && after.project == before.project && after.assignedTo == before.assignedTo
              && after.createdBy == before.createdBy && after.createdAt == before.createdAt
              && after.title == input.title.GetOr(before.title)
              && after.description == input.description.GetOr(before.description)
              && after.status == (if input.status.Some? then ParseStatus(input.status.value).value else before.status)
              && after.priority == (if input.priority.Some? then ParsePriority(input.priority.value).value else before.priority)
              && after.dueDate == input.dueDate.GetOr(before.dueDate)
              && r.world.tasks == w.tasks[i := Some(after)]
              && r.world.log == w.log + [LogEntry(u, Updated, TargetTask, i, TaskRepr(after.title), Some(before.project), now)]
              && r.world == w.(tasks := r.world.tasks, log := r.world.log)
  {
    if i !in TasksOf(w, u, project) then Outcome(w, Err(NotFound))
    else
      var t := w.tasks[i].value;
      if !IsTaskCreatorOrAssignee(u, t) then Outcome(w, Err(Forbidden(NotCreatorOrAssignee)))
      else
        match ValidateUpdate(t, input, partial)
        case Err(e) => Outcome(w, Err(e))
        case Ok(t') =>
          var w1 := w.(tasks := w.tasks[i := Some(t')]);
          Outcome(LogActivity(w1, u, Updated, TargetTask, i, TaskRepr(t'.title), Some(t.project), now), Ok(t'))
  }

  /**
   * What the task serializer demands of an update: a full update carries
   * every required field, and each given field is acceptable.
   */
  predicate UpdateAcceptable(input: TaskInput, partial: bool) {
    && (partial || (input.title.Some? && input.status.Some? && input.priority.Some? && input.dueDate.Some?))
    && (input.title.None? || GoodTitle(input.title.value))
    && (input.status.None? || ParseStatus(input.status.value).Some?)
    && (input.priority.None? || ParsePriority(input.priority.value).Some?)
  }

  /** The task serializer on update: absent fields keep their value unless the update is full. */
  function ValidateUpdate(t: Task, input: TaskInput, partial: bool): (r: Result<Task, Error>)
    ensures r.Ok? <==> UpdateAcceptable(input, partial)
    ensures r.Err? ==> r.error.BadRequest?
    ensures r.Ok? ==>
              && r.value == t.(title := r.value.title, description := r.value.description, status := r.value.status,
                               priority := r.value.priority, dueDate := r.value.dueDate)
              && r.value.title == input.title.GetOr(t.title) && r.value.description == input.description.GetOr(t.description)
              && r.value.dueDate == input.dueDate.GetOr(t.dueDate)
              && (input.status.Some? ==> StatusName(r.value.status) == input.status.value)
              && (input.status.None? ==> r.value.status == t.status)
              && (input.priority.Some? ==> PriorityName(r.value.priority) == input.priority.value)
              && (input.priority.None? ==> r.value.priority == t.priority)
    ensures !partial && (input.title.None? || input.status.None? || input.priority.None? || input.dueDate.None?) ==> r.Err?
    ensures partial && input.title.None? && input.status.None? && input.priority.None? ==> r.Ok?
  {
    if !partial && input.title.None? then Err(BadRequest(Required("title")))
    else if !partial && input.status.None? then Err(BadRequest(Required("status")))
    else if !partial && input.priority.None? then Err(BadRequest(Required("priority")))
    else if !partial && input.dueDate.None? then Err(BadRequest(Required("due_date")))
    else
      var title :- if input.title.Some? then TitleField(input.title) else Ok(t.title);
      var status :- if input.status.Some? then StatusField(input.status) else Ok(t.status);
      var priority :- if input.priority.Some? then PriorityField(input.priority) else Ok(t.priority);
      Ok(t.(title := title, description := input.description.GetOr(t.description), status := status,
            priority := priority, dueDate := input.dueDate.GetOr(t.dueDate)))
  }

  /** Unlike create, an update accepts a due date in the past. */
  lemma UpdateAcceptsPastDueDate(t: Task, due: int)
    requires due < t.createdAt
    ensures ValidateUpdate(t, TaskInput(None, None, None, None, None, None, Some(due)), true) == Ok(t.(dueDate := due))
  {
  }

  /**
   * `destroy`: the queryset, then creator-or-assignee; the 'deleted' entry
   * is logged first, then the task goes with its comments, files and time
   * entries. The entry survives the deletion.
   */
  function DestroyTask(w: World, u: Id, project: Id, i: Id, now: int): (r: Outcome<()>)
    ensures r.result.Ok? <==> i in TasksOf(w, u, project) && IsTaskCreatorOrAssignee(u, w.tasks[i].value)
    ensures r.result.Err? ==> r.world == w
    ensures i !in TasksOf(w, u, project) ==> r.result == Err(NotFound)
    ensures r.result.Ok? ==>
              var t := w.tasks[i].value;
              && !Live(r.world.tasks, i)
              && (forall j: Id :: j != i ==> Get(r.world.tasks, j) == Get(w.tasks, j))
              && r.world.log == w.log + [LogEntry(u, Deleted, TargetTask, i, TaskRepr(t.title), Some(t.project), now)]
    ensures r.result.Ok? ==>
              var t := w.tasks[i].value;
              r.world == DeleteTasks(LogActivity(w, u, Deleted, TargetTask, i, TaskRepr(t.title), Some(t.project), now), Single(i))
  {
    if i !in TasksOf(w, u, project) then Outcome(w, Err(NotFound))
    else
      var t := w.tasks[i].value;
      if !IsTaskCreatorOrAssignee(u, t) then Outcome(w, Err(Forbidden(NotCreatorOrAssignee)))
      else
        var w1 := LogActivity(w, u, Deleted, TargetTask, i, TaskRepr(t.title), Some(t.project), now);
        Outcome(DeleteTasks(w1, Single(i)), Ok(()))
  }

  /** A team admin who neither created nor is assigned the task may not delete it. */
  lemma AdminRoleGrantsNoTaskRights(w: World, u: Id, project: Id, i: Id, now: int)
    requires i in TasksOf(w, u, project)
    requires w.tasks[i].value.createdBy != u && w.tasks[i].value.assignedTo != Some(u)
    ensures DestroyTask(w, u, project, i, now) == Outcome(w, Err(Forbidden(NotCreatorOrAssignee)))
  {
  }

  /** `get_assigned_to`: nothing for an unassigned task, otherwise "first last". */
  function AssignedName(w: World, t: Task): (r: Option<string>)
    requires t.assignedTo.Some? ==> IsUser(w, t.assignedTo.value)
    ensures r.None? <==> t.assignedTo.None?
    ensures r.Some? ==> r.value == FullName(w.users[t.assignedTo.value])
  {
    match t.assignedTo
    case None => None
    case Some(a) => Some(FullName(w.users[a]))
  }

  /** `get_project`: exactly the project's id and name. */
  function ProjectRef(w: World, t: Task): (r: (Id, string))
    requires Live(w.projects, t.project)
    ensures r.0 == t.project && r.1 == w.projects[t.project].value.name
  {
    (t.project, w.projects[t.project].value.name)
  }
}

=== FILE: teams.dfy ===
/**
 * The team-membership state machine of the team views: creating a team,
 * inviting, accepting and declining, removing members, changing roles and
 * deleting a team, with the `IsTeamAdmin` permission in front of the admin
 * actions.
 */
module Teams {
  import opened Wrappers
  import opened Tables
  import opened Store
  import opened Cascade
  import Decimal

  const TeamNameMax: nat := 100
  const InviteSender: string := "no-reply@yourapp.com"

  /** `get_queryset`: the teams in which the requester has a membership of any status. */
  function TeamsOf(w: World, u: Id): (ids: seq<Id>)
    ensures Increasing(ids)
    ensures forall t: Id :: t in ids <==> Live(w.teams, t) && IsMember(w, u, t)
  {
    Where(w.teams, (t: Id, row: Team) => IsMember(w, u, t))
  }

  /** `get_object`: a team outside the requester's queryset is not found. */
  function GetTeam(w: World, u: Id, t: Id): (r: Result<Team, Error>)
    ensures r.Ok? <==> t in TeamsOf(w, u)
    ensures r.Ok? ==> r.value == w.teams[t].value
    ensures r.Err? ==> r.error == NotFound
  {
    match Get(w.teams, t)
    case Some(team) => if IsMember(w, u, t) then Ok(team) else Err(NotFound)
    case None => Err(NotFound)
  }

  /** What a permission class decides; `Missing` is the 404 its `get_object` raises. */
  datatype Decision = Allow | Deny | Missing

  /**
   * `IsTeamAdmin.has_permission`: anonymous requests and collection actions
   * are denied; the team is looked up through the membership-filtered
   * queryset; then an admin-role membership is required, whatever its status.
   */
  function IsTeamAdmin(w: World, principal: Option<Id>, detail: bool, t: Id): (d: Decision)
    ensures principal.None? || !detail ==> d == Deny
    ensures d == Allow <==> principal.Some? && detail && Live(w.teams, t) && HasAdminRole(w, principal.value, t)
    ensures d == Missing <==> principal.Some? && detail && t !in TeamsOf(w, principal.value)
  {
    if principal.None? then Deny
    else if !detail then Deny
    else if GetTeam(w, principal.value, t).Err? then Missing
    else if HasAdminRole(w, principal.value, t) then Allow
    else Deny
  }

  /** The admin-only actions behind `IsTeamAdmin`, for an authenticated requester. */
  function AdminGate(w: World, u: Id, t: Id): (r: Result<Team, Error>)
    ensures r.Ok? <==> Live(w.teams, t) && HasAdminRole(w, u, t)
    ensures r.Ok? ==> r.value == w.teams[t].value
    ensures r.Err? ==> r.error == (if t in TeamsOf(w, u) then Forbidden(NotTeamAdmin) else NotFound)
  {
    match IsTeamAdmin(w, Some(u), true, t)
    case Missing => Err(NotFound)
    case Deny => Err(Forbidden(NotTeamAdmin))
    case Allow => Ok(w.teams[t].value)
  }

  /**
   * Team creation: the name must be non-blank, at most 100 characters and
   * not taken; on success the creator is the team's accepted admin.
   */
  function CreateTeam(w: World, u: Id, name: string, now: int): (r: Outcome<Id>)
    ensures r.result.Err? <==> name == "" || |name| > TeamNameMax || NameTaken(w, name)
    ensures r.result.Err? ==> r.world == w
    ensures r.result.Err? && NameTaken(w, name) && name != "" && |name| <= TeamNameMax ==>
              r.result.error == BadRequest(NotUnique("name"))
    ensures r.result.Ok? ==> var t := r.result.value;
              && !Live(w.teams, t) && Get(r.world.teams, t) == Some(Team(name, u))
              && (forall i: Id :: i != t ==> Get(r.world.teams, i) == Get(w.teams, i))
              && (u, t) in r.world.memberships
              && r.world.memberships[(u, t)] == Membership(RoleAdmin, Accepted, now)
              && (forall k :: k != (u, t) ==> (k in r.world.memberships <==> k in w.memberships))
              && (forall k :: k != (u, t) && k in w.memberships ==> r.world.memberships[k] == w.memberships[k])
              && r.world == w.(teams := r.world.teams, memberships := r.world.memberships)
  {
    if name == "" then Outcome(w, Err(BadRequest(Blank("name"))))
    else if |name| > TeamNameMax then Outcome(w, Err(BadRequest(TooLong("name"))))
    else if NameTaken(w, name) then Outcome(w, Err(BadRequest(NotUnique("name"))))
    else
      var t := |w.teams|;
      Outcome(w.(teams := Insert(w.teams, Team(name, u)),
                 memberships := w.memberships[(u, t) := Membership(RoleAdmin, Accepted, now)]),
              Ok(t))
  }

  /** Creating teams keeps team names unique. */
  lemma CreateTeamKeepsNamesUnique(w: World, u: Id, name: string, now: int)
    requires UniqueTeamNames(w)
    ensures UniqueTeamNames(CreateTeam(w, u, name, now).world)
  {
    var r := CreateTeam(w, u, name, now);
    if r.result.Ok? {
      var w' := r.world;
      var t := r.result.value;
      forall i: Id, j: Id | Live(w'.teams, i) && Live(w'.teams, j) && w'.teams[i].value.name == w'.teams[j].value.name
        ensures i == j
      {
        if i != t && j != t {
          assert Get(w'.teams, i) == Get(w.teams, i) && Get(w'.teams, j) == Get(w.teams, j);
        }
      }
    }
  }

  /** A second team with the same name is refused and changes nothing. */
  lemma SecondTeamWithSameNameFails(w: World, u: Id, v: Id, name: string, now: int, later: int)
    requires CreateTeam(w, u, name, now).result.Ok?
    ensures var w' := CreateTeam(w, u, name, now).world;
            CreateTeam(w', v, name, later) == Outcome(w', Err(BadRequest(NotUnique("name"))))
  {
    var w' := CreateTeam(w, u, name, now).world;
    var t := |w.teams|;
    assert w'.teams[t].Some? && w'.teams[t].value.name == name;
    assert NameTaken(w', name);
  }

  /** The invitation e-mail: subject, and a body carrying the registration link. */
  function InviteMail(frontendUrl: string, email: string, t: Id, teamName: string): (m: Mail)
    ensures m.to == [email] && m.sender == InviteSender
  {
    var link := frontendUrl + "/register?email=" + email + "&team_id=" + Decimal.Show(t);
    Mail("You've been invited to join the team: " + teamName,
         "Hi,\n\nYou've been invited to join '" + teamName + "' on Project Manager.\nAccept your invitation: " + link,
         InviteSender, [email])
  }

  /** A not-yet-registered address gets a user with empty names and an unusable password. */
  function Placeholder(email: string, now: int): User {
    User(email, "", "", Unusable, now)
  }

  /**
   * `invite_member`. After the admin gate: a blank e-mail is refused; an
   * unknown address first gets a placeholder user (which stays even if the
   * invite is then refused); any existing membership of the invitee in the
   * team, whatever its status, refuses the invite; otherwise one pending
   * membership with the requested role (default developer, not checked
   * against the choices) is added and the invitation is mailed.
   */
  function Invite(w: World, u: Id, t: Id, email: string, role: Option<string>, frontendUrl: string, now: int): (r: Outcome<Id>)
    ensures AdminGate(w, u, t).Err? ==> r == Outcome(w, Err(AdminGate(w, u, t).error))
    ensures AdminGate(w, u, t).Ok? && email == "" ==> r == Outcome(w, Err(BadRequest(EmailRequired)))
    ensures AdminGate(w, u, t).Ok? && email != "" && FindUserByEmail(w.users, email).None? ==>
              r.world.users == w.users + [Placeholder(email, now)]
    ensures FindUserByEmail(w.users, email).Some? ==> r.world.users == w.users
    ensures AdminGate(w, u, t).Ok? && email != "" ==>
              (r.result.Ok? <==> (FindUserByEmail(w.users, email).GetOr(|w.users|), t) !in w.memberships)
    ensures r.result.Err? ==> r.world.memberships == w.memberships && r.world.mails == w.mails
    ensures r.result.Ok? ==> var v := r.result.value;
              && v < |r.world.users| && r.world.users[v].email == email
              && (v, t) !in w.memberships
              && r.world.memberships == w.memberships[(v, t) := Membership(role.GetOr(RoleDeveloper), Pending, now)]
              && r.world.mails == w.mails + [InviteMail(frontendUrl, email, t, w.teams[t].value.name)]
              && r.world == w.(users := r.world.users, memberships := r.world.memberships, mails := r.world.mails)
    ensures r.result.Err? ==> r.world == w.(users := r.world.users)
  {
    match AdminGate(w, u, t)
    case Err(e) => Outcome(w, Err(e))
    case Ok(team) =>
      if email == "" then Outcome(w, Err(BadRequest(EmailRequired)))
      else
        var found := FindUserByEmail(w.users, email);
        var w1 := if found.Some? then w else w.(users := w.users + [Placeholder(email, now)]);
        var v := if found.Some? then found.value else |w.users|;
        if (v, t) in w1.memberships then Outcome(w1, Err(BadRequest(AlreadyInvited)))
        else
          Outcome(w1.(memberships := w1.memberships[(v, t) := Membership(role.GetOr(RoleDeveloper), Pending, now)],
                      mails := w1.mails + [InviteMail(frontendUrl, email, t, team.name)]),
                  Ok(v))
  }

  /** Inviting someone who already has a membership in the team, of any status, changes nothing. */
  lemma InviteOfMemberFails(w: World, u: Id, t: Id, email: string, role: Option<string>, frontendUrl: string, now: int)
    requires AdminGate(w, u, t).Ok? && email != ""
    requires FindUserByEmail(w.users, email).Some? && IsMember(w, FindUserByEmail(w.users, email).value, t)
    ensures Invite(w, u, t, email, role, frontendUrl, now) == Outcome(w, Err(BadRequest(AlreadyInvited)))
  {
  }

  /** The placeholder user of an invite keeps e-mail addresses unique. */
  lemma InviteKeepsEmailsUnique(w: World, u: Id, t: Id, email: string, role: Option<string>, frontendUrl: string, now: int)
    requires UniqueEmails(w)
    ensures UniqueEmails(Invite(w, u, t, email, role, frontendUrl, now).world)
  {
    var w' := Invite(w, u, t, email, role, frontendUrl, now).world;
    if w'.users != w.users {
      assert w'.users == w.users + [Placeholder(email, now)];
      forall i, j | 0 <= i < |w'.users| && 0 <= j < |w'.users| && w'.users[i].email == w'.users[j].email
        ensures i == j
      {
        if i < |w.users| && j < |w.users| {
          assert w'.users[i] == w.users[i] && w'.users[j] == w.users[j];
        }
      }
    }
  }

  /**
   * Answering an invitation (`accept_invite` / `decline_invite`): only a
   * pending membership moves, to `to`; a processed one is refused, and a
   * requester without a membership does not see the team at all.
   */
  function Respond(w: World, u: Id, t: Id, to: InviteStatus): (r: Outcome<InviteStatus>)
    ensures r.result.Ok? <==> Live(w.teams, t) && IsMember(w, u, t) && w.memberships[(u, t)].IsPending()
    ensures r.result.Err? ==> r.world == w
    ensures r.result.Err? ==>
              r.result.error == (if t in TeamsOf(w, u) then BadRequest(AlreadyProcessed) else NotFound)
    ensures r.result.Ok? ==>
              r.result.value == to &&
              r.world == w.(memberships := w.memberships[(u, t) := w.memberships[(u, t)].(status := to)])
  {
    match GetTeam(w, u, t)
    case Err(e) => Outcome(w, Err(e))
    case Ok(_) =>
      if (u, t) !in w.memberships then Outcome(w, Err(NotFound))
      else
        var m := w.memberships[(u, t)];
        if m.status != Pending then Outcome(w, Err(BadRequest(AlreadyProcessed)))
        else Outcome(w.(memberships := w.memberships[(u, t) := m.(status := to)]), Ok(to))
  }

  function Accept(w: World, u: Id, t: Id): (r: Outcome<InviteStatus>)
    ensures r.result.Ok? ==> (u, t) in r.world.memberships && r.world.memberships[(u, t)].status == Accepted
    ensures r.result.Ok? <==> Live(w.teams, t) && IsMember(w, u, t) && w.memberships[(u, t)].status == Pending
  {
    Respond(w, u, t, Accepted)
  }

  function Decline(w: World, u: Id, t: Id): (r: Outcome<InviteStatus>)
    ensures r.result.Ok? ==> (u, t) in r.world.memberships && r.world.memberships[(u, t)].status == Declined
    ensures r.result.Ok? <==> Live(w.teams, t) && IsMember(w, u, t) && w.memberships[(u, t)].status == Pending
  {
    Respond(w, u, t, Declined)
  }

  /** An invitation is answered at most once: after an accept, both answers are refused. */
  lemma AnswerIsFinal(w: World, u: Id, t: Id, to: InviteStatus, next: InviteStatus)
    requires to != Pending
    requires Respond(w, u, t, to).result.Ok?
    ensures var w' := Respond(w, u, t, to).world;
            Respond(w', u, t, next) == Outcome(w', Err(BadRequest(AlreadyProcessed)))
  {
    var w' := Respond(w, u, t, to).world;
    assert t in TeamsOf(w', u);
  }

  /**
   * `remove_member` AS WRITTEN: the self-removal guard compares the
   * requester's id with the posted `user_id` as text, while the lookup
   * coerces the text to an integer.
   */
  function RemoveMemberAsWritten(w: World, u: Id, t: Id, userId: Option<string>): (r: Outcome<()>)
    ensures AdminGate(w, u, t).Err? ==> r == Outcome(w, Err(AdminGate(w, u, t).error))
    ensures r.result.Err? ==> r.world == w
    ensures r.result.Ok? <==>
              (AdminGate(w, u, t).Ok? && userId.Some? && userId.value != Decimal.Show(u)
               && Decimal.Parse(userId.value).Some? && (Decimal.Parse(userId.value).value, t) in w.memberships)
    ensures r.result.Ok? ==>
              r.world == w.(memberships := w.memberships - {(Decimal.Parse(userId.value).value, t)})
  {
    match AdminGate(w, u, t)
    case Err(e) => Outcome(w, Err(e))
    case Ok(_) =>
      if userId == Some(Decimal.Show(u)) then Outcome(w, Err(BadRequest(CannotRemoveSelf)))
      else if userId.None? then Outcome(w, Err(NotFound))
      else
        match Decimal.Parse(userId.value)
        case None => Outcome(w, Err(ServerError(BadIdText)))
        case Some(v) =>
          if (v, t) in w.memberships then Outcome(w.(memberships := w.memberships - {(v, t)}), Ok(()))
          else Outcome(w, Err(NotFound))
  }

  /** The guard is bypassed by a zero-padded id: an admin removes their own membership. */
  lemma AdminRemovesSelfAsWritten(w: World, u: Id, t: Id)
    requires Live(w.teams, t) && HasAdminRole(w, u, t)
    ensures var r := RemoveMemberAsWritten(w, u, t, Some("0" + Decimal.Show(u)));
            r.result.Ok? && (u, t) !in r.world.memberships
  {
    Decimal.PaddedParsesToSame(u);
  }

  /**
   * `remove_member` as intended: the guard compares the id the lookup will
   * use, so an admin can never remove their own membership; otherwise exactly
   * the membership of (team, user_id) is deleted, or it is not found.
   */
  function RemoveMember(w: World, u: Id, t: Id, userId: Option<string>): (r: Outcome<()>)
    ensures AdminGate(w, u, t).Err? ==> r == Outcome(w, Err(AdminGate(w, u, t).error))
    ensures r.result.Err? ==> r.world == w
    ensures r.result.Ok? ==> (u, t) in r.world.memberships
    ensures r.result.Ok? <==>
              (AdminGate(w, u, t).Ok? && userId.Some? && Decimal.Parse(userId.value).Some?
               && Decimal.Parse(userId.value).value != u && (Decimal.Parse(userId.value).value, t) in w.memberships)
    ensures r.result.Ok? ==>
              r.world == w.(memberships := w.memberships - {(Decimal.Parse(userId.value).value, t)})
  {
    match AdminGate(w, u, t)
    case Err(e) => Outcome(w, Err(e))
    case Ok(_) =>
      if userId.None? then Outcome(w, Err(NotFound))
      else
        match Decimal.Parse(userId.value)
        case None => Outcome(w, Err(ServerError(BadIdText)))
        case Some(v) =>
          if v == u then Outcome(w, Err(BadRequest(CannotRemoveSelf)))
          else if (v, t) in w.memberships then Outcome(w.(memberships := w.memberships - {(v, t)}), Ok(()))
          else Outcome(w, Err(NotFound))
  }

  /**
   * `change_role`: a role outside the three choices is refused before the
   * membership is looked up; otherwise only that membership's role changes.
   */
  function ChangeRole(w: World, u: Id, t: Id, userId: Option<string>, role: Option<string>): (r: Outcome<string>)
    ensures AdminGate(w, u, t).Err? ==> r == Outcome(w, Err(AdminGate(w, u, t).error))
    ensures r.result.Err? ==> r.world == w
    ensures AdminGate(w, u, t).Ok? && !(role.Some? && ValidRole(role.value)) ==>
              r.result == Err(BadRequest(InvalidRole))
    ensures AdminGate(w, u, t).Ok? && role.Some? && ValidRole(role.value) ==>
              (r.result.Ok? <==>
                 userId.Some? && Decimal.Parse(userId.value).Some? && (Decimal.Parse(userId.value).value, t) in w.memberships)
    ensures r.result.Ok? ==> role.Some? && ValidRole(role.value) && r.result.value == role.value
    ensures r.result.Ok? ==>
              (userId.Some? && Decimal.Parse(userId.value).Some? &&
               var k := (Decimal.Parse(userId.value).value, t);
               k in w.memberships && r.world == w.(memberships := w.memberships[k := w.memberships[k].(role := role.value)]))
  {
    match AdminGate(w, u, t)
    case Err(e) => Outcome(w, Err(e))
    case Ok(_) =>
      if !(role.Some? && ValidRole(role.value)) then Outcome(w, Err(BadRequest(InvalidRole)))
      else if userId.None? then Outcome(w, Err(NotFound))
      else
        match Decimal.Parse(userId.value)
        case None => Outcome(w, Err(ServerError(BadIdText)))
        case Some(v) =>
          if (v, t) in w.memberships then
            Outcome(w.(memberships := w.memberships[(v, t) := w.memberships[(v, t)].(role := role.value)]), Ok(role.value))
          else Outcome(w, Err(NotFound))
  }

  /**
   * `destroy`: a team outside the queryset is not found; then an admin-role
   * membership (any status) is required; deletion takes the memberships and
   * projects with it.
   */
  function DestroyTeam(w: World, u: Id, t: Id): (r: Outcome<()>)
    ensures r.result.Ok? <==> Live(w.teams, t) && HasAdminRole(w, u, t)
    ensures r.result.Err? ==> r.world == w
    ensures r.result.Err? ==> r.result.error == (if t in TeamsOf(w, u) then Forbidden(NotTeamAdmin) else NotFound)
    ensures r.result.Ok? ==>
              (!Live(r.world.teams, t)
               && (forall k :: k in r.world.memberships ==> k.1 != t)
               && (forall p: Id :: Live(r.world.projects, p) ==> r.world.projects[p].value.team != t))
    ensures r.result.Ok? ==> r.world == DeleteTeam(w, t)
  {
    match GetTeam(w, u, t)
    case Err(e) => Outcome(w, Err(e))
    case Ok(_) =>
      if !HasAdminRole(w, u, t) then Outcome(w, Err(Forbidden(NotTeamAdmin)))
      else Outcome(DeleteTeam(w, t), Ok(()))
  }

  /** A still-pending admin-role invitee passes the admin check: status is never consulted. */
  lemma PendingAdminMayDeleteTeam(w: World, u: Id, t: Id)
    requires Live(w.teams, t) && (u, t) in w.memberships
    requires w.memberships[(u, t)] == Membership(RoleAdmin, Pending, w.memberships[(u, t)].joinedAt)
    ensures DestroyTeam(w, u, t).result.Ok?
    ensures IsTeamAdmin(w, Some(u), true, t) == Allow
  {
  }
}

=== FILE: threading.dfy ===
/**
 * The comment panel's client side: threading the flat comment list the API
 * returns into roots and reply lists, and who is offered edit and delete.
 */
module Threading {
  import opened Wrappers
  import Comments

  /**
   * A comment object as the page holds it. `None` is a field the payload
   * lacks (`undefined`) or holds as null; `replies` is whatever the payload held.
   */
  datatype Comment = Comment(id: int, userEmail: Option<string>, text: string, parent: Option<int>, replies: seq<int>)

  /** The parent id as a key: 0 for a falsy parent (null or 0), the id otherwise. */
  function ParentKey(c: Comment): int {
    if c.parent.Some? then c.parent.value else 0
  }

  predicate IsRoot(c: Comment) {
    ParentKey(c) == 0
  }

  predicate HasId(flat: seq<Comment>, x: int) {
    exists i :: 0 <= i < |flat| && flat[i].id == x
  }

  predicate UniqueIds(flat: seq<Comment>) {
    forall i, j :: 0 <= i < j < |flat| ==> flat[i].id != flat[j].id
  }

  /** The ids of the comments under parent key `k`, in list order. */
  function Under(flat: seq<Comment>, k: int): seq<int> {
    if |flat| == 0 then []
    else (if ParentKey(flat[0]) == k then [flat[0].id] else []) + Under(flat[1..], k)
  }

  /** The last comment with id `x` (later entries overwrite earlier ones in the id map). */
  function Last(flat: seq<Comment>, x: int): (c: Comment)
    requires HasId(flat, x)
    ensures c.id == x && c in flat
  {
    if flat[|flat| - 1].id == x then flat[|flat| - 1]
    else
      var i :| 0 <= i < |flat| && flat[i].id == x;
      assert flat[..|flat| - 1][i] == flat[i];
      Last(flat[..|flat| - 1], x)
  }

  /**
   * The threaded result: the root ids in order, and for every id the
   * comment object the id map holds, its `replies` rebuilt. Objects are
   * shared by id, as in the id map.
   */
  datatype Thread = Thread(roots: seq<int>, nodes: map<int, Comment>)

  /** The ids directly under comment `x`: none under id 0, since a parent of 0 counts as no parent. */
  function RepliesOf(flat: seq<Comment>, x: int): seq<int> {
    if x == 0 then [] else Under(flat, x)
  }

  /**
   * `nestComments`: every comment gets a fresh reply list; a comment with
   * a falsy parent becomes a root, one whose parent is listed is appended
   * to that parent's replies, and one whose parent is missing is dropped.
   */
  function Nest(flat: seq<Comment>): (r: Thread)
    ensures forall x :: x in r.nodes <==> HasId(flat, x)
    ensures forall x :: x in r.nodes ==> r.nodes[x] == Last(flat, x).(replies := RepliesOf(flat, x))
  {
    var ids := set i | 0 <= i < |flat| :: flat[i].id;
    Thread(Under(flat, 0), map x | x in ids :: Last(flat, x).(replies := RepliesOf(flat, x)))
  }

  /** Threading is list-order preserving: a longer list extends every reply list at the end. */
  lemma {:induction false} UnderAppend(a: seq<Comment>, b: seq<Comment>, k: int)
    ensures Under(a + b, k) == Under(a, k) + Under(b, k)
  {
    if |a| > 0 {
      assert (a + b)[1..] == a[1..] + b;
      UnderAppend(a[1..], b, k);
    } else {
      assert a + b == b;
    }
  }

  /** With unique ids, each id occurs under its own parent key exactly once, and under no other. */
  lemma {:induction false} UnderCount(flat: seq<Comment>, k: int, i: int)
    requires UniqueIds(flat) && 0 <= i < |flat|
    ensures multiset(Under(flat, k))[flat[i].id] == if ParentKey(flat[i]) == k then 1 else 0
  {
    var x := flat[i].id;
    var rest := flat[1..];
    assert UniqueIds(rest);
    if i == 0 {
      AbsentNotUnder(rest, k, x);
    } else {
      assert rest[i - 1] == flat[i];
      UnderCount(rest, k, i - 1);
    }
  }

  lemma {:induction false} AbsentNotUnder(flat: seq<Comment>, k: int, x: int)
    requires !HasId(flat, x)
    ensures multiset(Under(flat, k))[x] == 0
  {
    if |flat| > 0 {
      forall j | 0 <= j < |flat[1..]| ensures flat[1..][j].id != x {
        assert flat[1..][j] == flat[j + 1];
      }
      AbsentNotUnder(flat[1..], k, x);
    }
  }

  /** Roots are exactly the comments with a falsy parent, each once, in list order. */
  lemma RootsAreFalsyParents(flat: seq<Comment>, i: int)
    requires UniqueIds(flat) && 0 <= i < |flat|
    ensures multiset(Nest(flat).roots)[flat[i].id] == if IsRoot(flat[i]) then 1 else 0
  {
    UnderCount(flat, 0, i);
  }

  /**
   * With unique ids, every comment whose parent is falsy or listed appears
   * exactly once in the threaded result: once among the roots or once in
   * its parent's replies, and nowhere else.
   */
  lemma ThreadedExactlyOnce(flat: seq<Comment>, i: int, x: int)
    requires UniqueIds(flat) && 0 <= i < |flat|
    requires IsRoot(flat[i]) || HasId(flat, ParentKey(flat[i]))
    ensures var t := Nest(flat);
            && (IsRoot(flat[i]) ==> multiset(t.roots)[flat[i].id] == 1)
            && (!IsRoot(flat[i]) ==> multiset(t.roots)[flat[i].id] == 0
                                     && multiset(t.nodes[ParentKey(flat[i])].replies)[flat[i].id] == 1)
            && (x in t.nodes && x != ParentKey(flat[i]) ==> multiset(t.nodes[x].replies)[flat[i].id] == 0)
  {
    UnderCount(flat, 0, i);
    UnderCount(flat, x, i);
    UnderCount(flat, ParentKey(flat[i]), i);
  }

  /** A comment whose parent is not in the list is shown nowhere. */
  lemma OrphanDropped(flat: seq<Comment>, i: int, x: int)
    requires UniqueIds(flat) && 0 <= i < |flat|
    requires !IsRoot(flat[i]) && !HasId(flat, ParentKey(flat[i]))
    ensures multiset(Nest(flat).roots)[flat[i].id] == 0
    ensures x in Nest(flat).nodes ==> multiset(Nest(flat).nodes[x].replies)[flat[i].id] == 0
  {
    UnderCount(flat, 0, i);
    UnderCount(flat, x, i);
  }

  /** The signed-in email the page reads: the stored value, or "" when none is stored. */
  function CurrentEmail(stored: Option<string>): string {
    stored.GetOr("")
  }

  /**
   * Edit and delete are offered on a comment when `user_email` strictly
   * equals the stored e-mail, a string, and the comment is not being edited.
   * A missing `user_email` is `undefined`, which equals no string.
   */
  function ShowsControls(c: Comment, stored: Option<string>, editing: Option<int>): (r: bool)
    ensures r <==> && c.userEmail.Some?
                   && (if stored.Some? then c.userEmail.value == stored.value else c.userEmail.value == "")
                   && editing != Some(c.id)
    ensures c.userEmail.None? ==> !r
  {
    c.userEmail == Some(CurrentEmail(stored)) && editing != Some(c.id)
  }

  /** With no stored email, a comment whose author has an empty email still shows the controls. */
  lemma BlankEmailShowsControls(c: Comment)
    requires c.userEmail == Some("")
    ensures ShowsControls(c, None, None)
  {
  }

  /**
   * How the page reads one comment the list endpoint rendered: the
   * rendering has no `user_email` and no `parent` field, and `replies`
   * holds the rendered replies.
   */
  function FromServer(v: Comments.CommentView): (c: Comment)
    ensures c.id == v.id as int && c.text == v.text && c.userEmail.None? && c.parent.None?
    ensures |c.replies| == |v.replies|
  {
    Comment(v.id, None, v.text, None, seq(|v.replies|, k requires 0 <= k < |v.replies| => v.replies[k].id as int))
  }

  function Ids(flat: seq<Comment>): (ids: seq<int>)
    ensures |ids| == |flat| && forall k :: 0 <= k < |flat| ==> ids[k] == flat[k].id
  {
    if |flat| == 0 then [] else [flat[0].id] + Ids(flat[1..])
  }

  /** When no comment has a parent, all are under key 0, in list order, and none under any other key. */
  lemma {:induction false} UnderParentless(flat: seq<Comment>, k: int)
    requires forall i :: 0 <= i < |flat| ==> flat[i].parent.None?
    ensures Under(flat, k) == if k == 0 then Ids(flat) else []
  {
    if |flat| > 0 {
      forall i | 0 <= i < |flat[1..]| ensures flat[1..][i].parent.None? {
        assert flat[1..][i] == flat[i + 1];
      }
      UnderParentless(flat[1..], k);
    }
  }

  /**
   * The list endpoint's payload defeats the page: every served comment
   * becomes a root in the served order, every reply list the page builds is
   * empty (the served replies are discarded), and no comment offers edit or
   * delete, whatever e-mail is stored.
   */
  lemma ServedCommentsFlatWithoutControls(vs: seq<Comments.CommentView>, stored: Option<string>, editing: Option<int>)
    ensures var flat := seq(|vs|, k requires 0 <= k < |vs| => FromServer(vs[k]));
            var t := Nest(flat);
            && t.roots == seq(|vs|, k requires 0 <= k < |vs| => vs[k].id as int)
            && (forall x :: x in t.nodes ==> t.nodes[x].replies == [])
            && (forall k :: 0 <= k < |flat| ==> !ShowsControls(flat[k], stored, editing))
  {
    var flat := seq(|vs|, k requires 0 <= k < |vs| => FromServer(vs[k]));
    UnderParentless(flat, 0);
    forall x | x in Nest(flat).nodes ensures Nest(flat).nodes[x].replies == [] {
      UnderParentless(flat, x);
    }
  }
}

=== FILE: timer.dfy ===
/**
 * The persisted global task timer: one timer that runs for one task at a
 * time. Clock readings are milliseconds passed in as `now`; the elapsed
 * count is whole seconds.
 */
module Timer {
  import opened Wrappers

  /** The stored timer; `taskId` and `startTime` are null when `None`. */
  datatype Timer = Timer(running: bool, taskId: Option<string>, startTime: Option<int>, elapsed: int)

  /** The state a fresh store starts in. */
  const Initial: Timer := Timer(false, None, None, 0)

  /** JavaScript truthiness of the task id: null and "" are false. */
  predicate HasTask(t: Timer) {
    t.taskId.Some? && t.taskId.value != ""
  }

  /** JavaScript truthiness of the start time: null and 0 are false. */
  predicate HasStart(t: Timer) {
    t.startTime.Some? && t.startTime.value != 0
  }

  /** Whole seconds between two millisecond readings, rounded down (`Math.floor` of the quotient). */
  function Seconds(from: int, to: int): int {
    (to - from) / 1000
  }

  /** A timer is running exactly when it holds a start time. */
  predicate Consistent(t: Timer) {
    t.running == t.startTime.Some?
  }

  /**
   * `getElapsed`: nothing without a task; the stored seconds, plus, while
   * running from a start time, the whole seconds since that start.
   */
  function GetElapsed(t: Timer, now: int): (r: int)
    ensures !HasTask(t) ==> r == 0
    ensures HasTask(t) && !(t.running && HasStart(t)) ==> r == t.elapsed
    ensures HasTask(t) && t.running && HasStart(t) ==>
              (r - t.elapsed) * 1000 <= now - t.startTime.value < (r - t.elapsed + 1) * 1000
  {
    if !HasTask(t) then 0
    else if t.running && HasStart(t) then t.elapsed + Seconds(t.startTime.value, now)
    else t.elapsed
  }

  /** `startTimer`: whatever was running or stored is discarded; the new session starts at `now`. */
  function Start(t: Timer, taskId: string, now: int): (r: Timer)
    ensures r.running && r.taskId == Some(taskId) && r.startTime == Some(now) && r.elapsed == 0
    ensures GetElapsed(r, now) == 0
  {
    Timer(true, Some(taskId), Some(now), 0)
  }

  /**
   * `stopTimer`: a stopped timer is left alone; a running one folds the
   * session's seconds into `elapsed` and keeps its task. What `getElapsed`
   * reads just before the stop is what it reads ever after.
   */
  function Stop(t: Timer, now: int): (r: Timer)
    ensures !t.running ==> r == t
    ensures t.running ==> !r.running && r.startTime.None? && r.taskId == t.taskId
    ensures forall later :: GetElapsed(r, later) == GetElapsed(t, now)
  {
    if !t.running then t
    else
      var start := if HasStart(t) then t.startTime.value else now;
      t.(running := false, startTime := None, elapsed := t.elapsed + Seconds(start, now))
  }

  /** `resetTimer`: back to the fresh state, reading zero at any time. */
  function Reset(t: Timer): (r: Timer)
    ensures !r.running && !HasTask(r) && r.startTime.None?
    ensures forall now :: GetElapsed(r, now) == 0
    ensures r == Initial
  {
    Timer(false, None, None, 0)
  }

  /** Every operation keeps "running iff started" once it holds, as it does initially. */
  lemma ConsistentPreserved(t: Timer, taskId: string, now: int)
    requires Consistent(t)
    ensures Consistent(Initial)
    ensures Consistent(Start(t, taskId, now)) && Consistent(Stop(t, now)) && Consistent(Reset(t))
  {
  }

  lemma SecondsMonotone(from: int, a: int, b: int)
    requires a <= b
    ensures Seconds(from, a) <= Seconds(from, b)
  {
    var qa, qb := (a - from) / 1000, (b - from) / 1000;
    assert qa * 1000 <= a - from < qa * 1000 + 1000;
    assert qb * 1000 <= b - from < qb * 1000 + 1000;
  }

  /** The displayed seconds never go backwards while the clock moves forward. */
  lemma ElapsedMonotone(t: Timer, a: int, b: int)
    requires a <= b
    ensures GetElapsed(t, a) <= GetElapsed(t, b)
  {
    if HasTask(t) && t.running && HasStart(t) {
      SecondsMonotone(t.startTime.value, a, b);
    }
  }
}

=== FILE: timesummary.dfy ===
/**
 * The time-tracking dashboard's pure helpers: the duration label, the
 * minutes-per-task pie buckets and the per-day bar series.
 */
module TimeSummary {
  import opened Wrappers
  import Decimal

  /**
   * `formatMinutes`: "Xh Ym", "Xh" when the minutes part is zero, "Ym" when
   * the hours part is zero. The label shows hours h and minutes m with
   * h * 60 + m == n, so reading it back gives n.
   */
  function FormatMinutes(n: nat): (s: string)
    ensures ReadDuration(s) == Some(n)
  {
    var h := n / 60;
    var m := n % 60;
    assert h * 60 + m == n;
    var hs := Decimal.Show(h);
    var ms := Decimal.Show(m);
    Decimal.ParseShow(h);
    Decimal.ParseShow(m);
    DigitsHaveNoLetter(hs, 'h');
    DigitsHaveNoLetter(ms, 'h');
    if h != 0 && m != 0 then
      ReadHoursMinutes(hs, ms, h, m);
      hs + "h " + ms + "m"
    else if h != 0 then
      ReadHours(hs, h);
      hs + "h"
    else
      ReadMinutes(ms, m);
      ms + "m"
  }

  /** The first position of `c` in `s`. */
  function IndexOf(s: string, c: char): (r: Option<nat>)
    ensures r.Some? ==> r.value < |s| && s[r.value] == c && c !in s[..r.value]
    ensures r.None? ==> c !in s
  {
    if |s| == 0 then None
    else if s[0] == c then Some(0)
    else match IndexOf(s[1..], c)
      case None => None
      case Some(i) => assert s[..i + 1] == [s[0]] + s[1..][..i]; Some(i + 1)
  }

  /** Reads a duration label back: the inverse of `FormatMinutes`. */
  function ReadDuration(s: string): Option<nat> {
    match IndexOf(s, 'h')
    case None =>
      if |s| >= 1 && s[|s| - 1] == 'm' then Decimal.Parse(s[..|s| - 1]) else None
    case Some(i) =>
      match Decimal.Parse(s[..i])
      case None => None
      case Some(hours) =>
        var rest := s[i + 1..];
        if rest == [] then Some(hours * 60)
        else if |rest| >= 2 && rest[0] == ' ' && rest[|rest| - 1] == 'm' then
          match Decimal.Parse(rest[1..|rest| - 1])
          case None => None
          case Some(minutes) => Some(hours * 60 + minutes)
        else None
  }

  lemma DigitsHaveNoLetter(s: string, c: char)
    requires Decimal.AllDigits(s) && !Decimal.IsDigit(c)
    ensures c !in s
  {
  }

  /** A position holding `c` with no `c` before it is the one `IndexOf` finds. */
  lemma {:induction false} IndexOfFirst(s: string, c: char, i: nat)
    requires i < |s| && s[i] == c && c !in s[..i]
    ensures IndexOf(s, c) == Some(i)
    decreases i
  {
    if i > 0 {
      assert s[0] == s[..i][0];
      assert s[1..][i - 1] == s[i];
      assert s[1..][..i - 1] == s[..i][1..];
      IndexOfFirst(s[1..], c, i - 1);
    }
  }

  /** "Xh Ym" reads back as X hours and Y minutes. */
  lemma ReadHoursMinutes(hs: string, ms: string, h: nat, m: nat)
    requires Decimal.Parse(hs) == Some(h) && Decimal.Parse(ms) == Some(m) && 'h' !in hs
    ensures ReadDuration(hs + "h " + ms + "m") == Some(h * 60 + m)
  {
    var s := hs + "h " + ms + "m";
    assert s[..|hs|] == hs;
    IndexOfFirst(s, 'h', |hs|);
    var rest := s[|hs| + 1..];
    assert rest == " " + ms + "m";
    assert rest[1..|rest| - 1] == ms;
  }

  /** "Xh" reads back as X hours. */
  lemma ReadHours(hs: string, h: nat)
    requires Decimal.Parse(hs) == Some(h) && 'h' !in hs
    ensures ReadDuration(hs + "h") == Some(h * 60)
  {
    var s := hs + "h";
    assert s[..|hs|] == hs;
    IndexOfFirst(s, 'h', |hs|);
    assert s[|hs| + 1..] == [];
  }

  /** "Ym" reads back as Y minutes. */
  lemma ReadMinutes(ms: string, m: nat)
    requires Decimal.Parse(ms) == Some(m) && 'h' !in ms
    ensures ReadDuration(ms + "m") == Some(m)
  {
    var s := ms + "m";
    assert s[..|s| - 1] == ms;
  }

  /** Distinct totals get distinct labels. */
  lemma FormatInjective(a: nat, b: nat)
    requires FormatMinutes(a) == FormatMinutes(b)
    ensures a == b
  {
  }

  /** An entry's `task`: the expanded object, or the bare primary key the API sends. */
  datatype TaskRef = TaskObject(title: string) | TaskKey(id: nat)

  datatype Entry = Entry(task: TaskRef, minutes: nat)

  /** One pie slice. */
  datatype Slice = Slice(name: string, value: int)

  /** The bucket an entry falls in: the task's title, or "Task #<id>". */
  function BucketName(t: TaskRef): string {
    match t
    case TaskObject(title) => title
    case TaskKey(id) => "Task #" + Decimal.Show(id)
  }

  /** `byTask[name] = (byTask[name] || 0) + minutes`: a new key goes last, an existing one grows in place. */
  function AddTo(b: seq<Slice>, name: string, minutes: int): (r: seq<Slice>)
    ensures |r| <= |b| + 1
  {
    if |b| == 0 then [Slice(name, minutes)]
    else if b[0].name == name then [b[0].(value := b[0].value + minutes)] + b[1..]
    else [b[0]] + AddTo(b[1..], name, minutes)
  }

  /** `pieData`: the entries folded into buckets in order; no name is repeated, and no slice lacks an entry. */
  function PieData(es: seq<Entry>): (r: seq<Slice>)
    ensures DistinctNames(r)
    ensures |r| <= |es|
  {
    if |es| == 0 then []
    else
      var b := PieData(es[..|es| - 1]);
      AddToNames(b, BucketName(es[|es| - 1].task), es[|es| - 1].minutes);
      AddTo(b, BucketName(es[|es| - 1].task), es[|es| - 1].minutes)
  }

  function Total(es: seq<Entry>): int {
    if |es| == 0 then 0 else Total(es[..|es| - 1]) + es[|es| - 1].minutes
  }

  /** The minutes of the entries that fall in bucket `name`. */
  function TotalFor(es: seq<Entry>, name: string): int {
    if |es| == 0 then 0
    else TotalFor(es[..|es| - 1], name) + (if BucketName(es[|es| - 1].task) == name then es[|es| - 1].minutes else 0)
  }

  function SumValues(b: seq<Slice>): int {
    if |b| == 0 then 0 else b[0].value + SumValues(b[1..])
  }

  /** The value shown for `name`: the sum over the slices so named. */
  function ValueOf(b: seq<Slice>, name: string): int {
    if |b| == 0 then 0 else (if b[0].name == name then b[0].value else 0) + ValueOf(b[1..], name)
  }

  predicate DistinctNames(b: seq<Slice>) {
    forall i, j :: 0 <= i < j < |b| ==> b[i].name != b[j].name
  }

  function Names(b: seq<Slice>): set<string> {
    if |b| == 0 then {} else {b[0].name} + Names(b[1..])
  }

  /** The bucket names the entries fall in. */
  function BucketNames(es: seq<Entry>): set<string> {
    if |es| == 0 then {} else BucketNames(es[..|es| - 1]) + {BucketName(es[|es| - 1].task)}
  }

  lemma {:induction false} NamesListed(b: seq<Slice>, k: string)
    ensures k in Names(b) <==> exists i :: 0 <= i < |b| && b[i].name == k
  {
    if |b| > 0 {
      NamesListed(b[1..], k);
      if k in Names(b[1..]) {
        var i :| 0 <= i < |b[1..]| && b[1..][i].name == k;
        assert b[i + 1].name == k;
      }
      if exists i :: 0 <= i < |b| && b[i].name == k {
        var i :| 0 <= i < |b| && b[i].name == k;
        if i > 0 { assert b[1..][i - 1].name == k; }
      }
    }
  }

  lemma {:induction false} AddToSums(b: seq<Slice>, name: string, minutes: int)
    ensures SumValues(AddTo(b, name, minutes)) == SumValues(b) + minutes
    ensures forall k :: ValueOf(AddTo(b, name, minutes), k) == ValueOf(b, k) + (if k == name then minutes else 0)
  {
    if |b| > 0 && b[0].name != name {
      AddToSums(b[1..], name, minutes);
      assert AddTo(b, name, minutes)[1..] == AddTo(b[1..], name, minutes);
    } else if |b| > 0 {
      assert AddTo(b, name, minutes)[1..] == b[1..];
    }
  }

  lemma {:induction false} AddToNames(b: seq<Slice>, name: string, minutes: int)
    requires DistinctNames(b)
    ensures DistinctNames(AddTo(b, name, minutes))
    ensures Names(AddTo(b, name, minutes)) == Names(b) + {name}
  {
    var r := AddTo(b, name, minutes);
    if |b| > 0 && b[0].name != name {
      var rest := AddTo(b[1..], name, minutes);
      AddToNames(b[1..], name, minutes);
      assert r == [b[0]] + rest && r[1..] == rest;
      forall i, j | 0 <= i < j < |r| ensures r[i].name != r[j].name {
        if i == 0 {
          NamesListed(b[1..], b[0].name);
          NamesListed(rest, b[0].name);
          assert r[j] == rest[j - 1];
        } else {
          assert r[i] == rest[i - 1] && r[j] == rest[j - 1];
        }
      }
    } else if |b| > 0 {
      assert r[1..] == b[1..];
    }
  }

  /**
   * The pie buckets: one slice per bucket name that occurs, named once;
   * each slice holds exactly its entries' minutes, and the slices add up
   * to all minutes logged.
   */
  lemma {:induction false} PieDataTotals(es: seq<Entry>)
    ensures SumValues(PieData(es)) == Total(es)
    ensures forall k :: ValueOf(PieData(es), k) == TotalFor(es, k)
  {
    if |es| > 0 {
      var init := es[..|es| - 1];
      var last := es[|es| - 1];
      PieDataTotals(init);
      AddToSums(PieData(init), BucketName(last.task), last.minutes);
    }
  }

  /** One slice per bucket name that occurs, each named once. */
  lemma {:induction false} PieDataBuckets(es: seq<Entry>)
    ensures DistinctNames(PieData(es))
    ensures Names(PieData(es)) == BucketNames(es)
  {
    if |es| > 0 {
      var init := es[..|es| - 1];
      var last := es[|es| - 1];
      PieDataBuckets(init);
      AddToNames(PieData(init), BucketName(last.task), last.minutes);
    }
  }

  /** A bucket name occurs exactly when some entry falls in it. */
  lemma {:induction false} BucketNamesListed(es: seq<Entry>, k: string)
    ensures k in BucketNames(es) <==> exists i :: 0 <= i < |es| && BucketName(es[i].task) == k
  {
    if |es| > 0 {
      var init := es[..|es| - 1];
      BucketNamesListed(init, k);
      if k in BucketNames(init) {
        var i :| 0 <= i < |init| && BucketName(init[i].task) == k;
        assert es[i] == init[i];
      }
      if exists i :: 0 <= i < |es| && BucketName(es[i].task) == k {
        var i :| 0 <= i < |es| && BucketName(es[i].task) == k;
        if i < |init| { assert init[i] == es[i]; }
      }
    }
  }

  /** One row of the summary's `per_day`. */
  datatype Day = Day(date: string, minutes: int)

  /** The summary response; `perDay` is absent when the response lacks it. */
  datatype Summary = Summary(perDay: Option<seq<Day>>)

  datatype Bar = Bar(date: string, minutes: int)

  /** `slice(5)`: everything after the fifth character, or nothing for shorter text. */
  function DropFive(s: string): (r: string)
    ensures |s| >= 5 ==> s == s[..5] + r
    ensures |s| < 5 ==> r == []
  {
    if |s| >= 5 then s[5..] else []
  }

  /** `barData`: one bar per summary day, in the same order, the year prefix cut from its date. */
  function BarData(summary: Option<Summary>): (r: seq<Bar>)
    ensures (summary.None? || summary.value.perDay.None?) ==> r == []
    ensures (summary.Some? && summary.value.perDay.Some? ==>
               var days := summary.value.perDay.value;
               && |r| == |days|
               && forall i :: 0 <= i < |days| ==>
                    (&& r[i].minutes == days[i].minutes
                     && (|days[i].date| >= 5 ==> days[i].date == days[i].date[..5] + r[i].date)
                     && (|days[i].date| < 5 ==> r[i].date == [])))
  {
    match summary
    case None => []
    case Some(s) =>
      match s.perDay
      case None => []
      case Some(days) => seq(|days|, i requires 0 <= i < |days| => Bar(DropFive(days[i].date), days[i].minutes))
  }
}

=== FILE: timetrack.dfy ===
/**
 * Time entries: an owner-scoped viewset. At most one entry per (user, task,
 * date); minutes are a non-negative 32-bit column; entries list newest date
 * first, then newest creation.
 */
module TimeTrack {
  import opened Wrappers
  import opened Tables
  import opened Store
  import opened Ordering

  /** The largest value the minutes column holds. */
  const MaxMinutes: int := 2147483647

  function EntryDate(w: World, e: Id): int {
    if Live(w.timeEntries, e) then w.timeEntries[e].value.date else 0
  }

  function EntryCreatedAt(w: World, e: Id): int {
    if Live(w.timeEntries, e) then w.timeEntries[e].value.createdAt else 0
  }

  predicate Owns(w: World, u: Id, e: Id) {
    Live(w.timeEntries, e) && w.timeEntries[e].value.user == u
  }

  /** `get_queryset` in the model's default order: the requester's entries, newest date first, then newest creation. */
  function EntriesOf(w: World, u: Id): (r: seq<Id>)
    ensures SortedDesc2(r, (e: Id) => EntryDate(w, e), (e: Id) => EntryCreatedAt(w, e))
    ensures forall e: Id :: e in r <==> Owns(w, u, e)
  {
    var mine := Where(w.timeEntries, (e: Id, row: TimeEntry) => row.user == u);
    var first := (e: Id) => EntryDate(w, e);
    var second := (e: Id) => EntryCreatedAt(w, e);
    SortDesc2SameElements(mine, first, second);
    SortDesc2(mine, first, second)
  }

  /** Detail routes reach only the requester's own entries. */
  function GetEntry(w: World, u: Id, e: Id): (r: Result<TimeEntry, Error>)
    ensures r.Ok? <==> e in EntriesOf(w, u)
    ensures r.Ok? ==> r.value == w.timeEntries[e].value
    ensures r.Err? ==> r.error == NotFound
  {
    if Owns(w, u, e) then Ok(w.timeEntries[e].value) else Err(NotFound)
  }

  /**
   * The writable fields of a time-entry request; `None` is an absent field.
   * The note column is nullable, so a given note is either null (`Some(None)`)
   * or text.
   */
  datatype EntryInput = EntryInput(date: Option<int>, minutes: Option<int>, note: Option<Option<string>>)

  /** The minutes field: absent means the default 0; otherwise within the column's range. */
  function MinutesField(m: Option<int>): (r: Result<nat, Error>)
    ensures r.Ok? <==> m.None? || 0 <= m.value <= MaxMinutes
    ensures r.Ok? ==> r.value == m.GetOr(0)
    ensures r.Err? ==> r.error == BadRequest(OutOfRange("minutes"))
  {
    match m
    case None => Ok(0)
    case Some(v) => if 0 <= v <= MaxMinutes then Ok(v) else Err(BadRequest(OutOfRange("minutes")))
  }

  /** The serializer on create: a date is required; minutes as above. */
  function ValidateNew(input: EntryInput): (r: Result<(int, nat), Error>)
    ensures r.Ok? <==> input.date.Some? && MinutesField(input.minutes).Ok?
    ensures r.Ok? ==> r.value == (input.date.value, input.minutes.GetOr(0))
    ensures r.Err? ==> r.error.BadRequest?
  {
    if input.date.None? then Err(BadRequest(Required("date")))
    else
      var minutes :- MinutesField(input.minutes);
      Ok((input.date.value, minutes))
  }

  /**
   * `create` AS WRITTEN: the serializer declares `task` read-only, so no
   * task reaches the save, and `perform_create` supplies only the user. The
   * insert then violates the task column's NOT NULL constraint whatever the
   * request holds: no entry is ever created.
   */
  function CreateEntryAsWritten(w: World, u: Id, input: EntryInput, now: int): (r: Outcome<Id>)
    ensures r.world == w
    ensures r.result.Err?
    ensures ValidateNew(input).Ok? ==> r.result == Err(ServerError(NullColumn))
  {
    match ValidateNew(input)
    case Err(e) => Outcome(w, Err(e))
    case Ok(_) => Outcome(w, Err(ServerError(NullColumn)))
  }

  /** At most one entry per (user, task, date). */
  ghost predicate UniqueEntries(w: World) {
    forall i: Id, j: Id ::
      (Live(w.timeEntries, i) && Live(w.timeEntries, j)
       && w.timeEntries[i].value.user == w.timeEntries[j].value.user
       && w.timeEntries[i].value.task == w.timeEntries[j].value.task
       && w.timeEntries[i].value.date == w.timeEntries[j].value.date) ==> i == j
  }

  /** The requester already has an entry for this task on this date. */
  predicate EntryExists(w: World, u: Id, task: Id, date: int) {
    exists e :: 0 <= e < |w.timeEntries| && w.timeEntries[e].Some?
      && w.timeEntries[e].value.user == u && w.timeEntries[e].value.task == task && w.timeEntries[e].value.date == date
  }

  /**
   * `create` as intended: the task is taken from the request (it must
   * exist), the user is always the requester, and a second entry for the
   * same (user, task, date) is refused.
   */
  function CreateEntry(w: World, u: Id, task: Option<Id>, input: EntryInput, now: int): (r: Outcome<Id>)
    ensures r.result.Err? ==> r.world == w
    ensures (r.result.Ok? <==>
               (ValidateNew(input).Ok? && task.Some? && Live(w.tasks, task.value)
                && !EntryExists(w, u, task.value, input.date.value)))
    ensures r.result.Ok? ==>
              && r.result.value == |w.timeEntries|
              && r.world == w.(timeEntries := Insert(w.timeEntries,
                                 TimeEntry(u, task.value, input.date.value, input.minutes.GetOr(0), input.note.GetOr(None), now)))
  {
    match ValidateNew(input)
    case Err(e) => Outcome(w, Err(e))
    case Ok((date, minutes)) =>
      if task.None? then Outcome(w, Err(BadRequest(Required("task"))))
      else if !Live(w.tasks, task.value) then Outcome(w, Err(BadRequest(InvalidPk("task"))))
      else if EntryExists(w, u, task.value, date) then Outcome(w, Err(BadRequest(NotUnique("task"))))
      else Outcome(w.(timeEntries := Insert(w.timeEntries, TimeEntry(u, task.value, date, minutes, input.note.GetOr(None), now))),
                   Ok(|w.timeEntries|))
  }

  /** The intended create keeps (user, task, date) unique and lists the new entry for its creator. */
  lemma CreateEntryKeepsEntriesUnique(w: World, u: Id, task: Option<Id>, input: EntryInput, now: int)
    requires UniqueEntries(w)
    ensures var r := CreateEntry(w, u, task, input, now);
            UniqueEntries(r.world) && (r.result.Ok? ==> r.result.value in EntriesOf(r.world, u))
  {
    var r := CreateEntry(w, u, task, input, now);
    if r.result.Ok? {
      var w' := r.world;
      var n := |w.timeEntries|;
      forall i: Id, j: Id | Live(w'.timeEntries, i) && Live(w'.timeEntries, j)
        && w'.timeEntries[i].value.user == w'.timeEntries[j].value.user
        && w'.timeEntries[i].value.task == w'.timeEntries[j].value.task
        && w'.timeEntries[i].value.date == w'.timeEntries[j].value.date
        ensures i == j
      {
        if i != n && j != n {
          assert Get(w'.timeEntries, i) == Get(w.timeEntries, i) && Get(w'.timeEntries, j) == Get(w.timeEntries, j);
        }
      }
    }
  }

  /**
   * `update` / `partial_update` on an own entry: date, minutes and note may
   * change, the user and task never do. A full update needs a date. The
   * uniqueness of (user, task, date) is left to the database.
   */
  function UpdateEntry(w: World, u: Id, e: Id, input: EntryInput, partial: bool): (r: Outcome<TimeEntry>)
    ensures r.result.Err? ==> r.world == w
    ensures !Owns(w, u, e) ==> r.result == Err(NotFound)
    ensures r.result.Ok? <==>
              && Owns(w, u, e) && (partial || input.date.Some?) && MinutesField(input.minutes).Ok?
              && !(input.date.Some? && EntryExistsElsewhere(w, e, u, w.timeEntries[e].value.task, input.date.value))
    ensures r.result == Err(ServerError(UniqueViolation)) <==>
              && Owns(w, u, e) && (partial || input.date.Some?) && MinutesField(input.minutes).Ok?
              && input.date.Some? && EntryExistsElsewhere(w, e, u, w.timeEntries[e].value.task, input.date.value)
    ensures r.result.Ok? ==>
              var before := w.timeEntries[e].value;
              && r.result.value.user == before.user && r.result.value.task == before.task
              && r.result.value.createdAt == before.createdAt
              && r.result.value.date == input.date.GetOr(before.date)
              && (input.minutes.Some? ==> r.result.value.minutes == input.minutes.value)
              && (input.minutes.None? ==> r.result.value.minutes == before.minutes)
              && r.result.value.note == input.note.GetOr(before.note)
              && r.world == w.(timeEntries := w.timeEntries[e := Some(r.result.value)])
  {
    match GetEntry(w, u, e)
    case Err(err) => Outcome(w, Err(err))
    case Ok(row) =>
      if !partial && input.date.None? then Outcome(w, Err(BadRequest(Required("date"))))
      else
        match MinutesField(input.minutes)
        case Err(err) => Outcome(w, Err(err))
        case Ok(_) =>
          var date := input.date.GetOr(row.date);
          if input.date.Some? && EntryExistsElsewhere(w, e, row.user, row.task, date) then
            Outcome(w, Err(ServerError(UniqueViolation)))
          else
            var row' := row.(date := date, minutes := if input.minutes.Some? then input.minutes.value else row.minutes,
                             note := input.note.GetOr(row.note));
            Outcome(w.(timeEntries := w.timeEntries[e := Some(row')]), Ok(row'))
  }

  /** Another entry than `e` holds this (user, task, date). */
  predicate EntryExistsElsewhere(w: World, e: Id, u: Id, task: Id, date: int) {
    exists k :: 0 <= k < |w.timeEntries| && k != e && w.timeEntries[k].Some?
      && w.timeEntries[k].value.user == u && w.timeEntries[k].value.task == task && w.timeEntries[k].value.date == date
  }

  /** `destroy`: only an own entry, and only it, is removed. */
  function DeleteEntry(w: World, u: Id, e: Id): (r: Outcome<()>)
    ensures r.result.Ok? <==> Owns(w, u, e)
    ensures r.result.Err? ==> r == Outcome(w, Err(NotFound))
    ensures r.result.Ok? ==> r.world == w.(timeEntries := Delete(w.timeEntries, e))
  {
    if Owns(w, u, e) then Outcome(w.(timeEntries := Delete(w.timeEntries, e)), Ok(())) else Outcome(w, Err(NotFound))
  }

  /** Someone else's entry is invisible: reading, editing and deleting it are all not-found and change nothing. */
  lemma OthersEntriesUnreachable(w: World, u: Id, e: Id, input: EntryInput, partial: bool)
    requires Live(w.timeEntries, e) && w.timeEntries[e].value.user != u
    ensures e !in EntriesOf(w, u)
    ensures GetEntry(w, u, e) == Err(NotFound)
    ensures UpdateEntry(w, u, e, input, partial) == Outcome(w, Err(NotFound))
    ensures DeleteEntry(w, u, e) == Outcome(w, Err(NotFound))
  {
  }
}

=== FILE: uuid.dfy ===
/**
 * UUID text: `str(uuid)` prints the 8-4-4-4-12 lower-case hexadecimal form;
 * the serializer's UUID field parses text the way `uuid.UUID(hex=...)` does,
 * stripping braces from both ends, dropping hyphens and requiring exactly 32
 * hexadecimal digits. A UUID is held as its 128-bit integer.
 */
module Uuid {
  import opened Wrappers

  predicate IsHex(c: char) {
    '0' <= c <= '9' || 'a' <= c <= 'f' || 'A' <= c <= 'F'
  }

  predicate AllHex(s: string) {
    forall i :: 0 <= i < |s| ==> IsHex(s[i])
  }

  function HexValue(c: char): (d: nat)
    requires IsHex(c)
    ensures d < 16
  {
    if '0' <= c <= '9' then c as int - '0' as int
    else if 'a' <= c <= 'f' then c as int - 'a' as int + 10
    else c as int - 'A' as int + 10
  }

  /** The lower-case digit `str(uuid)` prints. */
  function HexChar(d: nat): (c: char)
    requires d < 16
    ensures IsHex(c) && c != '-' && c != '{' && c != '}'
    ensures HexValue(c) == d
  {
    if d < 10 then ('0' as int + d) as char else ('a' as int + d - 10) as char
  }

  function Pow16(k: nat): (p: nat)
    ensures p >= 1
  {
    if k == 0 then 1 else 16 * Pow16(k - 1)
  }

  /** Number of UUID values: 16^32 = 2^128. */
  const Bound: nat := Pow16(32)

  /** The `k` low hexadecimal digits of `n`, most significant first. */
  function Digits(n: nat, k: nat): (s: string)
    ensures |s| == k && AllHex(s)
    ensures forall i :: 0 <= i < k ==> s[i] != '-' && s[i] != '{' && s[i] != '}'
  {
    if k == 0 then "" else Digits(n / 16, k - 1) + [HexChar(n % 16)]
  }

  /** The number a string of hexadecimal digits denotes. */
  function Value(s: string): nat
    requires AllHex(s)
  {
    if |s| == 0 then 0 else Value(s[..|s| - 1]) * 16 + HexValue(s[|s| - 1])
  }

  lemma {:induction false} ValueBelowPow(s: string)
    requires AllHex(s)
    ensures Value(s) < Pow16(|s|)
  {
    if |s| > 0 {
      ValueBelowPow(s[..|s| - 1]);
    }
  }

  lemma {:induction false} ValueDigits(n: nat, k: nat)
    requires n < Pow16(k)
    ensures Value(Digits(n, k)) == n
  {
    if k > 0 {
      var s := Digits(n, k);
      assert s[..|s| - 1] == Digits(n / 16, k - 1);
      ValueDigits(n / 16, k - 1);
    }
  }

  /** `s` with every hyphen removed. */
  function Unhyphen(s: string): (r: string)
    ensures |r| <= |s|
    ensures forall i :: 0 <= i < |r| ==> r[i] != '-'
  {
    if |s| == 0 then "" else (if s[0] == '-' then "" else [s[0]]) + Unhyphen(s[1..])
  }

  lemma {:induction false} UnhyphenConcat(a: string, b: string)
    ensures Unhyphen(a + b) == Unhyphen(a) + Unhyphen(b)
  {
    if |a| == 0 {
      assert a + b == b;
    } else {
      var ab := a + b;
      var head := if a[0] == '-' then "" else [a[0]];
      assert ab[0] == a[0];
      assert ab[1..] == a[1..] + b;
      assert Unhyphen(ab) == head + Unhyphen(ab[1..]);
      assert Unhyphen(a) == head + Unhyphen(a[1..]);
      UnhyphenConcat(a[1..], b);
    }
  }

  /** Appending a hyphen and then a hyphen-free group extends the unhyphenated text by that group. */
  lemma UnhyphenGroup(prefix: string, group: string)
    requires forall i :: 0 <= i < |group| ==> group[i] != '-'
    ensures Unhyphen(prefix + "-" + group) == Unhyphen(prefix) + group
  {
    var a := prefix + "-";
    assert Unhyphen("-") == "" + Unhyphen("-"[1..]);
    assert "-"[1..] == "";
    UnhyphenConcat(prefix, "-");
    assert Unhyphen(a) == Unhyphen(prefix);
    UnhyphenConcat(a, group);
    UnhyphenPlain(group);
  }

  lemma {:induction false} UnhyphenPlain(s: string)
    requires forall i :: 0 <= i < |s| ==> s[i] != '-'
    ensures Unhyphen(s) == s
  {
    if |s| > 0 {
      UnhyphenPlain(s[1..]);
    }
  }

  predicate IsBrace(c: char) {
    c == '{' || c == '}'
  }

  function StripLeft(s: string): (r: string)
    ensures |r| <= |s|
  {
    if |s| > 0 && IsBrace(s[0]) then StripLeft(s[1..]) else s
  }

  function StripRight(s: string): (r: string)
    ensures |r| <= |s|
  {
    if |s| > 0 && IsBrace(s[|s| - 1]) then StripRight(s[..|s| - 1]) else s
  }

  /** `text.strip('{}')`: braces removed from both ends. */
  function StripBraces(s: string): (r: string)
    ensures |r| <= |s|
    ensures |s| > 0 && !IsBrace(s[0]) && !IsBrace(s[|s| - 1]) ==> r == s
  {
    StripRight(StripLeft(s))
  }

  /** The serializer's UUID field applied to text. */
  function Parse(s: string): (r: Option<nat>)
    ensures r.Some? <==> |Unhyphen(StripBraces(s))| == 32 && AllHex(Unhyphen(StripBraces(s)))
    ensures r.Some? ==> r.value < Bound
  {
    var h := Unhyphen(StripBraces(s));
    if |h| == 32 && AllHex(h) then
      ValueBelowPow(h);
      Some(Value(h))
    else None
  }

  /** `str(uuid)`: 32 lower-case digits grouped 8-4-4-4-12 by hyphens. */
  function Format(n: nat): (s: string)
    requires n < Bound
    ensures |s| == 36
    ensures s[8] == '-' && s[13] == '-' && s[18] == '-' && s[23] == '-'
  {
    Grouped(Digits(n, 32))
  }

  /** 32 digits grouped 8-4-4-4-12 by hyphens. */
  function Grouped(h: string): (s: string)
    requires |h| == 32
    ensures |s| == 36 && s[0] == h[0] && s[35] == h[31]
    ensures s[8] == '-' && s[13] == '-' && s[18] == '-' && s[23] == '-'
  {
    h[..8] + "-" + h[8..12] + "-" + h[12..16] + "-" + h[16..20] + "-" + h[20..]
  }

  /** Dropping the hyphens of a grouped hyphen-free text gives the text back. */
  lemma UnhyphenGrouped(h: string)
    requires |h| == 32 && forall i :: 0 <= i < |h| ==> h[i] != '-'
    ensures Unhyphen(Grouped(h)) == h
  {
    var s1 := h[..8];
    var s2 := s1 + "-" + h[8..12];
    var s3 := s2 + "-" + h[12..16];
    var s4 := s3 + "-" + h[16..20];
    assert Grouped(h) == s4 + "-" + h[20..];
    UnhyphenPlain(s1);
    UnhyphenGroup(s1, h[8..12]);
    UnhyphenGroup(s2, h[12..16]);
    UnhyphenGroup(s3, h[16..20]);
    UnhyphenGroup(s4, h[20..]);
    assert h[..8] + h[8..12] + h[12..16] + h[16..20] + h[20..] == h;
  }

  /** The printed form of a UUID parses back to the same UUID. */
  lemma ParseFormat(n: nat)
    requires n < Bound
    ensures Parse(Format(n)) == Some(n)
  {
    var h := Digits(n, 32);
    var s := Format(n);
    assert s == Grouped(h);
    assert StripBraces(s) == s;
    UnhyphenGrouped(h);
    ValueDigits(n, 32);
  }

  /** Braces around a UUID, as `{...}`, are accepted and ignored. */
  lemma ParseBraced(n: nat)
    requires n < Bound
    ensures Parse("{" + Format(n) + "}") == Some(n)
  {
    var s := Format(n);
    var b := "{" + s + "}";
    assert b[1..] == s + "}";
    assert StripLeft(b) == StripLeft(s + "}");
    var h := Digits(n, 32);
    assert (s + "}")[0] == h[0];
    assert StripLeft(s + "}") == s + "}";
    assert (s + "}")[..|s + "}"| - 1] == s;
    assert s[35] == h[31];
    assert StripRight(s) == s;
    assert StripBraces(b) == s;
    ParseFormat(n);
  }
}

=== FILE: wrappers.dfy ===
/** Option and Result, the failure-compatible wrappers used throughout the model. */
module Wrappers {

  datatype Option<+T> = None | Some(value: T) {

    /** The wrapped value, or `default` when there is none. */
    function GetOr(default: T): T {
      match this
      case Some(v) => v
      case None => default
    }
  }

  datatype Result<+T, +E> = Ok(value: T) | Err(error: E) {

    predicate IsFailure() {
      Err?
    }

    function PropagateFailure<U>(): Result<U, E>
      requires Err?
    {
      Err(error)
    }

    function Extract(): T
      requires Ok?
    {
      value
    }
  }
}
